=== FILE: README.md ===
# CSV/XLSX to RAG1/RAG2 standardiser — a Dafny model

This project models the deterministic core of a service that takes a CSV or XLSX
upload and turns its rows into records of one of two target schemas:

- **RAG1**: articles and documents, with `articulo_id`, `tipo`, `numero`, `titulo`, `texto`, …
- **RAG2**: services and tickets, with `descripcion`, `tipo`, `servicio`, `categoria`, …

A request goes through these stages, each a module:

- **Ingestion.** A parsed frame is accepted when its file type is supported and it is not empty (`Pipeline.Ingest`, `FileHandlers`).
- **Cleaning.** Whitespace is stripped, special characters are removed, and the missing-value policy is applied (`Cleaning`). A label that names two columns makes pandas hand whole columns to the per-cell lambdas. Whitespace stripping then leaves those cells alone, and special-character removal raises.
- **Column mapping.** An ordered keyword table picks a target field for each column, and a long-text heuristic may add one more column. Only the mapped columns are kept (`ColumnMapper`, `OrderedMaps`).
- **Normalisation.** Column labels get a canonical form and mapped columns are coerced. Empty frames are rejected, and so are frames where two labels share a normal form, because the structure check raises on them (`Normalization`).
- **Standardisation.** The language model's transformation rules are applied to every row. When its reply is not JSON, direct mapping with index-dependent defaults is used instead. Each record is then coerced to the target schema, and records the schema rejects are skipped (`Standardization`, `Schemas`).
- **Validation.** The model computes:
  - the schema-pass ratio;
  - completeness;
  - description warnings;
  - a status;
  - a blended quality score (`Validation`).
- **Endpoints.** `POST /standardize` checks the upload, then runs the pipeline (`Api.StandardizeUpload`). `POST /analyze` suggests a target schema from keywords (`Api.Analyze`). The Lambda entry point classifies events (`Handler`).

Data model:

- Cells are `Value = Null | Str | Int`.
- A frame is a sequence of column labels plus rows of cells by position.
- A row dictionary is a `map<string, Value>`.
- Python dicts whose insertion order matters are association lists (`OrderedMap`). Examples are the keyword tables, the column mapping and `_safe_get`'s scan.
- Ratios are exact reals, and every threshold is also stated as an integer cross-multiplication. For example, `is_valid` holds iff `5 * valid >= 4 * total`.

Inputs that the source obtains from the outside world are parameters here:

- the language model's reply, as a `LlmReply` or `AnalysisReply`;
- the record ids, as a sequence of distinct strings instead of `uuid4`;
- the upload size;
- the `MAX_FILE_SIZE_MB` setting;
- the Lambda event, as decoded JSON.

## Model

| member | source | states |
|---|---|---|
| `Values.Records` | src/core/standardization.py:50 | `to_dict(orient='records')` gives one dict per row, each the row read through its column labels |
| `Values.RowDictAt` | src/core/standardization.py:50 | a label that does not repeat further right reads its own cell in the row dict |
| `Values.PyInt` | src/core/standardization.py:305 | `int()` of an integer is itself and of a missing value raises |
| `Text.ParseIntToString` | src/core/standardization.py:305 | `int(str(i)) == i` for every integer |
| `Text.AfterLastIsLastPart` | main.py:154 | the text after the last separator is the last element of `split` |
| `OrderedMaps.Put` | src/core/pipeline.py:287 | `d[k] = v`: an existing key keeps its place, a new key goes last |
| `OrderedMaps.PutGet` | src/core/pipeline.py:287 | after `d[k] = v`, looking up `k` gives `v` |
| `OrderedMaps.PutOther` | src/core/pipeline.py:287 | `d[k] = v` leaves every other key's entry as it was |
| `OrderedMaps.FirstKeyFor` | src/core/standardization.py:422-425 | the scan of `mapping.items()` finds the first key holding the value, and none exactly when no key holds it |
| `OrderedMaps.FirstKeyForAt` | src/core/standardization.py:422-425 | the scan stops at the first entry that holds the value |
| `OrderedMaps.RenameKeysGet` | src/core/pipeline.py:90-94 | each renamed key carries the value of the last original key with that image |
| `OrderedMaps.RenameKeysInjective` | src/core/pipeline.py:90-94 | when no two keys share an image, renaming keeps order and values |
| `OrderedMaps.FromPairsDistinct` | src/core/pipeline.py:191-243 | a dict literal without repeated keys builds exactly its own entries in order |
| `FileHandlers.BaseNameIgnoresTrailing` | src/utils/file_handlers.py:17 | `Path(...).name` ignores a trailing '/' or "/." |
| `FileHandlers.BaseNameWithin` | src/utils/file_handlers.py:17 | the name, when not empty, is a piece of the path |
| `FileHandlers.DetectIgnoresTrailingSlash` | src/utils/file_handlers.py:17-23 | a trailing '/' never changes the detected type |
| `FileHandlers.TrailingSlashCsv` | src/utils/file_handlers.py:17-20 | "data.csv/" is a CSV file |
| `FileHandlers.DetectFileType` | src/utils/file_handlers.py:15-23 | "csv" iff the lower-cased suffix is ".csv", "xlsx" iff it is ".xlsx" or ".xls", otherwise the error carries that suffix |
| `FileHandlers.DetectByExtension` | src/utils/file_handlers.py:17-23 | for `stem.ext` only the last extension decides, compared case-insensitively |
| `FileHandlers.TarCsvExample` | src/utils/file_handlers.py:17 | "a.tar.CSV" is a CSV file |
| `FileHandlers.HiddenFileRejected` | src/utils/file_handlers.py:17 | ".csv" has no suffix, so its type is unsupported |
| `FileHandlers.GetFileInfo` | src/utils/file_handlers.py:64-72 | the counts are the frame's dimensions, the size is echoed, and the call raises exactly when the type is unsupported |
| `Cleaning.CleanWhitespace` | src/core/cleaning.py:18-31 | labels are stripped; a string cell of an object column whose stripped label no other column shares becomes exactly its stripped, trimmed form; every other cell is unchanged |
| `Cleaning.CleanWhitespaceKeepsMask` | src/core/cleaning.py:26-29 | stripping keeps every column's dtype |
| `Cleaning.CleanWhitespaceIdempotent` | src/core/cleaning.py:18-31 | stripping a second time changes nothing |
| `Cleaning.CleanWhitespaceSkipsRepeated` | src/core/cleaning.py:23-29 | two labels equal once stripped ("name", "name ") keep their cells unstripped |
| `Cleaning.RemoveSpecial` | src/core/cleaning.py:50-54 | only characters of the kept class remain: `\w`, whitespace and, by default, `.,;:-_` and the listed accented letters |
| `Cleaning.RemoveSpecialSubsequence` | src/core/cleaning.py:58 | removal only deletes characters |
| `Cleaning.RemoveSpecialCounts` | src/core/cleaning.py:50-58 | every kept character occurs in the result as often as in the input |
| `Cleaning.RemoveSpecialFiltered` | src/core/cleaning.py:50-58 | the result is the input with exactly the characters outside the kept class deleted |
| `Cleaning.RemoveSpecialCharacters` | src/core/cleaning.py:34-61 | raises iff an object column's label names another column too; otherwise nulls and non-object cells are untouched, and other object cells become `str(x)` with exactly the characters outside the kept class deleted |
| `Cleaning.RemoveSpecialCharactersIdempotent` | src/core/cleaning.py:56-59 | after a successful removal, removing again succeeds and changes nothing |
| `Cleaning.HandleMissingValues` | src/core/cleaning.py:77-98 | "drop" keeps exactly the rows without a null, in their original order and nothing else; "fill_empty" turns nulls into "" and keeps every row; any other strategy is the identity |
| `Cleaning.DropNullRowsCount` | src/core/cleaning.py:93-94 | the kept rows plus the null-holding rows account for every input row |
| `Cleaning.DropNullRowsAt` | src/core/cleaning.py:93-94 | a row without a null is kept, at its index minus the null rows before it |
| `Cleaning.DropNullRowsInOrder` | src/core/cleaning.py:93-94 | `dropna()` keeps the null-free rows in order and nothing else |
| `Cleaning.Clean` | src/core/cleaning.py:100-128 | raises iff special characters are removed and an object column's stripped label names another column too; otherwise the labels are the stripped originals |
| `Cleaning.CleanDefaults` | src/core/cleaning.py:100-128 | with default arguments a successful clean keeps every row and column and never alters a non-object column |
| `ColumnMapper.Rag2LiteralResolves` | src/core/pipeline.py:246-280 | the RAG2 literal with repeated `category`/`categoria` resolves to the table where they keep their first position and the value `categoria` |
| `ColumnMapper.FirstMatch` | src/core/pipeline.py:285-288 | the scan returns the first entry whose keyword occurs in the label, and none when no keyword occurs |
| `ColumnMapper.KeywordTarget` | src/core/pipeline.py:284-288 | a label gets a target iff some keyword occurs in its lower-cased form |
| `ColumnMapper.KeywordTargetAt` | src/core/pipeline.py:284-288 | the first entry whose keyword occurs in the label decides its target |
| `ColumnMapper.KeywordMappingGet` | src/core/pipeline.py:283-288 | a label is mapped by the keyword pass iff it is a column with a keyword hit, and to that hit's target |
| `ColumnMapper.FirstCandidate` | src/core/pipeline.py:292-300 | finds the first unmapped, uniquely-labelled column whose first three present values average more than 50 characters |
| `ColumnMapper.AutoMapCharacterised` | src/core/pipeline.py:292-306 | the heuristic adds the first qualifying column for the long-text field, and only when no column holds that field yet |
| `ColumnMapper.AutoMapSaturated` | src/core/pipeline.py:301-305 | once the long-text field is a mapping value the heuristic changes nothing |
| `ColumnMapper.MapColumns` | src/core/pipeline.py:282-306 | the final mapping extends the keyword mapping by at most one entry, with distinct keys that are column labels |
| `ColumnMapper.MapColumnsKeepsKeywordTargets` | src/core/pipeline.py:293 | the heuristic never changes an assignment made by the keyword pass |
| `ColumnMapper.MapColumnsAddsAtMostOne` | src/core/pipeline.py:292-306 | anything added is one qualifying column mapped to the long-text field when that field was free |
| `ColumnMapper.GenerateColumnMapping` | src/core/pipeline.py:173-306 | `_generate_column_mapping` maps only column labels, each at most once |
| `ColumnMapper.NeverSubcategoria` | src/core/pipeline.py:259-274 | the RAG2 keyword pass never yields `subcategoria` |
| `ColumnMapper.ShadowedTarget` | src/core/pipeline.py:285-288 | a keyword containing an earlier keyword is never the first match |
| `ColumnMapper.Sample` | src/core/pipeline.py:296 | `dropna().head(k)`: at most `k` present values, all from the column, and empty only when the column has none |
| `ColumnMapper.FilterColumns` | src/core/pipeline.py:81-82 | filtering keeps every row and only mapped columns |
| `ColumnMapper.FilterColumnsUnique` | src/core/pipeline.py:81-82 | with unique labels the filtered frame's columns are exactly the mapping keys in order |
| `ColumnMapperExamples.Rag1Example` | src/core/pipeline.py:191-243 | with RAG1, `doc_ref`, `header` and `body_content` map to `articulo_id`, `titulo` and `texto` |
| `ColumnMapperExamples.SubcategoriaColumn` | src/core/pipeline.py:259-274 | with RAG2 a `subcategoria` column maps to `categoria` |
| `Normalization.NormalizeNameCanonical` | src/core/normalization.py:24-30 | a normalised label is lower-case, trimmed, and has no blank or hyphen |
| `Normalization.NormalizeNameIdempotent` | src/core/normalization.py:24-30 | normalising a label twice is normalising it once |
| `Normalization.NormalizeColumnNames` | src/core/normalization.py:17-31 | same number of labels, in order, each canonical and the normal form of its original |
| `Normalization.NormalizeColumnNamesIdempotent` | src/core/normalization.py:17-31 | renaming the columns a second time changes nothing |
| `Normalization.RenameMappingKeysGet` | src/core/normalization.py:135-138 | each renamed key keeps the target of the last original key with that normal form |
| `Normalization.RenameMappingKeysInjective` | src/core/normalization.py:135-138 | when no two keys share a normal form, order and targets are kept |
| `Normalization.RenamedKeysCanonical` | src/core/normalization.py:135-138 | every key of the renamed mapping is a canonical label |
| `Normalization.InferAndConvertCell` | src/core/normalization.py:51-71 | a `numero` cell becomes its integer or 0, and 0 under a repeated label; other mapped cells become `str` with "nan"/"None" blanked, integers print so that `int()` reads them back, with ".0" in a float64 column; unmapped cells pass through |
| `Normalization.TextCellClean` | src/core/normalization.py:67-69 | a text cell is never "nan" or "None", and a missing value becomes "" |
| `Normalization.NullIssuesExact` | src/core/normalization.py:98-108 | an issue names a column exactly when more than 90% of its cells are null |
| `Normalization.ValidateDataStructure` | src/core/normalization.py:76-110 | an empty frame is invalid with that as the only issue; otherwise it raises iff a label repeats, and else the issues are the mostly-null columns |
| `Normalization.Normalize` | src/core/normalization.py:112-147 | raises iff the frame has no rows or no columns or two labels share a normal form, with the matching error; otherwise rows are kept and labels are canonical |
| `Normalization.NormalizeRejectsSharedNormalForm` | src/core/normalization.py:98-101 | two labels with one normal form make `normalize` raise |
| `Schemas.Rag1FromDict` | src/models/rag1_schema.py:15-23 | a constructed RAG1 record satisfies `0 <= numero <= 32767` and carries the dict's `id` and `numero` |
| `Schemas.Rag2FromDict` | src/models/rag2_schema.py:15-22 | a constructed RAG2 record carries the dict's `id` |
| `Schemas.Rag1RoundTrip` | src/models/rag1_schema.py:15-23 | dumping a RAG1 record and constructing again gives it back iff it is valid |
| `Schemas.Rag2RoundTrip` | src/models/rag2_schema.py:15-22 | dumping a RAG2 record and constructing again gives it back |
| `Schemas.Rag2AcceptsAllStrings` | src/models/rag2_schema.py:15-22 | any dict with the seven string fields and no embedding constructs |
| `Schemas.DumpAccepted` | src/core/standardization.py:471-472 | a dumped valid record constructs again under its own schema |
| `Schemas.MakeResponse` | src/models/rag1_schema.py:41-45 | a response exists iff the score is in [0,1], with the schema's default format |
| `Standardization.ApplyTransformation` | src/core/standardization.py:280-320 | a missing source gives the default; copy kinds and unknown kinds give `str(value)` |
| `Standardization.CopyKeepsString` | src/core/standardization.py:293-298 | copying a present string gives the string itself |
| `Standardization.CopyIfPresentZero` | src/core/standardization.py:300-301 | a present `0` is falsy and yields `None`, not the default |
| `Standardization.ToIntegerTotal` | src/core/standardization.py:303-307 | `convertir_a_entero` never fails: the integer when `int()` accepts, else the default, else 0 |
| `Standardization.ToIntegerRoundTrip` | src/core/standardization.py:303-305 | an integer, or its printed form, converts to itself |
| `Standardization.SplitAndJoinSemicolons` | src/core/standardization.py:312-313 | with a `;` present no `;` remains and each one becomes ", " |
| `Standardization.SplitAndJoinCommas` | src/core/standardization.py:314-315 | with commas and no `;` each comma becomes ", " |
| `Standardization.SplitAndJoinPlain` | src/core/standardization.py:316 | a string without either separator is unchanged |
| `Standardization.DefaultsTyped` | src/core/standardization.py:322-343 | RAG2 defaults are strings, RAG1 `numero` defaults to 0 and its optional fields to `None` |
| `Standardization.SafeGet` | src/core/standardization.py:412-431 | the result is the default or a present value of the row |
| `Standardization.SafeGetFirstKey` | src/core/standardization.py:422-429 | the first key targeting the field decides, whether or not its column is in the row |
| `Standardization.SafeGetUnmapped` | src/core/standardization.py:431 | no key targets the field: the default |
| `Standardization.SafeGetIntCases` | src/core/standardization.py:441-445 | a present integer is read as itself; an unparsable value gives the default |
| `Standardization.ApplyRules` | src/core/standardization.py:208-243 | the record has exactly `id`, `embedding` and the schema's field list, with the given id and a null embedding |
| `Standardization.FieldWithoutRule` | src/core/standardization.py:238-240 | a field without a rule takes the mapped lookup with the static default |
| `Standardization.FieldWithRule` | src/core/standardization.py:221-237 | a field with a rule takes the rule's transformation of its source cell |
| `Standardization.RuleMissingSource` | src/core/standardization.py:289-290 | a rule whose source cell is missing gives its own default, whatever its kind |
| `Standardization.ApplyTransformationRules` | src/core/standardization.py:164-206 | N rows give N records, the i-th built from row i with id i |
| `Standardization.MapToRag1` | src/core/standardization.py:364-387 | the fallback RAG1 dict has the fixed keys, the given id, a null embedding and an integer `numero` |
| `Standardization.MapToRag1Get` | src/core/standardization.py:375-385 | each RAG1 field of the fallback dict holds the mapped lookup with its own default |
| `Standardization.FallbackRag1FollowsIndex` | src/core/standardization.py:377-379 | unmapped, `articulo_id` is `ART` plus the zero-padded index and `numero` is the index |
| `Standardization.FallbackRag2FollowsIndex` | src/core/standardization.py:397 | unmapped, `descripcion` is `Registro` and the index |
| `Standardization.ApplyDirectMapping` | src/core/standardization.py:345-362 | N rows give N fallback records, the i-th built from row i with index i |
| `Standardization.NormalizeRag1Shape` | src/core/standardization.py:458-468 | the coerced dict carries the five required fields as strings, `numero` as the converted integer, the optional fields as string or `None`, and the row's `embedding` |
| `Standardization.CreateRag1Record` | src/core/standardization.py:451-472 | succeeds iff coercion and the schema accept; the record is valid and keeps the coerced `numero` and `id` |
| `Standardization.CreateRag2Record` | src/core/standardization.py:474-493 | fails only for a non-null `embedding` |
| `Standardization.Emit` | src/core/standardization.py:59-74 | the kept records are no more than the inputs, and every one is accepted by the schema |
| `Standardization.EmitLength` | src/core/standardization.py:59-74 | one record is emitted per row whose coercion succeeds, and no more |
| `Standardization.EmitPrefix` | src/core/standardization.py:59-74 | the records emitted from the first rows are a prefix of the output |
| `Standardization.EmitAt` | src/core/standardization.py:59-74 | a row whose coercion succeeds is emitted right after the records created from the rows before it |
| `Standardization.EmitKeepsCreated` | src/core/standardization.py:59-74 | the output is exactly the created records in row order |
| `Standardization.EmitRecords` | src/core/standardization.py:59-74 | the record loop computes exactly the kept records |
| `Standardization.Standardize` | src/core/standardization.py:27-74 | fails iff the reply is unusable; otherwise the schema-accepted records created from the transformed rows, one per row that coerces, in row order |
| `Standardization.FallbackOnlyOnDecodeError` | src/core/standardization.py:136-162 | direct mapping is used exactly when the reply is not JSON |
| `Standardization.StandardizeRag2KeepsAll` | src/core/standardization.py:474-493 | with a usable reply, RAG2 keeps every row |
| `Standardization.StandardizeRag1Numero` | src/core/standardization.py:451-472 | every emitted RAG1 record has `0 <= numero <= 32767` |
| `Standardization.TransformIdsDistinct` | src/core/standardization.py:185-187 | distinct supplied ids give distinct record ids |
| `Validation.Ratio` | src/core/validation.py:54 | the ratio times the total is the part, and it lies in [0,1] |
| `Validation.RatioThreshold` | src/core/validation.py:57 | a ratio reaches `num/den` iff `den * part >= num * total` |
| `Validation.Rejections` | src/core/validation.py:41-51 | one error per failing record, naming its index, in order |
| `Validation.RejectionsCount` | src/core/validation.py:41-51 | errors plus valid records add up to the total |
| `Validation.Validate` | src/core/validation.py:18-59 | empty gives `(False, 0.0, [no records])`; confidence is valid/total; valid iff `5*valid >= 4*total` |
| `Validation.ValidateAllAccepted` | src/core/validation.py:40-57 | a non-empty batch of accepted records is valid with confidence 1 and no errors |
| `Validation.ThresholdBoundary` | src/core/validation.py:56-57 | the 80% threshold is inclusive: 8 valid of 10 is valid with confidence 0.8, 7 of 10 is not |
| `Validation.ValidateAppendAccepted` | src/core/validation.py:41-57 | a valid batch stays valid when an accepted record is appended |
| `Validation.ValidateAppendRejected` | src/core/validation.py:41-57 | an invalid non-empty batch stays invalid when a rejected record is appended |
| `Validation.MissingFields` | src/core/validation.py:110-122 | exactly the required fields with a nonzero missing count, each with the number of records missing it |
| `Validation.MissingFieldsEmptyIffAllComplete` | src/core/validation.py:117-125 | no field is reported missing iff every record is complete |
| `Validation.DescriptionWarnings` | src/core/validation.py:127-147 | one warning for empty descriptions and one for short ones, each present iff its count is nonzero |
| `Validation.CheckIntegrity` | src/core/validation.py:86-165 | "empty" iff no records; completeness is complete/total; "good" iff `10*complete >= 9*total` and no warnings |
| `Validation.ShortDescriptionBlocksGood` | src/core/validation.py:160-163 | a short description forces "needs_review" |
| `Validation.AllCompleteIsGood` | src/core/validation.py:149-163 | all complete with no description problem gives "good" with completeness 1 |
| `Validation.EmptyDescriptionIncomplete` | src/core/validation.py:120-133 | an empty description makes its record incomplete |
| `Validation.ValidateStructure` | src/core/validation.py:61-84 | same validity, confidence and errors as `validate`; totals are the input length and the valid count |
| `Validation.QualityScore` | src/core/validation.py:167-186 | the blend lies in [0,1], is 1 iff both inputs are 1, and is at least 0.6 times the confidence |
| `Validation.EmptyBatchScoresZero` | src/core/validation.py:181-186 | an empty batch scores 0 |
| `Pipeline.Ingest` | src/core/ingestion.py:16-39 | succeeds iff the file type is supported and the frame is not empty, and then gives the frame |
| `Pipeline.Prepare` | src/core/pipeline.py:72-82 | raises iff cleaning does; otherwise the filtered frame keeps every row and only mapped columns |
| `Pipeline.NormalizeAndStandardize` | src/core/pipeline.py:86-106 | fails iff the prepared frame is empty or has two labels of one normal form, or the reply is unusable; otherwise the records `standardize` emits from the normalised frame, at most one per row, all accepted by the schema |
| `Pipeline.Respond` | src/core/pipeline.py:108-145 | the report is `validate_structure` of the records, `confidence_score` is `calculate_quality_score` of that report and lies in [0, 1], `success` is `is_valid`, and any emitted record gives confidence 1 and a score of at least 0.6 |
| `Pipeline.Process` | src/core/pipeline.py:57-162 | fails iff the type is unsupported, the frame is empty, cleaning raises, the prepared frame is empty or has two labels of one normal form, or the reply is unusable; on success the records are what `standardize` emits from the normalised prepared frame, the report is `validate_structure` of those records, `confidence_score` is `calculate_quality_score` of that report, `success` equals `is_valid`, and any emitted record gives confidence 1 |
| `Pipeline.ProcessAsWritten` | src/core/pipeline.py:100-106 | as written, every run that passes ingestion raises |
| `Pipeline.AsWrittenNeverCompletes` | src/core/pipeline.py:60 | every run the corrected pipeline completes is aborted by the code as written |
| `Pipeline.Rag2KeepsEveryRow` | src/core/pipeline.py:100-107 | a completed RAG2 run has one record per input row |
| `Pipeline.ResponseMappingNormalised` | src/core/pipeline.py:90-94 | the response mapping's keys are canonical labels |
| `Api.UploadExtension` | main.py:154 | the extension holds no dot |
| `Api.UploadExtensionOfName` | main.py:154 | the extension of `stem.ext` is `ext` lower-cased, whatever the stem |
| `Api.DotlessNameIsExtension` | main.py:154 | a dot-less name is its own extension |
| `Api.MaxFileSize` | main.py:166 | 50 MiB by default; a setting gives a limit iff `int()` accepts it |
| `Api.StandardizeUpload` | main.py:146-190 | empty name and bad extension give 400; 400 iff a gate fails; success iff every gate passes and the pipeline completes |
| `Api.SizeLimitInclusive` | main.py:166-171 | a file of exactly the limit passes the size gate and one byte more is refused |
| `Api.GateAdmitsWhatPipelineRejects` | main.py:154-159 | a name passing the extension gate but with no supported suffix ends in 500 |
| `Api.HiddenCsvPassesGateOnly` | main.py:154 | ".csv" passes the gate while its file type is unsupported |
| `Api.AnalysisOf` | main.py:267-276 | an undecodable analysis is the fixed dict with confidence 0.5 and the columns |
| `Api.KeywordScore` | main.py:283-284 | the score is the number of keywords that occur in some column, at most the number of keywords |
| `Api.Suggest` | main.py:279-286 | both scores are at most 5, and RAG1 iff its score is strictly higher |
| `Api.NoRag1KeywordSuggestsRag2` | main.py:283-286 | with no RAG1 keyword present, RAG2 is suggested |
| `Api.OnlyRag1KeywordsSuggestsRag1` | main.py:283-286 | all RAG1 keywords and no RAG2 keyword give scores 5 and 0 and RAG1 |
| `Api.AnalyzeAsWritten` | main.py:241 | as written, every request ends in 500 |
| `Api.AnalyzeAsWrittenRejectsAnalysable` | main.py:241 | every file the corrected endpoint analyses is answered with 500 as written |
| `Api.Analyze` | main.py:224-300 | succeeds iff the type is supported, the frame is non-empty, cleaning and normalising the labels do not raise, and the client call returns; reports the raw shape; the fallback parameters are the normalised labels |
| `Handler.DetectEventSource` | handler.py:60-80 | an S3 record wins; a `requestContext` gives ALB or API Gateway; `version` with `routeKey` gives API Gateway; otherwise unknown |
| `Handler.DetectWellShaped` | handler.py:60-80 | on well-shaped events detection never raises and picks exactly the first test that holds |
| `Handler.Dispatch` | handler.py:25-57 | S3 events go to the S3 handler, API Gateway and ALB to the adapter, the rest to a 400 naming the source |
| `Handler.S3TakesPriority` | handler.py:67-70 | an S3 record wins over every other key |
| `Handler.BareEventRejected` | handler.py:77-80 | an event without the keys looked at is refused with 400 |
| `Handler.RecordsObjectRaises` | handler.py:67-68 | `Records` holding a non-empty object raises `KeyError` on `[0]` |
| `Handler.StringRecordMatchesSubstring` | handler.py:69 | a string record matches "s3" as a substring |

## Left out

- File reading is not modelled. That covers `FileHandler.read_file`, pandas parsing with the latin-1 retry, and `clean_for_json`. A frame arrives already parsed as cells that are null, string or integer. Floats, dates and NaN other than as null are not represented.
- `DataIngestion.ingest` returns one frame, but pipeline.py:60 unpacks it as a pair together with images. The corrected `Pipeline.Process` follows the evident intent and leaves the images out. Image extraction (src/utils/image_extractor.py) is not part of this model.
- The language model, the prompt text, the client, timing and logging are not modelled. Replies are inputs.
  - `LlmReply.Unusable` stands for every reply whose use raises outside the `JSONDecodeError` handler: a client exception, a JSON value that is not an object, or a rule that is not an object. It aborts the run.
- `uuid4` is not modelled. Ids are a supplied sequence, and uniqueness is proved only from distinct ids.
- Floating point is not modelled. Ratios are exact rationals.
  - `round(..., 3)` and `round(processing_time, 2)` are not modelled.
  - `Validation.ValidateStructure`: `valid_records` is the exact count, whereas `int(total * confidence)` on floats can undercount (49 · (1/49) < 1).
  - `pd.to_numeric` on decimal strings (truncation through float) is not modelled. A `numero` cell parses as an integer or becomes 0.
  - A rule's `valor_por_defecto` is a `Value`: a string, an integer or null. A JSON float or boolean default cannot be written, so its printed form ("1.5", "True") is not modelled.
- Python `int()` is modelled on ASCII digits with surrounding whitespace and a sign. Underscores and other Unicode digits are not modelled.
- Character classes beyond Latin-1 are not modelled:
  - `str.lower` and `str.isspace` are given on ASCII and Latin-1, plus the Unicode spaces;
  - `\w` is given on ASCII and Latin-1 letters, digits and `_`.
  - Characters beyond Latin-1 are therefore treated as non-word, non-space and caseless. The model's `Cleaning.RemoveSpecialCharacters` deletes letters such as 'ж' or '中' that Python's `\w` keeps, and `Text.Lower` leaves 'Ж' unchanged. These contracts match the source only on Latin-1 text.
- `normalize_encoding` is not modelled. It is the identity on well-formed strings.
- The per-column dtype summary of `validate_data_structure` and the `/analyze` dtype strings and sample rows are not modelled.
- `Normalization.InferAndConvertCell`: an integer in a float64 column prints as `IntToString(i) + ".0"`. pandas prints values of 1e16 and beyond in exponent form, and loses precision beyond 2^53. Neither is modelled.
- Under a repeated label, `infer_and_convert_types` converts whole frames instead of single columns. The model assigns those cells values, but `normalize` raises on such frames anyway, so the values are never observed.
- `Schemas.Rag1FromDict` requires `numero` to hold an integer, so the lax coercion of numeric strings that Pydantic performs is not modelled. The only caller passes the integer that `_normalize_rag1` has already converted.
- `FileHandlers.BaseName` parses POSIX paths. Windows separators are not modelled.
- `Api.MaxFileSize`: the default "50" is read as the integer 50 instead of going through `int()`.
- FastAPI routing, Mangum, boto3 and `handle_s3_event` are not modelled. `Handler.Dispatch` only names the destination.
- `Handler.DetectEventSource`: JSON numbers are integers. Floats behave the same for `in`, `len` and `[0]` (they raise `TypeError`), so nothing is lost.
- `generate_embeddings` is not modelled. Embeddings are always `None`, so records never carry a vector.

## Findings

| source | as written | input that shows it | evidently intended | confidence | as-written member | corrected member |
|---|---|---|---|---|---|---|
| main.py:241 | `normalization.normalize(df_clean)` omits the required `column_mapping` and `target_rag` arguments, so it raises `TypeError` and the endpoint answers 500 | any supported, non-empty CSV uploaded to `/analyze` | normalise the cleaned frame's labels with an empty mapping | high; not executed | `Api.AnalyzeAsWritten` | `Api.Analyze` |
| src/core/pipeline.py:100-106 | `standardize` receives five positional arguments but declares four parameters, and `ingest`'s single frame is unpacked as a pair (line 60), so every run that passes ingestion raises and `/standardize` answers 500 | any supported, non-empty CSV uploaded to `/standardize` | run the stages on the ingested frame with the four-argument `standardize` | medium, the deployed `standardize` may take an image argument; not executed | `Pipeline.ProcessAsWritten` | `Pipeline.Process` |

=== FILE: api.dfy ===
/**
 * The HTTP endpoints: the upload gates of `POST /standardize` in front of the
 * pipeline, and `POST /analyze` with its keyword-based RAG suggestion.
 *
 * Reading the upload and the environment are inputs: `size` is the length of
 * the uploaded bytes and `maxMbSetting` the `MAX_FILE_SIZE_MB` variable, if set.
 */
module Api {
  import opened Wrappers
  import opened Text
  import opened Values
  import opened Schemas
  import opened Counting
  import opened FileHandlers
  import opened Cleaning
  import opened Normalization
  import opened Standardization
  import opened Pipeline

  const BadRequest: int := 400
  const InternalServerError: int := 500

  /** What the `detail` of an `HTTPException` reports. */
  datatype ErrorDetail =
    | InvalidFileName                   // "Nombre de archivo no válido"
    | UnsupportedExtension(ext: string) // "Tipo de archivo no soportado: {ext}. Use CSV o XLSX"
    | FileTooLarge(maxBytes: int)       // "Archivo muy grande. Máximo: ...MB"
    | ProcessingFailed                  // "Error procesando archivo: ..."
    | AnalysisFailed                    // "Error analizando archivo: ..."

  datatype HttpError = HttpError(status: int, detail: ErrorDetail)

  // ---------------------------------------------------------------------------
  // POST /standardize
  // ---------------------------------------------------------------------------

  const DefaultMaxFileSizeMb: int := 50

  const AllowedExtensions: seq<string> := ["csv", "xlsx", "xls"]

  /** `file.filename.lower().split('.')[-1]`: the lower-cased text after the last dot. */
  function UploadExtension(filename: string): (ext: string)
    ensures '.' !in ext
    ensures |ext| <= |filename|
  {
    AfterLast(Lower(filename), '.')
  }

  /** `int(os.getenv("MAX_FILE_SIZE_MB", "50")) * 1024 * 1024`; `None` where `int` raises. */
  function MaxFileSize(maxMbSetting: Option<string>): (r: Option<int>)
    ensures maxMbSetting.None? ==> r == Some(50 * 1024 * 1024)
    ensures maxMbSetting.Some? ==> (r.Some? <==> ParseInt(maxMbSetting.value).Some?)
    ensures r.Some? ==> r.value % (1024 * 1024) == 0
  {
    var mb := match maxMbSetting
      case None => Some(DefaultMaxFileSizeMb)
      case Some(setting) => ParseInt(setting);
    match mb
    case Some(n) => MebibytesWhole(n); Some(n * 1024 * 1024)
    case None => None
  }

  lemma MebibytesWhole(n: int)
    ensures (n * 1024 * 1024) % (1024 * 1024) == 0
  {
    assert n * 1024 * 1024 == n * (1024 * 1024);
  }

  /**
   * The `/standardize` endpoint: name, extension and size gates, then the
   * pipeline. A gate raises 400; anything the pipeline raises, and a
   * non-numeric size setting, becomes 500.
   */
  function StandardizeUpload(filename: string, size: nat, maxMbSetting: Option<string>,
                             f: Frame, rag: Rag, reply: LlmReply, ids: seq<string>)
    : (r: Result<PipelineResponse, HttpError>)
    requires WellFormed(f) && |ids| == |f.rows|
    ensures filename == "" ==> r == Failure(HttpError(BadRequest, InvalidFileName))
    ensures filename != "" && UploadExtension(filename) !in AllowedExtensions
      ==> r == Failure(HttpError(BadRequest, UnsupportedExtension(UploadExtension(filename))))
    ensures r.Failure? && r.error.status == BadRequest
      <==> filename == "" || UploadExtension(filename) !in AllowedExtensions
           || (MaxFileSize(maxMbSetting).Some? && size > MaxFileSize(maxMbSetting).value)
    ensures r.Success?
      <==> filename != "" && UploadExtension(filename) in AllowedExtensions
           && MaxFileSize(maxMbSetting).Some? && size <= MaxFileSize(maxMbSetting).value
           && Process(f, filename, size, rag, reply, ids).Success?
    ensures r.Success? ==> r.value == Process(f, filename, size, rag, reply, ids).value
    ensures r.Failure? ==> r.error.status in {BadRequest, InternalServerError}
  {
    if filename == "" then Failure(HttpError(BadRequest, InvalidFileName))
    else
      var ext := UploadExtension(filename);
      if ext !in AllowedExtensions then Failure(HttpError(BadRequest, UnsupportedExtension(ext)))
      else
        match MaxFileSize(maxMbSetting)
        case None => Failure(HttpError(InternalServerError, ProcessingFailed))
        case Some(maxSize) =>
          if size > maxSize then Failure(HttpError(BadRequest, FileTooLarge(maxSize)))
          else
            match Process(f, filename, size, rag, reply, ids)
            case Success(response) => Success(response)
            case Failure(_) => Failure(HttpError(InternalServerError, ProcessingFailed))
  }

  /** Lower-casing never introduces a dot. */
  lemma LowerKeepsDotless(s: string)
    requires '.' !in s
    ensures '.' !in Lower(s)
  {
  }

  /** The extension of `stem.ext` is `ext` lower-cased, whatever the stem holds. */
  lemma UploadExtensionOfName(stem: string, ext: string)
    requires '.' !in ext
    ensures UploadExtension(stem + "." + ext) == Lower(ext)
  {
    var low := Lower(stem + "." + ext);
    LowerConcat(stem + ".", ext);
    LowerConcat(stem, ".");
    assert Lower(".") == ".";
    assert low == Lower(stem) + "." + Lower(ext);
    LowerKeepsDotless(ext);
    var i := |Lower(stem)|;
    assert low[i] == '.' && low[i + 1..] == Lower(ext);
    LastIndexOfUnique(low, '.', i);
  }

  /** A name without a dot is its own extension, lower-cased. */
  lemma DotlessNameIsExtension(filename: string)
    requires '.' !in filename
    ensures UploadExtension(filename) == Lower(filename)
  {
    LowerKeepsDotless(filename);
  }

  /** With the default setting, a file of exactly 50 MiB passes the size gate and one byte more does not. */
  lemma SizeLimitInclusive(filename: string, f: Frame, rag: Rag, reply: LlmReply, ids: seq<string>)
    requires WellFormed(f) && |ids| == |f.rows|
    requires filename != "" && UploadExtension(filename) in AllowedExtensions
    ensures StandardizeUpload(filename, 52428800, None, f, rag, reply, ids).Failure?
      ==> StandardizeUpload(filename, 52428800, None, f, rag, reply, ids).error.status == InternalServerError
    ensures StandardizeUpload(filename, 52428801, None, f, rag, reply, ids)
      == Failure(HttpError(BadRequest, FileTooLarge(52428800)))
  {
    WithinDefaultLimit(filename, 52428800, f, rag, reply, ids);
    OverDefaultLimit(filename, 52428801, f, rag, reply, ids);
  }

  lemma WithinDefaultLimit(filename: string, size: nat, f: Frame, rag: Rag, reply: LlmReply, ids: seq<string>)
    requires WellFormed(f) && |ids| == |f.rows|
    requires filename != "" && UploadExtension(filename) in AllowedExtensions
    requires size <= 52428800
    ensures StandardizeUpload(filename, size, None, f, rag, reply, ids).Failure?
      ==> StandardizeUpload(filename, size, None, f, rag, reply, ids).error.status == InternalServerError
  {
    var r := StandardizeUpload(filename, size, None, f, rag, reply, ids);
    assert MaxFileSize(None) == Some(52428800);
    assert r.Failure? ==> r.error.status != BadRequest;
  }

  lemma OverDefaultLimit(filename: string, size: nat, f: Frame, rag: Rag, reply: LlmReply, ids: seq<string>)
    requires WellFormed(f) && |ids| == |f.rows|
    requires filename != "" && UploadExtension(filename) in AllowedExtensions
    requires size > 52428800
    ensures StandardizeUpload(filename, size, None, f, rag, reply, ids)
      == Failure(HttpError(BadRequest, FileTooLarge(52428800)))
  {
    assert MaxFileSize(None) == Some(52428800);
  }

  /**
   * The extension gate and the pipeline's file-type check disagree on some
   * names: one that passes the gate but has no suffix the pipeline accepts
   * reaches the pipeline and comes back as 500 rather than 400.
   */
  lemma GateAdmitsWhatPipelineRejects(filename: string, size: nat, f: Frame, rag: Rag, reply: LlmReply, ids: seq<string>)
    requires WellFormed(f) && |ids| == |f.rows|
    requires filename != "" && UploadExtension(filename) in AllowedExtensions
    requires DetectFileType(filename).Failure? && size <= 50 * 1024 * 1024
    ensures StandardizeUpload(filename, size, None, f, rag, reply, ids)
      == Failure(HttpError(InternalServerError, ProcessingFailed))
  {
  }

  /** ".csv", a name whose only dot leads it, is such a name. */
  lemma HiddenCsvPassesGateOnly()
    ensures UploadExtension(".csv") == "csv"
    ensures DetectFileType(".csv").Failure?
  {
    HiddenCsvExtension();
    HiddenFileRejected();
  }

  lemma HiddenCsvExtension()
    ensures UploadExtension(".csv") == "csv"
  {
    LowerNoCapitals(".csv");
    assert ".csv"[1..] == "csv";
    LastIndexOfUnique(".csv", '.', 0);
  }

  // ---------------------------------------------------------------------------
  // POST /analyze
  // ---------------------------------------------------------------------------

  /** The language model's analysis dict, with the keys the fallback fills. */
  datatype Analysis = Analysis(
    tipoConsulta: string, contextoNegocio: string, parametrosRelevantes: seq<string>,
    intencionUsuario: string, nivelConfianza: real)

  /**
   * What the language-model call gives back: a parsed dict, text that is not
   * JSON, or an exception raised by the client (network, credentials, quota).
   */
  datatype AnalysisReply = AnalysisParsed(analysis: Analysis) | AnalysisDecodeError | AnalysisClientError

  /** The parsed analysis, or the fixed dict used when the reply is not JSON. */
  function AnalysisOf(reply: AnalysisReply, columns: seq<string>): (a: Analysis)
    requires !reply.AnalysisClientError?
    ensures reply.AnalysisDecodeError? ==> a.nivelConfianza == 0.5 && a.parametrosRelevantes == columns
    ensures reply.AnalysisParsed? ==> a == reply.analysis
  {
    match reply
    case AnalysisParsed(a) => a
    case AnalysisDecodeError =>
      Analysis("No determinado", "General", columns, "Estandarización de datos", 0.5)
  }

  const Rag1Keywords: seq<string> := ["titulo", "texto", "articulo", "numero", "ley"]
  const Rag2Keywords: seq<string> := ["descripcion", "servicio", "categoria", "subcategoria", "ticket"]

  /** `any(kw in col for col in columns)`. */
  predicate Hit(columns: seq<string>, kw: string) {
    exists c :: c in columns && IsSubstring(kw, c)
  }

  /** `sum(1 for kw in keywords if any(kw in col for col in columns))`. */
  function KeywordScore(keywords: seq<string>, columns: seq<string>): (n: nat)
    ensures n <= |keywords|
    ensures n == |IndicesWhere(keywords, kw => Hit(columns, kw))|
  {
    CountWhereIndices(keywords, kw => Hit(columns, kw));
    CountWhere(keywords, kw => Hit(columns, kw))
  }

  function LowerAll(columns: seq<string>): (r: seq<string>)
    ensures |r| == |columns| && forall i :: 0 <= i < |columns| ==> r[i] == Lower(columns[i])
  {
    seq(|columns|, i requires 0 <= i < |columns| => Lower(columns[i]))
  }

  datatype Suggestion = Suggestion(rag: Rag, rag1Score: nat, rag2Score: nat)

  /** The suggested target: RAG1 only when its score is strictly higher. */
  function Suggest(columns: seq<string>): (s: Suggestion)
    ensures s.rag1Score <= 5 && s.rag2Score <= 5
    ensures s.rag == Rag1 <==> s.rag1Score > s.rag2Score
  {
    var lowered := LowerAll(columns);
    var s1 := KeywordScore(Rag1Keywords, lowered);
    var s2 := KeywordScore(Rag2Keywords, lowered);
    Suggestion(if s1 > s2 then Rag1 else Rag2, s1, s2)
  }

  /** Without a column that contains a RAG1 keyword, RAG2 is suggested. */
  lemma NoRag1KeywordSuggestsRag2(columns: seq<string>)
    requires forall kw, c :: kw in Rag1Keywords && c in LowerAll(columns) ==> !IsSubstring(kw, c)
    ensures Suggest(columns).rag == Rag2 && Suggest(columns).rag1Score == 0
  {
    SomeCounted(Rag1Keywords, kw => Hit(LowerAll(columns), kw));
  }

  /** Columns hitting every RAG1 keyword and no RAG2 keyword give RAG1 with scores 5 and 0. */
  lemma OnlyRag1KeywordsSuggestsRag1(columns: seq<string>)
    requires forall kw :: kw in Rag1Keywords ==> Hit(LowerAll(columns), kw)
    requires forall kw, c :: kw in Rag2Keywords && c in LowerAll(columns) ==> !IsSubstring(kw, c)
    ensures Suggest(columns) == Suggestion(Rag1, 5, 0)
  {
    AllCounted(Rag1Keywords, kw => Hit(LowerAll(columns), kw));
    SomeCounted(Rag2Keywords, kw => Hit(LowerAll(columns), kw));
  }

  /** The `/analyze` answer, without the dtype strings and the sample rows. */
  datatype AnalyzeResponse = AnalyzeResponse(
    filename: string, rows: nat, columns: seq<string>, analysis: Analysis, suggestion: Suggestion)

  /**
   * `analyze_file` as written: after ingesting and cleaning, it calls
   * `normalize(df_clean)` without the `column_mapping` and `target_rag`
   * arguments `normalize` requires, so the call raises and every request ends in 500.
   */
  function AnalyzeAsWritten(f: Frame, filename: string, reply: AnalysisReply): (r: Result<AnalyzeResponse, HttpError>)
    requires WellFormed(f)
    ensures r == Failure(HttpError(InternalServerError, AnalysisFailed))
  {
    match Ingest(f, filename)
    case Failure(_) => Failure(HttpError(InternalServerError, AnalysisFailed))
    case Success(_) =>
      // cleaning succeeds; the `normalize` call that follows raises TypeError
      Failure(HttpError(InternalServerError, AnalysisFailed))
  }

  /**
   * `analyze_file` with the normalisation it evidently intends: the cleaned
   * frame normalised with an empty mapping (column names only).
   */
  function Analyze(f: Frame, filename: string, reply: AnalysisReply): (r: Result<AnalyzeResponse, HttpError>)
    requires WellFormed(f)
    ensures r.Success? <==>
      && DetectFileType(filename).Success? && !IsEmpty(f)
      && !RepeatedObjectLabel(Frame(StripNames(f.columns), f.rows))
      && !HasRepeatedLabel(NormalizeColumnNames(StripNames(f.columns)))
      && !reply.AnalysisClientError?
    ensures r.Failure? ==> r.error == HttpError(InternalServerError, AnalysisFailed)
    ensures r.Success? ==> r.value.rows == |f.rows| && r.value.columns == f.columns
    ensures r.Success? ==> r.value.suggestion.rag1Score <= 5 && r.value.suggestion.rag2Score <= 5
    ensures r.Success? && reply.AnalysisDecodeError? ==>
      r.value.analysis.parametrosRelevantes == NormalizeColumnNames(StripNames(f.columns))
  {
    match Ingest(f, filename)
    case Failure(_) => Failure(HttpError(InternalServerError, AnalysisFailed))
    case Success(raw) =>
      CleanDefaults(raw);
      match Clean(raw, true, "keep")
      case Failure(_) => Failure(HttpError(InternalServerError, AnalysisFailed))
      case Success(clean) =>
        match Normalize(clean, [])
        case Failure(_) => Failure(HttpError(InternalServerError, AnalysisFailed))
        case Success(normalized) =>
          if reply.AnalysisClientError? then Failure(HttpError(InternalServerError, AnalysisFailed))
          else
            Success(AnalyzeResponse(filename, |raw.rows|, raw.columns,
                                    AnalysisOf(reply, normalized.columns), Suggest(normalized.columns)))
  }

  /** Every file the corrected endpoint analyses is one the code as written answers with 500. */
  lemma AnalyzeAsWrittenRejectsAnalysable(f: Frame, filename: string, reply: AnalysisReply)
    requires WellFormed(f)
    requires Analyze(f, filename, reply).Success?
    ensures AnalyzeAsWritten(f, filename, reply).Failure? && AnalyzeAsWritten(f, filename, reply).error.status == 500
  {
  }
}

=== FILE: cleaning.dfy ===
/**
 * Step 2 of the pipeline: whitespace stripping, removal of special characters,
 * and the missing-value policy. Cell-level changes touch `object` columns only
 * (columns that hold strings); numeric columns pass through untouched.
 */
module Cleaning {
  import opened Text
  import opened Wrappers
  import opened Values

  /** Which columns of `f` pandas types as `object`. */
  function ObjectMask(f: Frame): (m: seq<bool>)
    requires WellFormed(f)
    ensures |m| == |f.columns|
    ensures forall j :: 0 <= j < |m| ==> m[j] == IsObjectColumn(f, j)
  {
    seq(|f.columns|, j requires 0 <= j < |f.columns| => IsObjectColumn(f, j))
  }

  /**
   * The object columns whose label no other column shares. Only for these does
   * `df[col]` yield a single column whose `apply` sees one cell at a time; for
   * a repeated label it yields a frame, and `apply` hands the lambda whole columns.
   */
  function SingleObjectMask(f: Frame): (m: seq<bool>)
    requires WellFormed(f)
    ensures |m| == |f.columns|
    ensures forall j :: 0 <= j < |m| ==> m[j] == (IsObjectColumn(f, j) && !LabelRepeated(f.columns, j))
  {
    seq(|f.columns|, j requires 0 <= j < |f.columns| => IsObjectColumn(f, j) && !LabelRepeated(f.columns, j))
  }

  /** Some object column shares its label with another column. */
  predicate RepeatedObjectLabel(f: Frame)
    requires WellFormed(f)
  {
    exists j :: 0 <= j < |f.columns| && IsObjectColumn(f, j) && LabelRepeated(f.columns, j)
  }

  /** `df[col].apply(g)` for every column `col` that `selected` marks. */
  function MapCells(f: Frame, selected: seq<bool>, g: Value -> Value): (r: Frame)
    requires WellFormed(f) && |selected| == |f.columns|
    ensures WellFormed(r) && r.columns == f.columns && |r.rows| == |f.rows|
    ensures forall i, j :: 0 <= i < |f.rows| && 0 <= j < |f.columns| ==>
      r.rows[i][j] == (if selected[j] then g(f.rows[i][j]) else f.rows[i][j])
  {
    Frame(f.columns, seq(|f.rows|, i requires 0 <= i < |f.rows| =>
      seq(|f.columns|, j requires 0 <= j < |f.columns| => if selected[j] then g(f.rows[i][j]) else f.rows[i][j])))
  }

  /**
   * A cell function that maps strings to strings, applied to object columns
   * only, keeps every column's dtype.
   */
  lemma MapCellsKeepsMask(f: Frame, selected: seq<bool>, g: Value -> Value)
    requires WellFormed(f) && |selected| == |f.columns|
    requires forall j :: 0 <= j < |selected| && selected[j] ==> IsObjectColumn(f, j)
    requires forall v: Value :: v.Str? ==> g(v).Str?
    ensures ObjectMask(MapCells(f, selected, g)) == ObjectMask(f)
  {
    var r := MapCells(f, selected, g);
    forall j | 0 <= j < |f.columns|
      ensures IsObjectColumn(r, j) == IsObjectColumn(f, j)
    {
      if IsObjectColumn(f, j) {
        var i :| 0 <= i < |f.rows| && f.rows[i][j].Str?;
        assert r.rows[i][j].Str?;
      } else {
        assert !selected[j];
        forall i | 0 <= i < |f.rows|
          ensures !r.rows[i][j].Str?
        {
          assert r.rows[i][j] == f.rows[i][j];
        }
      }
    }
  }

  // ---------------------------------------------------------------------------
  // clean_whitespace
  // ---------------------------------------------------------------------------

  function StripCell(v: Value): Value {
    if v.Str? then Str(Strip(v.s)) else v
  }

  function StripNames(names: seq<string>): (r: seq<string>)
    ensures |r| == |names| && forall j :: 0 <= j < |names| ==> r[j] == Strip(names[j])
  {
    seq(|names|, j requires 0 <= j < |names| => Strip(names[j]))
  }

  /** No leading or trailing whitespace. */
  predicate Trimmed(s: string) {
    |s| == 0 || (!IsSpace(s[0]) && !IsSpace(s[|s| - 1]))
  }

  /**
   * `DataCleaning.clean_whitespace`: column labels first, then the string cells
   * of every object column. A column whose stripped label another column also
   * carries is read as a frame, the lambda sees a whole column rather than a
   * string, and its cells stay as they were.
   */
  function CleanWhitespace(f: Frame): (r: Frame)
    requires WellFormed(f)
    ensures WellFormed(r) && r.columns == StripNames(f.columns) && |r.rows| == |f.rows|
    ensures forall j :: 0 <= j < |f.columns| ==> Trimmed(r.columns[j])
    ensures forall i, j :: 0 <= i < |f.rows| && 0 <= j < |f.columns| ==> StrippedCell(f, r, i, j)
  {
    var renamed := Frame(StripNames(f.columns), f.rows);
    var g := MapCells(renamed, SingleObjectMask(renamed), StripCell);
    CleanWhitespaceCells(f, g);
    g
  }

  /**
   * Cell `(i, j)` of `r` as `clean_whitespace` leaves it: a string in an object
   * column with an unshared label is stripped, and trimmed; any other cell is kept.
   */
  predicate StrippedCell(f: Frame, r: Frame, i: nat, j: nat)
    requires WellFormed(f) && WellFormed(r) && |r.columns| == |f.columns| && |r.rows| == |f.rows|
    requires i < |f.rows| && j < |f.columns|
  {
    if IsObjectColumn(f, j) && !LabelRepeated(r.columns, j) && f.rows[i][j].Str?
    then r.rows[i][j] == Str(Strip(f.rows[i][j].s)) && Trimmed(r.rows[i][j].s)
    else r.rows[i][j] == f.rows[i][j]
  }

  lemma CleanWhitespaceCells(f: Frame, g: Frame)
    requires WellFormed(f)
    requires g == MapCells(Frame(StripNames(f.columns), f.rows), SingleObjectMask(Frame(StripNames(f.columns), f.rows)), StripCell)
    ensures forall j :: 0 <= j < |f.columns| ==> Trimmed(g.columns[j])
    ensures forall i, j :: 0 <= i < |f.rows| && 0 <= j < |f.columns| ==> StrippedCell(f, g, i, j)
  {
    var renamed := Frame(StripNames(f.columns), f.rows);
    forall i, j | 0 <= i < |f.rows| && 0 <= j < |f.columns|
      ensures StrippedCell(f, g, i, j)
    {
      assert IsObjectColumn(renamed, j) == IsObjectColumn(f, j);
      if f.rows[i][j].Str? {
        StripTrimmedWindow(f.rows[i][j].s);
      }
    }
    forall j | 0 <= j < |f.columns|
      ensures Trimmed(Strip(f.columns[j]))
    {
      StripTrimmedWindow(f.columns[j]);
    }
  }

  lemma StripTrimmedWindow(s: string)
    ensures Trimmed(Strip(s)) && IsSubstring(Strip(s), s)
  {
    var i := StripWindow(s);
    SubstringFromOccurrence(Strip(s), s, i);
  }

  /** Stripping whitespace keeps the dtype of every column. */
  lemma CleanWhitespaceKeepsMask(f: Frame)
    requires WellFormed(f)
    ensures ObjectMask(CleanWhitespace(f)) == ObjectMask(f)
  {
    var renamed := Frame(StripNames(f.columns), f.rows);
    assert ObjectMask(renamed) == ObjectMask(f);
    MapCellsKeepsMask(renamed, SingleObjectMask(renamed), StripCell);
  }

  /** Stripping a second time changes nothing: labels and cells are already stripped. */
  lemma CleanWhitespaceIdempotent(f: Frame)
    requires WellFormed(f)
    ensures CleanWhitespace(CleanWhitespace(f)) == CleanWhitespace(f)
  {
    var r := CleanWhitespace(f);
    var rr := CleanWhitespace(r);
    forall j | 0 <= j < |f.columns|
      ensures rr.columns[j] == r.columns[j]
    {
      StripIdempotent(f.columns[j]);
    }
    assert rr.columns == r.columns;
    CleanWhitespaceKeepsMask(f);
    forall i, j | 0 <= i < |f.rows| && 0 <= j < |f.columns|
      ensures rr.rows[i][j] == r.rows[i][j]
    {
      assert ObjectMask(r)[j] == ObjectMask(f)[j];
      StripCellTwice(f, r, rr, i, j);
    }
    forall i | 0 <= i < |f.rows|
      ensures rr.rows[i] == r.rows[i]
    {
    }
  }

  /** One cell of `CleanWhitespaceIdempotent`. */
  lemma StripCellTwice(f: Frame, r: Frame, rr: Frame, i: nat, j: nat)
    requires WellFormed(f) && r == CleanWhitespace(f) && rr == CleanWhitespace(r)
    requires i < |f.rows| && j < |f.columns|
    requires rr.columns == r.columns && IsObjectColumn(r, j) == IsObjectColumn(f, j)
    ensures rr.rows[i][j] == r.rows[i][j]
  {
    if IsObjectColumn(f, j) && !LabelRepeated(r.columns, j) && f.rows[i][j].Str? {
      StripIdempotent(f.rows[i][j].s);
    }
  }

  /**
   * Two columns whose labels differ only in surrounding whitespace (say "name"
   * and "name ") keep their cells unstripped.
   */
  lemma CleanWhitespaceSkipsRepeated(f: Frame, j: nat, k: nat)
    requires WellFormed(f) && j < |f.columns| && k < |f.columns| && j != k
    requires Strip(f.columns[j]) == Strip(f.columns[k])
    ensures forall i :: 0 <= i < |f.rows| ==> CleanWhitespace(f).rows[i][j] == f.rows[i][j]
  {
    var r := CleanWhitespace(f);
    assert r.columns[k] == r.columns[j];
    assert LabelRepeated(r.columns, j);
  }

  // ---------------------------------------------------------------------------
  // remove_special_characters
  // ---------------------------------------------------------------------------

  /** Characters the default pattern keeps besides `\w` and `\s`. */
  const BasicPunctuation: string := ".,;:-_"
  const AccentedLetters: string := "áéíóúñÁÉÍÓÚÑ"

  /**
   * The characters that survive `re.sub`: with basic punctuation kept, the
   * class `[\w\s.,;:\-_áéíóúñÁÉÍÓÚÑ]`; without it, `[\w\s]`.
   */
  predicate Kept(c: char, keepBasicPunctuation: bool) {
    IsWordChar(c) || IsSpace(c) || (keepBasicPunctuation && (c in BasicPunctuation || c in AccentedLetters))
  }

  /** `re.sub(pattern, '', s)` for the negated class of `Kept`. */
  function RemoveSpecial(s: string, keepBasicPunctuation: bool): (r: string)
    ensures forall k :: 0 <= k < |r| ==> Kept(r[k], keepBasicPunctuation)
    ensures |r| <= |s|
  {
    if |s| == 0 then ""
    else if Kept(s[0], keepBasicPunctuation) then [s[0]] + RemoveSpecial(s[1..], keepBasicPunctuation)
    else RemoveSpecial(s[1..], keepBasicPunctuation)
  }

  /** `a` is `b` with some characters deleted. */
  predicate IsSubsequence(a: string, b: string)
    decreases |b|
  {
    if |a| == 0 then true
    else if |b| == 0 then false
    else (a[0] == b[0] && IsSubsequence(a[1..], b[1..])) || IsSubsequence(a, b[1..])
  }

  /**
   * What removal leaves of `s`: kept characters only, in their order in `s`,
   * and every kept character as often as `s` has it.
   */
  predicate Filtered(r: string, s: string, keep: bool) {
    && (forall k :: 0 <= k < |r| ==> Kept(r[k], keep))
    && IsSubsequence(r, s)
    && (forall c :: Kept(c, keep) ==> Count(r, c) == Count(s, c))
  }

  /** Removal only deletes characters. */
  lemma {:induction false} RemoveSpecialSubsequence(s: string, keep: bool)
    ensures IsSubsequence(RemoveSpecial(s, keep), s)
  {
    if |s| > 0 {
      RemoveSpecialSubsequence(s[1..], keep);
      if Kept(s[0], keep) {
        assert ([s[0]] + RemoveSpecial(s[1..], keep))[1..] == RemoveSpecial(s[1..], keep);
      }
    }
  }

  /** Removal deletes no kept character: each occurs as often as before. */
  lemma {:induction false} RemoveSpecialCounts(s: string, keep: bool, c: char)
    requires Kept(c, keep)
    ensures Count(RemoveSpecial(s, keep), c) == Count(s, c)
  {
    if |s| > 0 {
      RemoveSpecialCounts(s[1..], keep, c);
      if Kept(s[0], keep) {
        assert ([s[0]] + RemoveSpecial(s[1..], keep))[1..] == RemoveSpecial(s[1..], keep);
      } else {
        assert s[0] != c;
      }
    }
  }

  /** Removal deletes exactly the characters outside the kept class. */
  lemma RemoveSpecialFiltered(s: string, keep: bool)
    ensures Filtered(RemoveSpecial(s, keep), s, keep)
  {
    RemoveSpecialSubsequence(s, keep);
    forall c | Kept(c, keep)
      ensures Count(RemoveSpecial(s, keep), c) == Count(s, c)
    {
      RemoveSpecialCounts(s, keep, c);
    }
  }

  /** A string made only of kept characters is left as it is. */
  lemma {:induction false} RemoveSpecialKeepsClean(s: string, keep: bool)
    requires forall k :: 0 <= k < |s| ==> Kept(s[k], keep)
    ensures RemoveSpecial(s, keep) == s
  {
    if |s| > 0 {
      RemoveSpecialKeepsClean(s[1..], keep);
    }
  }

  lemma RemoveSpecialIdempotent(s: string, keep: bool)
    ensures RemoveSpecial(RemoveSpecial(s, keep), keep) == RemoveSpecial(s, keep)
  {
    RemoveSpecialKeepsClean(RemoveSpecial(s, keep), keep);
  }

  /** The per-cell lambda: missing values stay, anything else becomes the filtered `str(x)`. */
  function SpecialCell(keep: bool): Value -> Value {
    (v: Value) => if v.Null? then v else Str(RemoveSpecial(PyStr(v), keep))
  }

  /**
   * `DataCleaning.remove_special_characters`. On an object column whose label
   * repeats, the lambda receives a whole column and `if pd.notna(x)` raises.
   */
  function RemoveSpecialCharacters(f: Frame, keepBasicPunctuation: bool): (r: Result<Frame, LabelError>)
    requires WellFormed(f)
    ensures r.Failure? <==> RepeatedObjectLabel(f)
    ensures r.Failure? ==> r.error == AmbiguousTruth
    ensures r.Success? ==> WellFormed(r.value) && r.value.columns == f.columns && |r.value.rows| == |f.rows|
    ensures r.Success? ==> forall i, j :: 0 <= i < |f.rows| && 0 <= j < |f.columns| ==>
      (if !IsObjectColumn(f, j) || f.rows[i][j].Null? then r.value.rows[i][j] == f.rows[i][j]
       else r.value.rows[i][j].Str? && Filtered(r.value.rows[i][j].s, PyStr(f.rows[i][j]), keepBasicPunctuation))
  {
    if RepeatedObjectLabel(f) then Failure(AmbiguousTruth)
    else
      var g := MapCells(f, ObjectMask(f), SpecialCell(keepBasicPunctuation));
      forall i, j | 0 <= i < |f.rows| && 0 <= j < |f.columns| && IsObjectColumn(f, j) && !f.rows[i][j].Null?
        ensures Filtered(g.rows[i][j].s, PyStr(f.rows[i][j]), keepBasicPunctuation)
      {
        RemoveSpecialFiltered(PyStr(f.rows[i][j]), keepBasicPunctuation);
      }
      Success(g)
  }

  /** Object columns stay object columns and numeric ones stay numeric. */
  lemma RemoveSpecialKeepsMask(f: Frame, keep: bool)
    requires WellFormed(f) && !RepeatedObjectLabel(f)
    ensures ObjectMask(RemoveSpecialCharacters(f, keep).value) == ObjectMask(f)
  {
    MapCellsKeepsMask(f, ObjectMask(f), SpecialCell(keep));
  }

  /** Running the removal again on its own result succeeds and changes nothing more. */
  lemma RemoveSpecialCharactersIdempotent(f: Frame, keep: bool)
    requires WellFormed(f)
    ensures RemoveSpecialCharacters(f, keep).Success? ==>
      RemoveSpecialCharacters(RemoveSpecialCharacters(f, keep).value, keep) == RemoveSpecialCharacters(f, keep)
  {
    if !RepeatedObjectLabel(f) {
      var r := RemoveSpecialCharacters(f, keep).value;
      RemoveSpecialKeepsMask(f, keep);
      assert !RepeatedObjectLabel(r) by {
        forall j | 0 <= j < |f.columns| && IsObjectColumn(r, j)
          ensures !LabelRepeated(r.columns, j)
        {
          assert ObjectMask(r)[j] == ObjectMask(f)[j];
        }
      }
      var rr := RemoveSpecialCharacters(r, keep).value;
      forall i, j | 0 <= i < |f.rows| && 0 <= j < |f.columns|
        ensures rr.rows[i][j] == r.rows[i][j]
      {
        assert ObjectMask(r)[j] == ObjectMask(f)[j];
        FilterCellTwice(f, r, rr, keep, i, j);
      }
      forall i | 0 <= i < |f.rows|
        ensures rr.rows[i] == r.rows[i]
      {
      }
      assert rr.rows == r.rows;
    }
  }

  /** One cell of `RemoveSpecialCharactersIdempotent`. */
  lemma FilterCellTwice(f: Frame, r: Frame, rr: Frame, keep: bool, i: nat, j: nat)
    requires WellFormed(f) && !RepeatedObjectLabel(f) && r == RemoveSpecialCharacters(f, keep).value
    requires !RepeatedObjectLabel(r) && rr == RemoveSpecialCharacters(r, keep).value
    requires i < |f.rows| && j < |f.columns| && IsObjectColumn(r, j) == IsObjectColumn(f, j)
    ensures rr.rows[i][j] == r.rows[i][j]
  {
    if IsObjectColumn(f, j) && !f.rows[i][j].Null? {
      RemoveSpecialKeepsClean(r.rows[i][j].s, keep);
    }
  }

  // ---------------------------------------------------------------------------
  // handle_missing_values
  // ---------------------------------------------------------------------------

  predicate HasNull(row: Row) {
    exists j :: 0 <= j < |row| && row[j].Null?
  }

  function DropNullRows(rows: seq<Row>): (r: seq<Row>)
    ensures |r| <= |rows|
    ensures forall row :: row in r <==> row in rows && !HasNull(row)
  {
    if |rows| == 0 then []
    else if HasNull(rows[0]) then DropNullRows(rows[1..])
    else [rows[0]] + DropNullRows(rows[1..])
  }

  /** How many rows hold a missing value. */
  function NullRowCount(rows: seq<Row>): nat {
    if |rows| == 0 then 0 else (if HasNull(rows[0]) then 1 else 0) + NullRowCount(rows[1..])
  }

  lemma {:induction false} DropNullRowsCount(rows: seq<Row>)
    ensures |DropNullRows(rows)| + NullRowCount(rows) == |rows|
  {
    if |rows| > 0 {
      DropNullRowsCount(rows[1..]);
    }
  }

  lemma {:induction false} DropNullRowsAppend(a: seq<Row>, b: seq<Row>)
    ensures DropNullRows(a + b) == DropNullRows(a) + DropNullRows(b)
  {
    if |a| > 0 {
      var ab := a + b;
      assert ab[0] == a[0];
      assert ab[1..] == a[1..] + b;
      DropNullRowsAppend(a[1..], b);
      var head := if HasNull(a[0]) then [] else [a[0]];
      assert DropNullRows(ab) == head + DropNullRows(ab[1..]);
      assert DropNullRows(a) == head + DropNullRows(a[1..]);
    } else {
      assert a + b == b;
    }
  }

  /**
   * `rows` with the null-holding rows dropped and the others kept in order:
   * a row without a null sits after the kept rows before it, and there is
   * nothing else.
   */
  predicate KeptInOrder(rows: seq<Row>, r: seq<Row>) {
    |r| == |rows| - NullRowCount(rows)
    && forall i :: 0 <= i < |rows| && !HasNull(rows[i]) ==>
         0 <= i - NullRowCount(rows[..i]) < |r| && r[i - NullRowCount(rows[..i])] == rows[i]
  }

  /** The row at `i`, when it holds no null, follows the kept rows before it. */
  lemma DropNullRowsAt(rows: seq<Row>, i: nat)
    requires i < |rows| && !HasNull(rows[i])
    ensures 0 <= i - NullRowCount(rows[..i]) < |DropNullRows(rows)|
    ensures DropNullRows(rows)[i - NullRowCount(rows[..i])] == rows[i]
  {
    DropNullRowsCount(rows[..i]);
    assert rows[..i] + rows[i..] == rows;
    DropNullRowsAppend(rows[..i], rows[i..]);
    assert rows[i..][0] == rows[i];
    assert DropNullRows(rows[i..]) == [rows[i]] + DropNullRows(rows[i..][1..]);
  }

  lemma DropNullRowsInOrder(rows: seq<Row>)
    ensures KeptInOrder(rows, DropNullRows(rows))
  {
    DropNullRowsCount(rows);
    forall i | 0 <= i < |rows| && !HasNull(rows[i])
      ensures 0 <= i - NullRowCount(rows[..i]) < |DropNullRows(rows)|
      ensures DropNullRows(rows)[i - NullRowCount(rows[..i])] == rows[i]
    {
      DropNullRowsAt(rows, i);
    }
  }

  function FillCell(v: Value): Value {
    if v.Null? then Str("") else v
  }

  /** `DataCleaning.handle_missing_values`. */
  function HandleMissingValues(f: Frame, strategy: string): (r: Frame)
    requires WellFormed(f)
    ensures WellFormed(r) && r.columns == f.columns
    ensures strategy == "drop" ==>
      (forall row :: row in r.rows <==> row in f.rows && !HasNull(row))
      && KeptInOrder(f.rows, r.rows)
    ensures strategy == "fill_empty" ==>
      |r.rows| == |f.rows|
      && forall i, j :: 0 <= i < |f.rows| && 0 <= j < |f.columns| ==>
           r.rows[i][j] == (if f.rows[i][j].Null? then Str("") else f.rows[i][j])
    ensures strategy != "drop" && strategy != "fill_empty" ==> r == f
  {
    if strategy == "drop" then
      DropNullRowsInOrder(f.rows);
      Frame(f.columns, DropNullRows(f.rows))
    else if strategy == "fill_empty" then
      Frame(f.columns, seq(|f.rows|, i requires 0 <= i < |f.rows| =>
        seq(|f.columns|, j requires 0 <= j < |f.columns| => FillCell(f.rows[i][j]))))
    else f
  }

  // ---------------------------------------------------------------------------
  // clean
  // ---------------------------------------------------------------------------

  /**
   * `DataCleaning.clean`. Encoding normalisation (`encode`/`decode` with
   * errors ignored) is the identity on well-formed strings and is omitted.
   * It fails exactly when special characters are removed and some object
   * column's stripped label is shared with another column.
   */
  function Clean(f: Frame, removeSpecialChars: bool, missingValueStrategy: string): (r: Result<Frame, LabelError>)
    requires WellFormed(f)
    ensures r.Failure? <==> removeSpecialChars && RepeatedObjectLabel(Frame(StripNames(f.columns), f.rows))
    ensures r.Failure? ==> r.error == AmbiguousTruth
    ensures r.Success? ==> WellFormed(r.value) && r.value.columns == StripNames(f.columns)
  {
    var stripped := CleanWhitespace(f);
    CleanWhitespaceKeepsMask(f);
    assert RepeatedObjectLabel(stripped) == RepeatedObjectLabel(Frame(StripNames(f.columns), f.rows)) by {
      forall j | 0 <= j < |f.columns|
        ensures IsObjectColumn(stripped, j) == IsObjectColumn(f, j)
      {
        assert ObjectMask(stripped)[j] == ObjectMask(f)[j];
      }
      assert ObjectMask(Frame(StripNames(f.columns), f.rows)) == ObjectMask(f);
    }
    var filtered := if removeSpecialChars then RemoveSpecialCharacters(stripped, true) else Success(stripped);
    match filtered
    case Failure(e) => Failure(e)
    case Success(g) => Success(HandleMissingValues(g, missingValueStrategy))
  }

  /**
   * With the default arguments (special characters removed, missing values
   * kept) cleaning, when it succeeds, keeps every row and column and never
   * alters a numeric column.
   */
  lemma CleanDefaults(f: Frame)
    requires WellFormed(f)
    ensures var r := Clean(f, true, "keep");
      r.Success? ==>
        && |r.value.rows| == |f.rows| && |r.value.columns| == |f.columns|
        && forall i, j :: 0 <= i < |f.rows| && 0 <= j < |f.columns| && !IsObjectColumn(f, j) ==> r.value.rows[i][j] == f.rows[i][j]
  {
    var s := CleanWhitespace(f);
    CleanWhitespaceKeepsMask(f);
    var r := Clean(f, true, "keep");
    if r.Success? {
      forall i, j | 0 <= i < |f.rows| && 0 <= j < |f.columns| && !IsObjectColumn(f, j)
        ensures r.value.rows[i][j] == f.rows[i][j]
      {
        assert ObjectMask(s)[j] == ObjectMask(f)[j];
        assert !IsObjectColumn(s, j);
      }
    }
  }
}

=== FILE: column_mapper.dfy ===
/**
 * Step 3 of the pipeline: choosing which source column feeds which target
 * field. A keyword table is scanned in order for the first keyword that is a
 * substring of the lower-cased column label; a long-text heuristic then
 * claims one more column for the descriptive field if none has it yet.
 */
module ColumnMapper {
  import opened Wrappers
  import opened Text
  import opened OrderedMaps
  import opened Values
  import opened Schemas
  import opened Normalization

  // ---------------------------------------------------------------------------
  // Keyword tables
  // ---------------------------------------------------------------------------

  /** The RAG1 table: keyword to target field, in priority order. */
  const Rag1Rules: OrderedMap<string> := [
    ("articulo", "articulo_id"), ("article", "articulo_id"), ("doc_ref", "articulo_id"),
    ("doc_id", "articulo_id"), ("id", "articulo_id"), ("ref", "articulo_id"),
    ("tipo", "tipo"), ("type", "tipo"), ("category", "tipo"), ("categoria", "tipo"),
    ("numero", "numero"), ("num", "numero"), ("section", "numero"), ("seccion", "numero"),
    ("titulo", "titulo"), ("title", "titulo"), ("header", "titulo"), ("encabezado", "titulo"),
    ("name", "titulo"), ("nombre", "titulo"),
    ("body_content", "texto"), ("body", "texto"), ("content", "texto"), ("texto", "texto"),
    ("text", "texto"), ("contenido", "texto"), ("descripcion", "texto"), ("description", "texto"),
    ("detalle", "texto"), ("detail", "texto"),
    ("keywords", "keywords"), ("tags", "keywords"), ("palabras_clave", "keywords"), ("etiquetas", "keywords"),
    ("image_caption", "image_caption"), ("fig_desc", "image_caption"), ("caption", "image_caption"),
    ("figura", "image_caption")]

  /**
   * The RAG2 dict literal as written: `category` and `categoria` appear twice,
   * first for `tipo` and again for `categoria`.
   */
  const Rag2Literal: seq<(string, string)> := [
    ("body_content", "descripcion"), ("body", "descripcion"), ("descripcion", "descripcion"),
    ("description", "descripcion"), ("texto", "descripcion"), ("text", "descripcion"),
    ("contenido", "descripcion"), ("detalle", "descripcion"), ("detail", "descripcion"),
    ("tipo", "tipo"), ("type", "tipo"), ("category", "tipo"), ("categoria", "tipo"),
    ("servicio", "servicio"), ("service", "servicio"),
    ("categoria", "categoria"), ("category", "categoria"),
    ("subcategoria", "subcategoria"), ("subcategory", "subcategoria"),
    ("fuente", "fuente"), ("source", "fuente"), ("origen", "fuente")]

  /** The RAG2 table as Python resolves the literal. */
  const Rag2Rules: OrderedMap<string> := [
    ("body_content", "descripcion"), ("body", "descripcion"), ("descripcion", "descripcion"),
    ("description", "descripcion"), ("texto", "descripcion"), ("text", "descripcion"),
    ("contenido", "descripcion"), ("detalle", "descripcion"), ("detail", "descripcion"),
    ("tipo", "tipo"), ("type", "tipo"), ("category", "categoria"), ("categoria", "categoria"),
    ("servicio", "servicio"), ("service", "servicio"),
    ("subcategoria", "subcategoria"), ("subcategory", "subcategoria"),
    ("fuente", "fuente"), ("source", "fuente"), ("origen", "fuente")]

  /**
   * Replaying the literal gives the resolved table: the repeated keys keep
   * their first position (ahead of `servicio`) and take their last value.
   */
  lemma Rag2LiteralResolves()
    ensures FromPairs(Rag2Literal) == Rag2Rules
  {
    Rag2Shape();
    ReplayTwoRepeats(Rag2Literal, Rag2Rules);
  }

  lemma Rag2Shape()
    ensures DistinctKeys(Rag2Literal[..15]) && DistinctKeys(Rag2Rules)
    ensures Rag2Literal[15].0 == Rag2Literal[12].0 && Rag2Literal[16].0 == Rag2Literal[11].0
    ensures Rag2Rules == Rag2Literal[..11] + [Rag2Literal[16], Rag2Literal[15]] + Rag2Literal[13..15] + Rag2Literal[17..]
  {
    Rag2RuleKeysDistinct();
    Rag2RulesKeyed();
    Rag2LiteralHeadKeyed();
    Rag2Layout();
  }

  /** The keywords of the resolved RAG2 table, in order. */
  const Rag2RuleKeys: seq<string> := [
    "body_content", "body", "descripcion", "description", "texto", "text", "contenido", "detalle", "detail",
    "tipo", "type", "category", "categoria", "servicio", "service",
    "subcategoria", "subcategory", "fuente", "source", "origen"]

  lemma Rag2RuleKeysDistinct()
    ensures forall i, j :: 0 <= i < j < |Rag2RuleKeys| ==> Rag2RuleKeys[i] != Rag2RuleKeys[j]
  {
  }

  lemma Rag2RulesKeyed()
    ensures |Rag2Rules| == |Rag2RuleKeys| && forall i :: 0 <= i < |Rag2Rules| ==> Rag2Rules[i].0 == Rag2RuleKeys[i]
  {
  }

  lemma Rag2LiteralHeadKeyed()
    ensures forall i :: 0 <= i < 15 ==> Rag2Literal[..15][i].0 == Rag2RuleKeys[i]
  {
  }

  lemma Rag2Layout()
    ensures Rag2Literal[15].0 == Rag2Literal[12].0 && Rag2Literal[16].0 == Rag2Literal[11].0
    ensures Rag2Rules == Rag2Literal[..11] + [Rag2Literal[16], Rag2Literal[15]] + Rag2Literal[13..15] + Rag2Literal[17..]
  {
  }

  /**
   * The shape of the RAG2 literal: fifteen distinct keys, the keys at 12 and
   * 11 assigned again, then fresh keys.
   */
  lemma ReplayTwoRepeats(lit: seq<(string, string)>, out: OrderedMap<string>)
    requires |lit| == 22 && DistinctKeys(lit[..15])
    requires lit[15].0 == lit[12].0 && lit[16].0 == lit[11].0
    requires out == lit[..11] + [lit[16], lit[15]] + lit[13..15] + lit[17..]
    requires DistinctKeys(out)
    ensures FromPairs(lit) == out
  {
    ReplayRepeatedHead(lit, out);
    var n := 17;
    while n < 22
      invariant 17 <= n <= 22
      invariant FromPairs(lit[..n]) == out[..n - 2]
    {
      ReplayFresh(lit, out, n);
      n := n + 1;
    }
    assert lit[..22] == lit;
  }

  /** The first seventeen assignments: fifteen fresh keys, then the keys at 12 and 11 again. */
  lemma ReplayRepeatedHead(lit: seq<(string, string)>, out: OrderedMap<string>)
    requires |lit| == 22 && DistinctKeys(lit[..15])
    requires lit[15].0 == lit[12].0 && lit[16].0 == lit[11].0
    requires out == lit[..11] + [lit[16], lit[15]] + lit[13..15] + lit[17..]
    ensures FromPairs(lit[..17]) == out[..15]
  {
    ReplaySecondRepeat(lit);
    var t := lit[..15][12 := lit[15]][11 := lit[16]];
    forall j | 0 <= j < 15
      ensures t[j] == out[j]
    {
      if j < 11 || 13 <= j {
        assert t[j] == lit[j];
      }
    }
  }

  /** The sixteenth assignment overwrites the entry at 12. */
  lemma ReplayFirstRepeat(lit: seq<(string, string)>)
    requires |lit| == 22 && DistinctKeys(lit[..15])
    requires lit[15].0 == lit[12].0
    ensures FromPairs(lit[..16]) == lit[..15][12 := lit[15]]
  {
    FromPairsDistinct(lit[..15]);
    ReplayOverwrite(lit, 15, lit[..15], 12);
  }

  /** The seventeenth assignment overwrites the entry at 11. */
  lemma ReplaySecondRepeat(lit: seq<(string, string)>)
    requires |lit| == 22 && DistinctKeys(lit[..15])
    requires lit[15].0 == lit[12].0 && lit[16].0 == lit[11].0
    ensures FromPairs(lit[..17]) == lit[..15][12 := lit[15]][11 := lit[16]]
  {
    ReplayFirstRepeat(lit);
    var t1 := FromPairs(lit[..16]);
    assert t1[11] == lit[11];
    ReplayOverwrite(lit, 16, t1, 11);
  }

  /** Assigning again to the key first held at `i` overwrites that entry. */
  lemma ReplayOverwrite(lit: seq<(string, string)>, n: nat, built: OrderedMap<string>, i: nat)
    requires n < |lit| && FromPairs(lit[..n]) == built
    requires i < |built| && built[i].0 == lit[n].0 && DistinctKeys(built)
    ensures FromPairs(lit[..n + 1]) == built[i := lit[n]]
  {
    ReplayStep(lit, n, built);
    PutAt(built, i, lit[n].0, lit[n].1);
  }

  /**
   * Where the literal's tail agrees with a table whose keys are distinct,
   * one more assignment appends the next entry.
   */
  lemma ReplayFresh(lit: seq<(string, string)>, table: OrderedMap<string>, n: nat)
    requires 2 <= n < |lit| && n - 2 < |table| && lit[n] == table[n - 2]
    requires DistinctKeys(table)
    requires FromPairs(lit[..n]) == table[..n - 2]
    ensures FromPairs(lit[..n + 1]) == table[..n - 1]
  {
    ReplayStep(lit, n, table[..n - 2]);
    assert table[..n - 1] == table[..n - 2] + [lit[n]];
    assert lit[n].0 !in Keys(table[..n - 2]);
  }

  /** One assignment of the literal replayed on the dict built so far. */
  lemma ReplayStep(lit: seq<(string, string)>, n: nat, built: OrderedMap<string>)
    requires n < |lit| && FromPairs(lit[..n]) == built
    ensures FromPairs(lit[..n + 1]) == Put(built, lit[n].0, lit[n].1)
  {
    var m := lit[..n + 1];
    assert m[..n] == lit[..n] && m[n] == lit[n];
  }

  function Rules(rag: Rag): OrderedMap<string> {
    match rag
    case Rag1 => Rag1Rules
    case Rag2 => Rag2Rules
  }

  // ---------------------------------------------------------------------------
  // Keyword matching
  // ---------------------------------------------------------------------------

  /** The first entry from `start` on whose keyword occurs in `name`. */
  function FirstMatch(rules: OrderedMap<string>, name: string, start: nat): (r: Option<nat>)
    requires start <= |rules|
    ensures r.Some? ==> start <= r.value < |rules| && IsSubstring(rules[r.value].0, name)
    ensures r.Some? ==> forall j :: start <= j < r.value ==> !IsSubstring(rules[j].0, name)
    ensures r.None? ==> forall j :: start <= j < |rules| ==> !IsSubstring(rules[j].0, name)
    decreases |rules| - start
  {
    if start == |rules| then None
    else if IsSubstring(rules[start].0, name) then Some(start)
    else FirstMatch(rules, name, start + 1)
  }

  /** The target a column label gets from a keyword table, if any. */
  function KeywordTarget(rules: OrderedMap<string>, col: string): (r: Option<string>)
    ensures r.Some? <==> exists i :: 0 <= i < |rules| && IsSubstring(rules[i].0, Lower(col))
  {
    match FirstMatch(rules, Lower(col), 0)
    case Some(i) => Some(rules[i].1)
    case None => None
  }

  /** The entry at `i` is the first whose keyword occurs in the lower-cased label. */
  lemma KeywordTargetAt(rules: OrderedMap<string>, col: string, i: nat)
    requires i < |rules| && IsSubstring(rules[i].0, Lower(col))
    requires forall j :: 0 <= j < i ==> !IsSubstring(rules[j].0, Lower(col))
    ensures KeywordTarget(rules, col) == Some(rules[i].1)
  {
  }

  /** The keyword pass: `mapping[col] = target` for every column that matches. */
  function KeywordMapping(rules: OrderedMap<string>, columns: seq<string>): (m: ColumnMapping)
    ensures DistinctKeys(m)
  {
    if |columns| == 0 then []
    else
      var n := |columns| - 1;
      var prev := KeywordMapping(rules, columns[..n]);
      match KeywordTarget(rules, columns[n])
      case Some(t) =>
        PutDistinct(prev, columns[n], t);
        Put(prev, columns[n], t)
      case None => prev
  }

  /** A label is mapped exactly when it is a column and its keyword lookup succeeds, and to that target. */
  lemma {:induction false} KeywordMappingGet(rules: OrderedMap<string>, columns: seq<string>, c: string)
    ensures Get(KeywordMapping(rules, columns), c) == (if c in columns then KeywordTarget(rules, c) else None)
  {
    if |columns| > 0 {
      var n := |columns| - 1;
      var prev := KeywordMapping(rules, columns[..n]);
      KeywordMappingGet(rules, columns[..n], c);
      assert columns == columns[..n] + [columns[n]];
      match KeywordTarget(rules, columns[n])
      case Some(t) =>
        if c == columns[n] {
          PutGet(prev, c, t);
        } else {
          PutOther(prev, columns[n], t, c);
        }
      case None =>
    }
  }

  /** Every key of the keyword pass is a column label. */
  lemma KeywordMappingKeys(rules: OrderedMap<string>, columns: seq<string>)
    ensures forall k :: k in Keys(KeywordMapping(rules, columns)) ==> k in columns
  {
    forall k | k in Keys(KeywordMapping(rules, columns))
      ensures k in columns
    {
      KeywordMappingGet(rules, columns, k);
    }
  }

  // ---------------------------------------------------------------------------
  // Long-text heuristic
  // ---------------------------------------------------------------------------

  /** `cells.dropna().head(k)`: the first `k` present values, in order. */
  function Sample(cells: seq<Value>, k: nat): (s: seq<Value>)
    ensures |s| <= k
    ensures forall v :: v in s ==> v in cells && !v.Null?
    ensures |s| == 0 ==> k == 0 || forall v :: v in cells ==> v.Null?
  {
    if |cells| == 0 || k == 0 then []
    else if cells[0].Null? then Sample(cells[1..], k)
    else [cells[0]] + Sample(cells[1..], k - 1)
  }

  /** Sum of `len(str(v))` over a sample. */
  function TotalLength(s: seq<Value>): nat {
    if |s| == 0 then 0 else |PyStr(s[0])| + TotalLength(s[1..])
  }

  /** At least one present value, and the mean length of the first three is above 50. */
  predicate LongText(cells: seq<Value>) {
    var s := Sample(cells, 3);
    |s| > 0 && TotalLength(s) > 50 * |s|
  }

  /** The descriptive field the heuristic fills. */
  function LongTextField(rag: Rag): string {
    match rag
    case Rag1 => "texto"
    case Rag2 => "descripcion"
  }

  /**
   * Column `j` qualifies: unmapped, its label unique (a repeated label makes
   * `df[col]` a frame and the check raises, which is swallowed), and long text.
   */
  predicate Candidate(f: Frame, m: ColumnMapping, j: nat)
    requires WellFormed(f) && j < |f.columns|
  {
    f.columns[j] !in Keys(m) && Occurrences(f.columns, f.columns[j]) == 1 && LongText(Column(f, j))
  }

  /** The heuristic loop from column `j` on. */
  function AutoMap(f: Frame, field: string, m: ColumnMapping, j: nat): ColumnMapping
    requires WellFormed(f) && j <= |f.columns|
    decreases |f.columns| - j
  {
    if j == |f.columns| then m
    else
      var next := if Candidate(f, m, j) && field !in ValuesOf(m)
                  then m + [(f.columns[j], field)] else m;
      AutoMap(f, field, next, j + 1)
  }

  /** The first qualifying column from `j` on. */
  function FirstCandidate(f: Frame, m: ColumnMapping, j: nat): (r: Option<nat>)
    requires WellFormed(f) && j <= |f.columns|
    ensures r.Some? ==> j <= r.value < |f.columns| && Candidate(f, m, r.value)
    ensures r.Some? ==> forall k :: j <= k < r.value ==> !Candidate(f, m, k)
    ensures r.None? ==> forall k :: j <= k < |f.columns| ==> !Candidate(f, m, k)
    decreases |f.columns| - j
  {
    if j == |f.columns| then None
    else if Candidate(f, m, j) then Some(j)
    else FirstCandidate(f, m, j + 1)
  }

  /** Once the field is a mapping value the loop changes nothing. */
  lemma {:induction false} AutoMapSaturated(f: Frame, field: string, m: ColumnMapping, j: nat)
    requires WellFormed(f) && j <= |f.columns|
    requires field in ValuesOf(m)
    ensures AutoMap(f, field, m, j) == m
    decreases |f.columns| - j
  {
    if j < |f.columns| {
      AutoMapSaturated(f, field, m, j + 1);
    }
  }

  /**
   * The heuristic adds the first qualifying column, and only it, to the
   * descriptive field, unless that field is already a mapping value.
   */
  lemma AutoMapCharacterised(f: Frame, field: string, m: ColumnMapping, j: nat)
    requires WellFormed(f) && j <= |f.columns|
    ensures AutoMap(f, field, m, j) ==
      (if field in ValuesOf(m) then m
       else match FirstCandidate(f, m, j)
         case Some(k) => m + [(f.columns[k], field)]
         case None => m)
  {
    if field in ValuesOf(m) {
      AutoMapSaturated(f, field, m, j);
    } else {
      AutoMapFirstCandidate(f, field, m, j);
    }
  }

  /** While the field is unmapped, the loop adds the first qualifying column, if any. */
  lemma {:induction false} AutoMapFirstCandidate(f: Frame, field: string, m: ColumnMapping, j: nat)
    requires WellFormed(f) && j <= |f.columns| && field !in ValuesOf(m)
    ensures AutoMap(f, field, m, j) ==
      (match FirstCandidate(f, m, j)
       case Some(k) => m + [(f.columns[k], field)]
       case None => m)
    decreases |f.columns| - j
  {
    if j < |f.columns| {
      if Candidate(f, m, j) {
        AutoMapTakesCandidate(f, field, m, j);
      } else {
        AutoMapSkips(f, field, m, j);
        AutoMapFirstCandidate(f, field, m, j + 1);
      }
    }
  }

  lemma AutoMapTakesCandidate(f: Frame, field: string, m: ColumnMapping, j: nat)
    requires WellFormed(f) && j < |f.columns|
    requires field !in ValuesOf(m) && Candidate(f, m, j)
    ensures AutoMap(f, field, m, j) == m + [(f.columns[j], field)]
    ensures FirstCandidate(f, m, j) == Some(j)
  {
    var next := m + [(f.columns[j], field)];
    assert ValuesOf(next)[|m|] == field;
    AutoMapSaturated(f, field, next, j + 1);
  }

  lemma AutoMapSkips(f: Frame, field: string, m: ColumnMapping, j: nat)
    requires WellFormed(f) && j < |f.columns|
    requires field !in ValuesOf(m) && !Candidate(f, m, j)
    ensures AutoMap(f, field, m, j) == AutoMap(f, field, m, j + 1)
    ensures FirstCandidate(f, m, j) == FirstCandidate(f, m, j + 1)
  {
  }

  /** The keyword pass over `rules`, then the long-text heuristic for `field`. */
  function MapColumns(f: Frame, rules: OrderedMap<string>, field: string): (m: ColumnMapping)
    requires WellFormed(f)
    ensures DistinctKeys(m)
    ensures forall k :: k in Keys(m) ==> k in f.columns
    ensures KeywordMapping(rules, f.columns) <= m
    ensures |m| <= |KeywordMapping(rules, f.columns)| + 1
  {
    var first := KeywordMapping(rules, f.columns);
    AutoMapCharacterised(f, field, first, 0);
    KeywordMappingKeys(rules, f.columns);
    AutoMapKeys(f, field, first);
    AutoMap(f, field, first, 0)
  }

  /** `_generate_column_mapping`. */
  function GenerateColumnMapping(f: Frame, rag: Rag): (m: ColumnMapping)
    requires WellFormed(f)
    ensures DistinctKeys(m)
    ensures forall k :: k in Keys(m) ==> k in f.columns
  {
    MapColumns(f, Rules(rag), LongTextField(rag))
  }

  /** The heuristic's one addition is a column label not yet mapped. */
  lemma AutoMapKeys(f: Frame, field: string, m: ColumnMapping)
    requires WellFormed(f)
    requires DistinctKeys(m)
    ensures forall k :: k in Keys(AutoMap(f, field, m, 0)) ==> k in Keys(m) || k in f.columns
    ensures DistinctKeys(AutoMap(f, field, m, 0))
  {
    AutoMapCharacterised(f, field, m, 0);
    var r := AutoMap(f, field, m, 0);
    if |r| > |m| {
      var k := FirstCandidate(f, m, 0).value;
      assert Keys(r) == Keys(m) + [f.columns[k]];
    }
  }

  /** Every label the keyword pass maps keeps its target in the final mapping. */
  lemma MapColumnsKeepsKeywordTargets(f: Frame, rules: OrderedMap<string>, field: string, c: string)
    requires WellFormed(f)
    requires c in f.columns && KeywordTarget(rules, c).Some?
    ensures Get(MapColumns(f, rules, field), c) == KeywordTarget(rules, c)
  {
    var first := KeywordMapping(rules, f.columns);
    var m := MapColumns(f, rules, field);
    KeywordMappingGet(rules, f.columns, c);
    GetPrefix(first, m, c);
  }

  /**
   * The heuristic adds at most one column, only to the descriptive field,
   * only when no column holds that field yet, and only a qualifying column.
   */
  lemma MapColumnsAddsAtMostOne(f: Frame, rules: OrderedMap<string>, field: string)
    requires WellFormed(f)
    ensures var first := KeywordMapping(rules, f.columns);
      var m := MapColumns(f, rules, field);
      |m| > |first| ==>
        && field !in ValuesOf(first)
        && m == first + [(m[|first|].0, field)]
        && exists j :: 0 <= j < |f.columns| && m[|first|].0 == f.columns[j] && Candidate(f, first, j)
  {
    var first := KeywordMapping(rules, f.columns);
    AutoMapCharacterised(f, field, first, 0);
  }

  // ---------------------------------------------------------------------------
  // Examples
  // ---------------------------------------------------------------------------

  /**
   * No keyword before position `i` occurs in `name`: each one holds the
   * matching character of `missing`, which `name` lacks.
   */
  lemma NoEarlierKeyword(rules: OrderedMap<string>, name: string, i: nat, missing: string)
    requires i <= |rules| && |missing| == i
    requires forall j :: 0 <= j < i ==> missing[j] in rules[j].0 && missing[j] !in name
    ensures forall j :: 0 <= j < i ==> !IsSubstring(rules[j].0, name)
  {
    forall j | 0 <= j < i
      ensures !IsSubstring(rules[j].0, name)
    {
      MissingChar(rules[j].0, name, missing[j]);
    }
  }

  /**
   * A label without capitals gets the target at `i` when the keyword at `i` occurs
   * in it at `at` and each earlier keyword holds a character the label lacks.
   */
  lemma KeywordExample(rules: OrderedMap<string>, col: string, i: nat, at: nat, missing: string)
    requires i < |rules| && |missing| == i && forall k :: 0 <= k < |col| ==> !IsUpper(col[k])
    requires OccursAt(rules[i].0, col, at)
    requires forall j :: 0 <= j < i ==> missing[j] in rules[j].0 && missing[j] !in col
    ensures KeywordTarget(rules, col) == Some(rules[i].1)
  {
    assert Lower(col) == col;
    NoEarlierKeyword(rules, col, i, missing);
    SubstringFromOccurrence(rules[i].0, col, at);
    KeywordTargetAt(rules, col, i);
  }

  /** The same, read off the final mapping of a frame that has such a column. */
  lemma MappedByKeyword(f: Frame, rules: OrderedMap<string>, field: string, col: string, i: nat, at: nat, missing: string)
    requires WellFormed(f) && col in f.columns
    requires i < |rules| && |missing| == i && forall k :: 0 <= k < |col| ==> !IsUpper(col[k])
    requires OccursAt(rules[i].0, col, at)
    requires forall j :: 0 <= j < i ==> missing[j] in rules[j].0 && missing[j] !in col
    ensures Get(MapColumns(f, rules, field), col) == Some(rules[i].1)
  {
    KeywordExample(rules, col, i, at, missing);
    MapColumnsKeepsKeywordTargets(f, rules, field, col);
  }

  /**
   * The keyword pass never yields `subcategoria` for RAG2: every label that
   * contains `subcategoria` or `subcategory` also contains `categoria` or
   * `category`, which come earlier in the table.
   */
  lemma NeverSubcategoria(col: string)
    ensures KeywordTarget(Rules(Rag2), col) != Some("subcategoria")
  {
    Rag2SubcategoriaEntries();
    ShadowedTarget(Rag2Rules, Lower(col));
  }

  /** Where `subcategoria` sits in the RAG2 table, and the keywords ahead of it. */
  lemma Rag2SubcategoriaEntries()
    ensures |Rag2Rules| == 20
    ensures forall j :: 0 <= j < 20 && Rag2Rules[j].1 == "subcategoria" ==> j == 15 || j == 16
    ensures Rag2Rules[15].0 == "subcategoria" && Rag2Rules[16].0 == "subcategory"
    ensures Rag2Rules[12].0 == "categoria" && Rag2Rules[11].0 == "category"
  {
  }

  /** A keyword that contains an earlier one is never the first match. */
  lemma ShadowedTarget(rules: OrderedMap<string>, name: string)
    requires |rules| == 20
    requires forall j :: 0 <= j < 20 && rules[j].1 == "subcategoria" ==> j == 15 || j == 16
    requires rules[15].0 == "subcategoria" && rules[16].0 == "subcategory"
    requires rules[12].0 == "categoria" && rules[11].0 == "category"
    ensures match FirstMatch(rules, name, 0)
      case Some(i) => rules[i].1 != "subcategoria"
      case None => true
  {
    match FirstMatch(rules, name, 0)
    case Some(i) =>
      if i == 15 {
        assert OccursAt("categoria", "subcategoria", 3);
        SubstringFromOccurrence("categoria", "subcategoria", 3);
        SubstringTransitive("categoria", "subcategoria", name);
      } else if i == 16 {
        assert OccursAt("category", "subcategory", 3);
        SubstringFromOccurrence("category", "subcategory", 3);
        SubstringTransitive("category", "subcategory", name);
      }
    case None =>
  }

  // ---------------------------------------------------------------------------
  // Column filtering
  // ---------------------------------------------------------------------------

  /** Positions of the columns labelled `name`, left to right. */
  function Positions(columns: seq<string>, name: string): (ps: seq<nat>)
    ensures forall q :: 0 <= q < |ps| ==> ps[q] < |columns| && columns[ps[q]] == name
  {
    if |columns| == 0 then []
    else
      var n := |columns| - 1;
      Positions(columns[..n], name) + (if columns[n] == name then [n] else [])
  }

  /** `df[keys]`: for each key, every column carrying that label. */
  function Selection(columns: seq<string>, keys: seq<string>): (ps: seq<nat>)
    ensures forall q :: 0 <= q < |ps| ==> ps[q] < |columns| && columns[ps[q]] in keys
  {
    if |keys| == 0 then []
    else Positions(columns, keys[0]) + Selection(columns, keys[1..])
  }

  /** `df[list(mapping.keys())]`: only the mapped columns, in mapping order. */
  function FilterColumns(f: Frame, mapping: ColumnMapping): (r: Frame)
    requires WellFormed(f)
    requires forall k :: k in Keys(mapping) ==> k in f.columns
    ensures WellFormed(r) && |r.rows| == |f.rows|
    ensures forall c :: c in r.columns ==> c in Keys(mapping)
  {
    var sel := Selection(f.columns, Keys(mapping));
    Frame(seq(|sel|, p requires 0 <= p < |sel| => f.columns[sel[p]]),
          seq(|f.rows|, i requires 0 <= i < |f.rows| =>
            seq(|sel|, p requires 0 <= p < |sel| => f.rows[i][sel[p]])))
  }

  /** With unique labels, a label's only position is its own. */
  lemma {:induction false} PositionsUnique(columns: seq<string>, j: nat)
    requires j < |columns|
    requires forall a, b :: 0 <= a < b < |columns| ==> columns[a] != columns[b]
    ensures Positions(columns, columns[j]) == [j]
  {
    var n := |columns| - 1;
    var name := columns[j];
    if j == n {
      assert name !in columns[..n];
      PositionsAbsent(columns[..n], name);
    } else {
      PositionsUnique(columns[..n], j);
    }
  }

  /** A label that is not there has no positions. */
  lemma {:induction false} PositionsAbsent(columns: seq<string>, name: string)
    requires name !in columns
    ensures Positions(columns, name) == []
  {
    if |columns| > 0 {
      PositionsAbsent(columns[..|columns| - 1], name);
    }
  }

  /** With unique labels, the filtered frame has exactly the mapping's keys as its columns. */
  lemma {:induction false} FilterColumnsUnique(f: Frame, mapping: ColumnMapping)
    requires WellFormed(f)
    requires forall k :: k in Keys(mapping) ==> k in f.columns
    requires forall a, b :: 0 <= a < b < |f.columns| ==> f.columns[a] != f.columns[b]
    ensures FilterColumns(f, mapping).columns == Keys(mapping)
  {
    SelectionUnique(f.columns, Keys(mapping));
  }

  lemma {:induction false} SelectionUnique(columns: seq<string>, keys: seq<string>)
    requires forall k :: k in keys ==> k in columns
    requires forall a, b :: 0 <= a < b < |columns| ==> columns[a] != columns[b]
    ensures var sel := Selection(columns, keys);
      |sel| == |keys| && forall p :: 0 <= p < |sel| ==> columns[sel[p]] == keys[p]
  {
    if |keys| > 0 {
      assert keys[0] in keys;
      var j :| 0 <= j < |columns| && columns[j] == keys[0];
      PositionsUnique(columns, j);
      SelectionUnique(columns, keys[1..]);
    }
  }
}

=== FILE: column_mapper_examples.dfy ===
/**
 * Concrete label lookups against the two keyword tables, stated on the
 * mapping of any frame that has the labels. Each witness lemma names the
 * keyword that matches and, for every earlier keyword, a character of it
 * that the label lacks.
 */
module ColumnMapperExamples {
  import opened Wrappers
  import opened Text
  import opened Values
  import opened Schemas
  import opened OrderedMaps
  import opened ColumnMapper

  lemma DocRefWitness()
    ensures 2 < |Rag1Rules| && Rag1Rules[2].1 == "articulo_id"
    ensures OccursAt(Rag1Rules[2].0, "doc_ref", 0)
  {
  }

  lemma DocRefWitnessEarlier()
    ensures forall j :: 0 <= j < 2 ==> "aa"[j] in Rag1Rules[j].0
  {
  }

  lemma DocRefWitnessLacks()
    ensures forall k :: 0 <= k < |"doc_ref"| ==> !IsUpper("doc_ref"[k])
    ensures forall j :: 0 <= j < 2 ==> "aa"[j] !in "doc_ref"
  {
  }

  lemma HeaderWitness()
    ensures 16 < |Rag1Rules| && Rag1Rules[16].1 == "titulo"
    ensures OccursAt(Rag1Rules[16].0, "header", 0)
  {
  }

  lemma HeaderWitnessEarlier()
    ensures forall j :: 0 <= j < 16 ==> "ttooifttccnnsstt"[j] in Rag1Rules[j].0
  {
  }

  lemma HeaderWitnessLacks()
    ensures forall k :: 0 <= k < |"header"| ==> !IsUpper("header"[k])
    ensures forall j :: 0 <= j < 16 ==> "ttooifttccnnsstt"[j] !in "header"
  {
  }

  lemma BodyContentWitness()
    ensures 20 < |Rag1Rules| && Rag1Rules[20].1 == "texto"
    ensures OccursAt(Rag1Rules[20].0, "body_content", 0)
  {
  }

  lemma BodyContentWitnessEarlier()
    ensures forall j :: 0 <= j < 20 ==> "aariiripaauussiihaam"[j] in Rag1Rules[j].0
  {
  }

  lemma BodyContentWitnessLacks()
    ensures forall k :: 0 <= k < |"body_content"| ==> !IsUpper("body_content"[k])
    ensures forall j :: 0 <= j < 20 ==> "aariiripaauussiihaam"[j] !in "body_content"
  {
  }

  /** RAG1 maps `doc_ref`, `header` and `body_content` to the identifier, the title and the text. */
  lemma Rag1Example(f: Frame)
    requires WellFormed(f)
    requires "doc_ref" in f.columns && "header" in f.columns && "body_content" in f.columns
    ensures Get(GenerateColumnMapping(f, Rag1), "doc_ref") == Some("articulo_id")
    ensures Get(GenerateColumnMapping(f, Rag1), "header") == Some("titulo")
    ensures Get(GenerateColumnMapping(f, Rag1), "body_content") == Some("texto")
  {
    DocRefWitness();
    DocRefWitnessEarlier();
    DocRefWitnessLacks();
    MappedByKeyword(f, Rag1Rules, "texto", "doc_ref", 2, 0, "aa");
    HeaderWitness();
    HeaderWitnessEarlier();
    HeaderWitnessLacks();
    MappedByKeyword(f, Rag1Rules, "texto", "header", 16, 0, "ttooifttccnnsstt");
    BodyContentWitness();
    BodyContentWitnessEarlier();
    BodyContentWitnessLacks();
    MappedByKeyword(f, Rag1Rules, "texto", "body_content", 20, 0, "aariiripaauussiihaam");
  }

  lemma SubcategoriaWitness()
    ensures 12 < |Rag2Rules| && Rag2Rules[12].1 == "categoria"
    ensures OccursAt(Rag2Rules[12].0, "subcategoria", 3)
  {
  }

  lemma SubcategoriaWitnessEarlier()
    ensures forall j :: 0 <= j < 12 ==> "_dddxxnddpyy"[j] in Rag2Rules[j].0
  {
  }

  lemma SubcategoriaWitnessLacks()
    ensures forall k :: 0 <= k < |"subcategoria"| ==> !IsUpper("subcategoria"[k])
    ensures forall j :: 0 <= j < 12 ==> "_dddxxnddpyy"[j] !in "subcategoria"
  {
  }

  /**
   * A bare `subcategoria` column is taken for `categoria`: the earlier
   * keyword `categoria` occurs inside it.
   */
  lemma SubcategoriaColumn(f: Frame)
    requires WellFormed(f) && "subcategoria" in f.columns
    ensures Get(GenerateColumnMapping(f, Rag2), "subcategoria") == Some("categoria")
  {
    SubcategoriaWitness();
    SubcategoriaWitnessEarlier();
    SubcategoriaWitnessLacks();
    MappedByKeyword(f, Rag2Rules, "descripcion", "subcategoria", 12, 3, "_dddxxnddpyy");
  }
}

=== FILE: counting.dfy ===
/**
 * Counting the elements of a sequence that satisfy a predicate, as the
 * `count += 1` loops and `sum(1 for ... if ...)` expressions of the source do,
 * tied to the set of positions it counts.
 */
module Counting {

  /** The positions of `xs` whose element satisfies `p`. */
  function IndicesWhere<T>(xs: seq<T>, p: T -> bool): set<nat> {
    set j: nat | j < |xs| && p(xs[j])
  }

  /** How many elements satisfy `p`, counted front to back. */
  function CountWhere<T>(xs: seq<T>, p: T -> bool): (n: nat)
    ensures n <= |xs|
  {
    if |xs| == 0 then 0
    else
      var k := |xs| - 1;
      CountWhere(xs[..k], p) + (if p(xs[k]) then 1 else 0)
  }

  /** The running count is the number of positions whose element satisfies `p`. */
  lemma {:induction false} CountWhereIndices<T>(xs: seq<T>, p: T -> bool)
    ensures CountWhere(xs, p) == |IndicesWhere(xs, p)|
  {
    if |xs| > 0 {
      var k := |xs| - 1;
      CountWhereIndices(xs[..k], p);
      assert IndicesWhere(xs[..k], p) == set j: nat | j < k && p(xs[j]);
      if p(xs[k]) {
        assert IndicesWhere(xs, p) == IndicesWhere(xs[..k], p) + {k};
      } else {
        assert IndicesWhere(xs, p) == IndicesWhere(xs[..k], p);
      }
    }
  }

  /** The count is nonzero exactly when some element satisfies `p`. */
  lemma {:induction false} SomeCounted<T>(xs: seq<T>, p: T -> bool)
    ensures CountWhere(xs, p) > 0 <==> exists x :: x in xs && p(x)
  {
    if |xs| > 0 {
      var k := |xs| - 1;
      SomeCounted(xs[..k], p);
      assert xs == xs[..k] + [xs[k]];
      if exists x :: x in xs && p(x) {
        var x :| x in xs && p(x);
        if x != xs[k] {
          assert x in xs[..k];
        }
      }
    }
  }

  /** The count is the length exactly when every element satisfies `p`. */
  lemma {:induction false} AllCounted<T>(xs: seq<T>, p: T -> bool)
    ensures CountWhere(xs, p) == |xs| <==> forall x :: x in xs ==> p(x)
  {
    if |xs| > 0 {
      var k := |xs| - 1;
      AllCounted(xs[..k], p);
      assert xs == xs[..k] + [xs[k]];
      assert forall x :: x in xs <==> x in xs[..k] || x == xs[k];
    }
  }

  /** Appending an element adds one to the count exactly when it satisfies `p`. */
  lemma CountWhereSnoc<T>(xs: seq<T>, x: T, p: T -> bool)
    ensures CountWhere(xs + [x], p) == CountWhere(xs, p) + (if p(x) then 1 else 0)
  {
    assert (xs + [x])[..|xs|] == xs;
  }
}

=== FILE: file_handlers.dfy ===
/** File-type detection from a file name, and the file summary the response carries. */
module FileHandlers {
  import opened Wrappers
  import opened Text
  import opened Values

  datatype FileType = Csv | Xlsx

  /** The `ValueError` raised for an unsupported suffix. */
  datatype FileError = UnsupportedType(suffix: string)

  /**
   * `Path(filename).name`: the last component of the path. Parsing drops empty
   * components (from a trailing or doubled '/') and "." components, so the
   * name is the last component that is neither; "" when there is none.
   */
  function BaseName(filename: string): (name: string)
    ensures '/' !in name && name != "."
    decreases |filename|
  {
    var last := AfterLast(filename, '/');
    if last != "" && last != "." then last
    else
      match LastIndexOf(filename, '/')
      case None => ""
      case Some(i) => BaseName(filename[..i])
  }

  /** The name is a piece of the path, when there is one. */
  lemma {:induction false} BaseNameWithin(filename: string)
    ensures BaseName(filename) == "" || IsSubstring(BaseName(filename), filename)
    decreases |filename|
  {
    var last := AfterLast(filename, '/');
    if last != "" && last != "." {
      SubstringFromOccurrence(last, filename, |filename| - |last|);
    } else if LastIndexOf(filename, '/').Some? {
      var i := LastIndexOf(filename, '/').value;
      var name := BaseName(filename[..i]);
      BaseNameWithin(filename[..i]);
      if name != "" {
        assert filename[0..i] == filename[..i];
        SubstringFromOccurrence(filename[..i], filename, 0);
        SubstringTransitive(name, filename[..i], filename);
      }
    }
  }

  /** A trailing '/' or "/." leaves the name as it was. */
  lemma BaseNameIgnoresTrailing(s: string)
    ensures BaseName(s + "/") == BaseName(s)
    ensures BaseName(s + "/.") == BaseName(s)
  {
    BaseNameSlash(s);
    BaseNameSlashDot(s);
  }

  lemma BaseNameSlash(s: string)
    ensures BaseName(s + "/") == BaseName(s)
  {
    var a := s + "/";
    LastIndexOfUnique(a, '/', |s|);
    assert AfterLast(a, '/') == "";
    assert a[..|s|] == s;
  }

  lemma BaseNameSlashDot(s: string)
    ensures BaseName(s + "/.") == BaseName(s)
  {
    var b := s + "/.";
    assert b[|s|] == '/' && b[|s| + 1..] == ".";
    LastIndexOfUnique(b, '/', |s|);
    assert AfterLast(b, '/') == ".";
    assert b[..|s|] == s;
  }

  /**
   * `Path(filename).suffix`: from the last '.' of the name, provided that dot
   * is neither the first nor the last character; otherwise empty.
   */
  function Suffix(filename: string): (r: string)
    ensures r == "" || (r[0] == '.' && '.' !in r[1..])
  {
    var name := BaseName(filename);
    match LastIndexOf(name, '.')
    case Some(i) => if 0 < i < |name| - 1 then name[i..] else ""
    case None => ""
  }

  /** The file type a lower-cased suffix names. */
  function ClassifySuffix(suffix: string): Result<FileType, FileError> {
    if suffix == ".csv" then Success(Csv)
    else if suffix == ".xlsx" || suffix == ".xls" then Success(Xlsx)
    else Failure(UnsupportedType(suffix))
  }

  /** `FileHandler.detect_file_type`. */
  function DetectFileType(filename: string): (r: Result<FileType, FileError>)
    ensures r == Success(Csv) <==> Lower(Suffix(filename)) == ".csv"
    ensures r == Success(Xlsx) <==> Lower(Suffix(filename)) == ".xlsx" || Lower(Suffix(filename)) == ".xls"
    ensures r.Failure? <==> Lower(Suffix(filename)) != ".csv" && Lower(Suffix(filename)) != ".xlsx" && Lower(Suffix(filename)) != ".xls"
    ensures r.Failure? ==> r.error == UnsupportedType(Lower(Suffix(filename)))
  {
    ClassifySuffix(Lower(Suffix(filename)))
  }

  /**
   * Only the text after the last dot decides: appending "." and an extension
   * to a name that does not end in '/' makes that extension the suffix.
   */
  lemma SuffixOfExtension(stem: string, ext: string)
    requires |ext| > 0 && '.' !in ext && '/' !in ext
    requires |AfterLast(stem, '/')| > 0
    ensures Suffix(stem + "." + ext) == "." + ext
  {
    var f := stem + "." + ext;
    var tail := "." + ext;
    assert f == stem + tail;
    assert '/' !in tail;
    var b := AfterLast(stem, '/');
    AfterLastAppend(stem, tail, '/');
    assert |b + tail| >= 2;
    assert BaseName(f) == b + tail;
    var name := b + tail;
    assert name[|b|] == '.';
    assert name[|b| + 1..] == ext;
    LastIndexOfUnique(name, '.', |b|);
  }

  /** Appending text without `c` extends what follows the last `c`. */
  lemma AfterLastAppend(s: string, t: string, c: char)
    requires c !in t
    ensures AfterLast(s + t, c) == AfterLast(s, c) + t
  {
    var st := s + t;
    match LastIndexOf(s, c)
    case Some(i) =>
      assert st[i] == c;
      assert st[i + 1..] == s[i + 1..] + t;
      LastIndexOfUnique(st, c, i);
    case None =>
      assert c !in st;
  }

  /** The case of the extension does not matter, only its lower-cased form. */
  lemma DetectByExtension(stem: string, ext: string)
    requires |ext| > 0 && '.' !in ext && '/' !in ext
    requires |AfterLast(stem, '/')| > 0
    ensures DetectFileType(stem + "." + ext) ==
      (if Lower(ext) == "csv" then Success(Csv)
       else if Lower(ext) == "xlsx" || Lower(ext) == "xls" then Success(Xlsx)
       else Failure(UnsupportedType("." + Lower(ext))))
  {
    var f := stem + "." + ext;
    SuffixOfExtension(stem, ext);
    LowerConcat(".", ext);
    assert Lower(Suffix(f)) == "." + Lower(ext);
    ClassifyDotted(Lower(ext));
  }

  /** Classifying ".ext" compares `ext` itself. */
  lemma ClassifyDotted(l: string)
    ensures ClassifySuffix("." + l) ==
      (if l == "csv" then Success(Csv)
       else if l == "xlsx" || l == "xls" then Success(Xlsx)
       else Failure(UnsupportedType("." + l)))
  {
    PrefixCancel(".", l, "csv");
    PrefixCancel(".", l, "xlsx");
    PrefixCancel(".", l, "xls");
    assert "." + "csv" == ".csv" && "." + "xlsx" == ".xlsx" && "." + "xls" == ".xls";
  }

  lemma PrefixCancel(p: string, x: string, y: string)
    ensures p + x == p + y <==> x == y
  {
    if p + x == p + y {
      assert x == (p + x)[|p|..] == (p + y)[|p|..] == y;
    }
  }

  /** "a.tar.CSV" is a CSV file. */
  lemma TarCsvExample()
    ensures DetectFileType("a.tar.CSV") == Success(Csv)
  {
    assert "a.tar" + "." + "CSV" == "a.tar.CSV";
    assert AfterLast("a.tar", '/') == "a.tar";
    assert Lower("CSV") == "csv";
    DetectByExtension("a.tar", "CSV");
  }

  /** A trailing '/' does not change the detected type. */
  lemma DetectIgnoresTrailingSlash(s: string)
    ensures DetectFileType(s + "/") == DetectFileType(s)
  {
    BaseNameIgnoresTrailing(s);
  }

  /** "data.csv/" names the file "data.csv", a CSV file. */
  lemma TrailingSlashCsv()
    ensures DetectFileType("data.csv/") == Success(Csv)
  {
    assert "data.csv" + "/" == "data.csv/";
    DetectIgnoresTrailingSlash("data.csv");
    DataCsv();
  }

  lemma DataCsv()
    ensures DetectFileType("data.csv") == Success(Csv)
  {
    assert "data" + "." + "csv" == "data.csv";
    assert AfterLast("data", '/') == "data";
    assert Lower("csv") == "csv";
    DetectByExtension("data", "csv");
  }

  /** A name whose only dot leads it (a hidden file) has no suffix. */
  lemma HiddenFileRejected()
    ensures DetectFileType(".csv").Failure?
  {
    assert LastIndexOf(".csv", '.') == Some(0);
  }

  datatype FileInfo = FileInfo(filename: string, sizeBytes: int, rowsCount: nat, columnsCount: nat, fileType: FileType)

  /** `FileHandler.get_file_info`: raises exactly when the file type is unsupported. */
  function GetFileInfo(f: Frame, filename: string, size: int): (r: Result<FileInfo, FileError>)
    ensures r.Success? <==> DetectFileType(filename).Success?
    ensures r.Failure? ==> r.error == DetectFileType(filename).error
    ensures r.Success? ==> r.value == FileInfo(filename, size, |f.rows|, |f.columns|, DetectFileType(filename).value)
  {
    match DetectFileType(filename)
    case Success(t) => Success(FileInfo(filename, size, |f.rows|, |f.columns|, t))
    case Failure(e) => Failure(e)
  }
}

=== FILE: handler.dfy ===
/**
 * The AWS Lambda entry point: classifying the incoming event by the keys it
 * carries, and routing it to the S3 handler, to the HTTP adapter, or to a 400
 * response.
 *
 * The event is a decoded JSON object. Python's `in`, `len` and `[0]` are
 * modelled on JSON values with the exceptions they raise on values that do
 * not support them, since the source applies them without type checks.
 */
module Handler {
  import opened Wrappers
  import opened Text

  /** A decoded JSON value. Numbers are kept as integers; their digits never matter here. */
  datatype Json =
    | JNull
    | JBool(b: bool)
    | JNum(n: int)
    | JStr(s: string)
    | JArr(items: seq<Json>)
    | JObj(fields: map<string, Json>)

  /** The exceptions Python raises from `in`, `len` and indexing. */
  datatype PyError = TypeError | KeyError | IndexError

  /** `needle in container` for a string needle. */
  function Contains(needle: string, container: Json): (r: Result<bool, PyError>)
    ensures r.Failure? <==> !(container.JObj? || container.JArr? || container.JStr?)
    ensures container.JObj? ==> r == Success(needle in container.fields)
    ensures container.JArr? ==> r == Success(JStr(needle) in container.items)
  {
    match container
    case JObj(fields) => Success(needle in fields)
    case JArr(items) => Success(JStr(needle) in items)
    case JStr(s) => Success(IsSubstring(needle, s))
    case _ => Failure(TypeError)
  }

  /** `len(value)`. */
  function Len(value: Json): (r: Result<nat, PyError>)
    ensures r.Failure? <==> !(value.JObj? || value.JArr? || value.JStr?)
    ensures value.JArr? ==> r == Success(|value.items|)
  {
    match value
    case JObj(fields) => Success(|fields|)
    case JArr(items) => Success(|items|)
    case JStr(s) => Success(|s|)
    case _ => Failure(TypeError)
  }

  /** `value[0]`: the first item or character; an object has no key `0`. */
  function First(value: Json): (r: Result<Json, PyError>)
    ensures value.JArr? && |value.items| > 0 ==> r == Success(value.items[0])
    ensures value.JObj? ==> r == Failure(KeyError)
    ensures r.Success? ==> value.JArr? || value.JStr?
  {
    match value
    case JArr(items) => if |items| == 0 then Failure(IndexError) else Success(items[0])
    case JStr(s) => if |s| == 0 then Failure(IndexError) else Success(JStr([s[0]]))
    case JObj(_) => Failure(KeyError)
    case _ => Failure(TypeError)
  }

  /** What `detect_event_source` returns. */
  datatype EventSource = S3 | ApiGateway | Alb | Unknown

  /** The string the source uses for each event source. */
  function SourceName(src: EventSource): (name: string)
    ensures name in ["s3", "api_gateway", "alb", "unknown"]
  {
    match src
    case S3 => "s3"
    case ApiGateway => "api_gateway"
    case Alb => "alb"
    case Unknown => "unknown"
  }

  /** The first test: a non-empty `Records` whose first entry contains "s3". */
  function RecordsTest(event: map<string, Json>): (r: Result<bool, PyError>)
    ensures "Records" !in event ==> r == Success(false)
  {
    if "Records" !in event then Success(false)
    else
      match Len(event["Records"])
      case Failure(e) => Failure(e)
      case Success(n) =>
        if n == 0 then Success(false)
        else
          match First(event["Records"])
          case Failure(e) => Failure(e)
          case Success(record) => Contains("s3", record)
  }

  /**
   * `detect_event_source`: an S3 record first; then a `requestContext`, which
   * is an ALB event when it contains "elb"; then an HTTP API event carrying
   * both `version` and `routeKey`; otherwise unknown.
   */
  function DetectEventSource(event: map<string, Json>): (r: Result<EventSource, PyError>)
    ensures r.Failure? ==> "Records" in event || "requestContext" in event
    ensures RecordsTest(event) == Success(true) ==> r == Success(S3)
    ensures r == Success(S3) ==> "Records" in event
    ensures r == Success(Alb) ==> "requestContext" in event
    ensures "Records" !in event && "requestContext" !in event ==>
      r == Success(if "version" in event && "routeKey" in event then ApiGateway else Unknown)
    ensures r == Success(Unknown) ==> "requestContext" !in event && !("version" in event && "routeKey" in event)
  {
    match RecordsTest(event)
    case Failure(e) => Failure(e)
    case Success(true) => Success(S3)
    case Success(false) =>
      if "requestContext" in event then
        match Contains("elb", event["requestContext"])
        case Failure(e) => Failure(e)
        case Success(elb) => Success(if elb then Alb else ApiGateway)
      else if "version" in event && "routeKey" in event then Success(ApiGateway)
      else Success(Unknown)
  }

  /** Where `handler` sends an event. */
  datatype Route =
    | ToS3Handler
    | ToHttpAdapter
    | Rejected(statusCode: int, eventSource: string)

  /** `handler`: S3 events to the S3 handler, HTTP events to the adapter, the rest to a 400. */
  function Dispatch(event: map<string, Json>): (r: Result<Route, PyError>)
    ensures r.Failure? <==> DetectEventSource(event).Failure?
    ensures r == Success(ToS3Handler) <==> DetectEventSource(event) == Success(S3)
    ensures r == Success(ToHttpAdapter) <==> DetectEventSource(event) in {Success(ApiGateway), Success(Alb)}
    ensures r.Success? && r.value.Rejected? ==> r.value == Rejected(400, "unknown")
  {
    match DetectEventSource(event)
    case Failure(e) => Failure(e)
    case Success(src) =>
      if src == S3 then Success(ToS3Handler)
      else if src in {ApiGateway, Alb} then Success(ToHttpAdapter)
      else Success(Rejected(400, SourceName(src)))
  }

  // ---------------------------------------------------------------------------
  // An independent statement of the classification for well-shaped events
  // ---------------------------------------------------------------------------

  /** `Records`, when present, is a list of objects, and `requestContext` an object. */
  predicate WellShaped(event: map<string, Json>) {
    ("Records" in event ==>
      event["Records"].JArr? && forall j :: 0 <= j < |event["Records"].items| ==> event["Records"].items[j].JObj?)
    && ("requestContext" in event ==> event["requestContext"].JObj?)
  }

  /** The first record of a well-shaped event has an "s3" key. */
  predicate HasS3Record(event: map<string, Json>)
    requires WellShaped(event)
  {
    "Records" in event && |event["Records"].items| > 0 && "s3" in event["Records"].items[0].fields
  }

  /** The event has a `requestContext` with an "elb" key. */
  predicate FromLoadBalancer(event: map<string, Json>)
    requires WellShaped(event)
  {
    "requestContext" in event && "elb" in event["requestContext"].fields
  }

  /** The event looks like an API Gateway request. */
  predicate FromApiGateway(event: map<string, Json>)
    requires WellShaped(event)
  {
    ("requestContext" in event && "elb" !in event["requestContext"].fields)
    || ("requestContext" !in event && "version" in event && "routeKey" in event)
  }

  /** On a well-shaped event, detection never raises and picks the first test that holds. */
  lemma DetectWellShaped(event: map<string, Json>)
    requires WellShaped(event)
    ensures DetectEventSource(event).Success?
    ensures DetectEventSource(event) == Success(S3) <==> HasS3Record(event)
    ensures DetectEventSource(event) == Success(Alb) <==> !HasS3Record(event) && FromLoadBalancer(event)
    ensures DetectEventSource(event) == Success(ApiGateway) <==> !HasS3Record(event) && FromApiGateway(event)
    ensures DetectEventSource(event) == Success(Unknown)
      <==> !HasS3Record(event) && !FromLoadBalancer(event) && !FromApiGateway(event)
  {
    if "Records" in event && |event["Records"].items| > 0 {
      assert event["Records"].items[0].JObj?;
    }
  }

  /** An S3 record wins over every other key the event carries. */
  lemma S3TakesPriority(event: map<string, Json>)
    requires WellShaped(event) && HasS3Record(event)
    ensures Dispatch(event) == Success(ToS3Handler)
  {
    DetectWellShaped(event);
  }

  /** An event with none of the keys the detection looks at is refused with a 400. */
  lemma BareEventRejected(event: map<string, Json>)
    requires "Records" !in event && "requestContext" !in event && "routeKey" !in event
    ensures Dispatch(event) == Success(Rejected(400, "unknown"))
  {
  }

  /**
   * `Records` holding an object rather than a list is not handled: `[0]` on
   * a non-empty dict raises before any other key is looked at.
   */
  lemma RecordsObjectRaises(event: map<string, Json>)
    requires "Records" in event && event["Records"].JObj? && |event["Records"].fields| > 0
    ensures Dispatch(event) == Failure(KeyError)
  {
  }

  /** A `Records` list whose first entry is a string matches on substrings, as Python's `in` does. */
  lemma StringRecordMatchesSubstring(event: map<string, Json>, s: string)
    requires "Records" in event && event["Records"] == JArr([JStr(s)])
    ensures DetectEventSource(event) == Success(S3) <==> IsSubstring("s3", s)
  {
  }
}

=== FILE: normalization.dfy ===
/**
 * Step 4 of the pipeline: canonical column labels, type coercion of the mapped
 * columns, and the structural check that rejects an empty frame.
 */
module Normalization {
  import opened Wrappers
  import opened Text
  import opened OrderedMaps
  import opened Values

  /** A column mapping: source column label to target field, in insertion order. */
  type ColumnMapping = OrderedMap<string>

  // ---------------------------------------------------------------------------
  // Column labels
  // ---------------------------------------------------------------------------

  /** `col.lower().strip().replace(' ', '_').replace('-', '_')`. */
  function NormalizeName(col: string): string {
    ReplaceChar(ReplaceChar(Strip(Lower(col)), ' ', '_'), '-', '_')
  }

  /** A canonical label: lower case, trimmed, with no blank or hyphen. */
  predicate Canonical(s: string) {
    LowerTrimmed(s) && forall k :: 0 <= k < |s| ==> s[k] != ' ' && s[k] != '-'
  }

  lemma NormalizeNameCanonical(col: string)
    ensures Canonical(NormalizeName(col))
  {
    StripLowerTrimmed(col);
    ReplaceCanonical(Strip(Lower(col)));
  }

  lemma StripLowerTrimmed(col: string)
    ensures LowerTrimmed(Strip(Lower(col)))
  {
    StripKeepsNoUpper(Lower(col));
  }

  lemma ReplaceCanonical(t: string)
    requires LowerTrimmed(t)
    ensures Canonical(ReplaceChar(ReplaceChar(t, ' ', '_'), '-', '_'))
  {
    var a := ReplaceChar(t, ' ', '_');
    ReplaceByUnderscore(t, ' ');
    ReplaceByUnderscore(a, '-');
    var n := ReplaceChar(a, '-', '_');
    forall k | 0 <= k < |n|
      ensures n[k] != ' ' && n[k] != '-'
    {
      assert n[k] == '_' || n[k] == a[k];
    }
  }

  /** Replacing a character by '_' keeps a string lower-case and trimmed. */
  lemma ReplaceByUnderscore(t: string, c: char)
    requires c != '_'
    requires LowerTrimmed(t)
    ensures LowerTrimmed(ReplaceChar(t, c, '_'))
    ensures forall k :: 0 <= k < |ReplaceChar(t, c, '_')| ==>
      ReplaceChar(t, c, '_')[k] != c && (ReplaceChar(t, c, '_')[k] == '_' || ReplaceChar(t, c, '_')[k] == t[k])
  {
    assert !IsUpper('_') && !IsSpace('_');
  }

  /** Every label a canonical label stands for is itself. */
  lemma CanonicalFixed(s: string)
    requires Canonical(s)
    ensures NormalizeName(s) == s
  {
    LowerNoCapitals(s);
    StripNoSpaceEnds(s);
    ReplaceAbsent(s, ' ', '_');
    ReplaceAbsent(s, '-', '_');
  }

  /** Normalising a label twice is normalising it once. */
  lemma NormalizeNameIdempotent(col: string)
    ensures NormalizeName(NormalizeName(col)) == NormalizeName(col)
  {
    NormalizeNameCanonical(col);
    CanonicalFixed(NormalizeName(col));
  }

  lemma NormalizeNameNoBlank(col: string)
    ensures ' ' !in NormalizeName(col) && '-' !in NormalizeName(col)
  {
    NormalizeNameCanonical(col);
  }

  /** `DataNormalization.normalize_column_names`. */
  function NormalizeColumnNames(columns: seq<string>): (r: seq<string>)
    ensures |r| == |columns|
    ensures forall j :: 0 <= j < |columns| ==> Canonical(r[j]) && r[j] == NormalizeName(columns[j])
  {
    forall j | 0 <= j < |columns|
      ensures Canonical(NormalizeName(columns[j]))
    {
      NormalizeNameCanonical(columns[j]);
    }
    seq(|columns|, j requires 0 <= j < |columns| => NormalizeName(columns[j]))
  }

  /** Renaming a second time changes nothing. */
  lemma NormalizeColumnNamesIdempotent(columns: seq<string>)
    ensures NormalizeColumnNames(NormalizeColumnNames(columns)) == NormalizeColumnNames(columns)
  {
    var once := NormalizeColumnNames(columns);
    forall j | 0 <= j < |columns|
      ensures NormalizeName(once[j]) == once[j]
    {
      CanonicalFixed(once[j]);
    }
  }

  // ---------------------------------------------------------------------------
  // Mapping keys
  // ---------------------------------------------------------------------------

  /** Mapping keys renamed with `NormalizeName`, targets unchanged. */
  function RenameMappingKeys(m: ColumnMapping): (r: ColumnMapping)
    ensures DistinctKeys(r)
    ensures forall k :: k in Keys(r) <==> k in NormalizeColumnNames(Keys(m))
  {
    var r := RenameKeys(m, NormalizeName);
    forall k ensures k in Keys(r) <==> k in NormalizeColumnNames(Keys(m)) {
      RenameKeysKeys(m, NormalizeName, k);
      assert KeyImages(m, NormalizeName) == NormalizeColumnNames(Keys(m));
    }
    r
  }

  /** Every key of a renamed mapping is in canonical form. */
  lemma RenamedKeysCanonical(m: ColumnMapping)
    ensures forall k :: k in Keys(RenameMappingKeys(m)) ==> Canonical(k)
  {
    forall k | k in Keys(RenameMappingKeys(m))
      ensures Canonical(k)
    {
      var i :| 0 <= i < |NormalizeColumnNames(Keys(m))| && NormalizeColumnNames(Keys(m))[i] == k;
    }
  }

  /** Each renamed key carries the target of the last original key that normalises to it. */
  lemma RenameMappingKeysGet(m: ColumnMapping, i: nat)
    requires i < |m|
    requires forall j :: i < j < |m| ==> NormalizeName(m[j].0) != NormalizeName(m[i].0)
    ensures Get(RenameMappingKeys(m), NormalizeName(m[i].0)) == Some(m[i].1)
  {
    RenameKeysGet(m, NormalizeName, i);
  }

  /** When no two keys share a normal form, renaming keeps the order and the targets. */
  lemma RenameMappingKeysInjective(m: ColumnMapping)
    requires forall i, j :: 0 <= i < j < |m| ==> NormalizeName(m[i].0) != NormalizeName(m[j].0)
    ensures |RenameMappingKeys(m)| == |m|
    ensures forall i :: 0 <= i < |m| ==> RenameMappingKeys(m)[i] == (NormalizeName(m[i].0), m[i].1)
  {
    RenameKeysInjective(m, NormalizeName);
  }

  // ---------------------------------------------------------------------------
  // Type coercion
  // ---------------------------------------------------------------------------

  /** `pd.to_numeric(errors='coerce').fillna(0).astype(int)` on one cell. */
  function NumeroCell(v: Value): Value {
    match PyInt(v)
    case Some(n) => Int(n)
    case None => Int(0)
  }

  /**
   * A numeric column holding a missing value: pandas stores it as float64, so
   * `astype(str)` prints its integers with a trailing ".0".
   */
  predicate FloatColumn(f: Frame, j: nat)
    requires WellFormed(f) && j < |f.columns|
  {
    !IsObjectColumn(f, j) && exists i :: 0 <= i < |f.rows| && f.rows[i][j].Null?
  }

  /**
   * `astype(str)` followed by replacing the whole-cell strings "nan" and
   * "None" by "": a missing value prints as one of those two, so it becomes "".
   * An integer prints as in Python, with ".0" appended in a float column.
   */
  function TextCell(v: Value, inFloatColumn: bool): Value {
    match v
    case Null => Str("")
    case Str(s) => if s == "nan" || s == "None" then Str("") else v
    case Int(i) => Str(IntToString(i) + (if inFloatColumn then ".0" else ""))
  }

  /**
   * One converted cell. Under a repeated label `df[col]` is a frame, on which
   * `pd.to_numeric` raises `TypeError`; the handler sets the columns to 0.
   */
  function ConvertCell(f: Frame, mapping: ColumnMapping, i: nat, j: nat): Value
    requires WellFormed(f) && i < |f.rows| && j < |f.columns|
  {
    match Get(mapping, f.columns[j])
    case None => f.rows[i][j]
    case Some(t) =>
      if t == "" then f.rows[i][j]
      else if t == "numero" then (if LabelRepeated(f.columns, j) then Int(0) else NumeroCell(f.rows[i][j]))
      else TextCell(f.rows[i][j], FloatColumn(f, j))
  }

  /** `DataNormalization.infer_and_convert_types`. */
  function InferAndConvertTypes(f: Frame, mapping: ColumnMapping): (r: Frame)
    requires WellFormed(f)
    ensures WellFormed(r) && r.columns == f.columns && |r.rows| == |f.rows|
  {
    Frame(f.columns, seq(|f.rows|, i requires 0 <= i < |f.rows| =>
      seq(|f.columns|, j requires 0 <= j < |f.columns| => ConvertCell(f, mapping, i, j))))
  }

  /** What happens to one cell, by the target its column maps to. */
  lemma InferAndConvertCell(f: Frame, mapping: ColumnMapping, i: nat, j: nat)
    requires WellFormed(f) && i < |f.rows| && j < |f.columns|
    ensures var v := f.rows[i][j];
      var w := InferAndConvertTypes(f, mapping).rows[i][j];
      var t := Get(mapping, f.columns[j]);
      && (t.None? || t == Some("") ==> w == v)
      && (t == Some("numero") && LabelRepeated(f.columns, j) ==> w == Int(0))
      && (t == Some("numero") && !LabelRepeated(f.columns, j) ==>
            w.Int? && (PyInt(v).Some? ==> w.i == PyInt(v).value) && (PyInt(v).None? ==> w.i == 0))
      && (t.Some? && t.value != "" && t.value != "numero" ==>
            && w.Str? && w.s != "nan" && w.s != "None"
            && (v.Null? ==> w.s == "")
            && (v.Str? && v.s != "nan" && v.s != "None" ==> w == v)
            && (v.Int? && !FloatColumn(f, j) ==> PyInt(w) == Some(v.i))
            && (v.Int? && FloatColumn(f, j) ==> w.s == IntToString(v.i) + ".0"))
  {
    assert InferAndConvertTypes(f, mapping).rows[i][j] == ConvertCell(f, mapping, i, j);
    TextCellClean(f.rows[i][j], FloatColumn(f, j));
  }

  /** A text cell is never "nan" or "None", and an integer prints so that it parses back. */
  lemma TextCellClean(v: Value, inFloatColumn: bool)
    ensures var w := TextCell(v, inFloatColumn);
      && w.Str? && w.s != "nan" && w.s != "None"
      && (v.Null? ==> w.s == "")
      && (v.Str? && v.s != "nan" && v.s != "None" ==> w == v)
      && (v.Int? && !inFloatColumn ==> PyInt(w) == Some(v.i))
      && (v.Int? && inFloatColumn ==> w.s == IntToString(v.i) + ".0")
  {
    if v.Int? {
      var s := IntToString(v.i);
      var s' := TextCell(v, inFloatColumn).s;
      if inFloatColumn {
        assert s' == s + ".0";
      } else {
        assert s' == s by { assert s + "" == s; }
        ParseIntToString(v.i);
      }
      assert s' != "nan" && s' != "None" by {
        assert s'[0] == s[0];
        if v.i < 0 { assert s[0] == '-'; } else { assert IsAsciiDigit(s[0]); }
      }
    }
  }

  // ---------------------------------------------------------------------------
  // Structure check
  // ---------------------------------------------------------------------------

  datatype StructureReport = StructureReport(isValid: bool, totalRows: nat, totalColumns: nat, issues: seq<string>)

  const EmptyFrameIssue: string := "DataFrame está vacío"

  function MostlyNullIssue(col: string): string {
    "Columna '" + col + "' tiene más de 90% valores nulos"
  }

  function NullCount(cells: seq<Value>): (n: nat)
    ensures n <= |cells|
  {
    if |cells| == 0 then 0 else (if cells[0].Null? then 1 else 0) + NullCount(cells[1..])
  }

  /** `isna().sum() / len(df) > 0.9`, as an exact comparison. */
  predicate MostlyNull(f: Frame, j: nat)
    requires WellFormed(f) && j < |f.columns|
  {
    10 * NullCount(Column(f, j)) > 9 * |f.rows|
  }

  /** The issues of the columns from `j` on, in column order. */
  function NullIssues(f: Frame, j: nat): (issues: seq<string>)
    requires WellFormed(f) && j <= |f.columns|
    ensures |issues| <= |f.columns| - j
    decreases |f.columns| - j
  {
    if j == |f.columns| then []
    else (if MostlyNull(f, j) then [MostlyNullIssue(f.columns[j])] else []) + NullIssues(f, j + 1)
  }

  /** Some column from `j` on is labelled `col` and mostly null. */
  ghost predicate MostlyNullFrom(f: Frame, j: nat, col: string)
    requires WellFormed(f) && j <= |f.columns|
  {
    exists k :: j <= k < |f.columns| && f.columns[k] == col && MostlyNull(f, k)
  }

  lemma MostlyNullFromStep(f: Frame, j: nat, col: string)
    requires WellFormed(f) && j < |f.columns|
    ensures MostlyNullFrom(f, j, col) <==> (f.columns[j] == col && MostlyNull(f, j)) || MostlyNullFrom(f, j + 1, col)
  {
    if MostlyNullFrom(f, j, col) && !(f.columns[j] == col && MostlyNull(f, j)) {
      var k :| j <= k < |f.columns| && f.columns[k] == col && MostlyNull(f, k);
      assert j + 1 <= k;
    }
    if MostlyNullFrom(f, j + 1, col) {
      var k :| j + 1 <= k < |f.columns| && f.columns[k] == col && MostlyNull(f, k);
      assert j <= k;
    }
  }

  /** Issues are reported exactly for the mostly-null columns. */
  lemma {:induction false} NullIssuesExact(f: Frame, j: nat, col: string)
    requires WellFormed(f) && j <= |f.columns|
    ensures MostlyNullIssue(col) in NullIssues(f, j) <==> MostlyNullFrom(f, j, col)
    decreases |f.columns| - j
  {
    if j < |f.columns| {
      NullIssuesExact(f, j + 1, col);
      MostlyNullFromStep(f, j, col);
      MostlyNullIssueInjective(f.columns[j], col);
      var head := if MostlyNull(f, j) then [MostlyNullIssue(f.columns[j])] else [];
      assert NullIssues(f, j) == head + NullIssues(f, j + 1);
      assert MostlyNullIssue(col) in head <==> f.columns[j] == col && MostlyNull(f, j);
    }
  }

  lemma MostlyNullIssueInjective(a: string, b: string)
    ensures MostlyNullIssue(a) == MostlyNullIssue(b) <==> a == b
  {
    if MostlyNullIssue(a) == MostlyNullIssue(b) {
      var p := "Columna '";
      var s := "' tiene más de 90% valores nulos";
      assert |a| == |b|;
      assert a == MostlyNullIssue(a)[|p|..|p| + |a|];
      assert b == MostlyNullIssue(b)[|p|..|p| + |b|];
    }
  }

  /**
   * `DataNormalization.validate_data_structure` (the per-column dtype summary
   * is omitted). After the emptiness check it reads `df[col].dtype` for every
   * label; under a repeated label `df[col]` is a frame and that raises.
   */
  function ValidateDataStructure(f: Frame): (r: Result<StructureReport, LabelError>)
    requires WellFormed(f)
    ensures r.Failure? <==> !IsEmpty(f) && HasRepeatedLabel(f.columns)
    ensures r.Failure? ==> r.error == NoDtype
    ensures r.Success? ==> r.value.totalRows == |f.rows| && r.value.totalColumns == |f.columns|
    ensures r.Success? ==> (r.value.isValid <==> !IsEmpty(f))
    ensures IsEmpty(f) ==> r.Success? && r.value.issues == [EmptyFrameIssue]
    ensures r.Success? && !IsEmpty(f) ==> forall col :: MostlyNullIssue(col) in r.value.issues <==>
      exists k :: 0 <= k < |f.columns| && f.columns[k] == col && MostlyNull(f, k)
  {
    if IsEmpty(f) then Success(StructureReport(false, |f.rows|, |f.columns|, [EmptyFrameIssue]))
    else if HasRepeatedLabel(f.columns) then Failure(NoDtype)
    else
      forall col ensures MostlyNullIssue(col) in NullIssues(f, 0) <==>
        exists k :: 0 <= k < |f.columns| && f.columns[k] == col && MostlyNull(f, k)
      {
        NullIssuesExact(f, 0, col);
      }
      Success(StructureReport(true, |f.rows|, |f.columns|, NullIssues(f, 0)))
  }

  // ---------------------------------------------------------------------------
  // normalize
  // ---------------------------------------------------------------------------

  /** Why `normalize` raises: the structure check failed, or pandas raised during it. */
  datatype NormalizeError = Invalid(issues: seq<string>) | Raised(labelError: LabelError)

  /**
   * `DataNormalization.normalize`: rename the columns and the mapping keys,
   * coerce the mapped columns, and raise when the structure check fails or
   * cannot be carried out: the frame is empty, or two labels share a normal form.
   */
  function Normalize(f: Frame, mapping: ColumnMapping): (r: Result<Frame, NormalizeError>)
    requires WellFormed(f)
    ensures r.Failure? <==> IsEmpty(f) || HasRepeatedLabel(NormalizeColumnNames(f.columns))
    ensures IsEmpty(f) ==> r == Failure(Invalid([EmptyFrameIssue]))
    ensures !IsEmpty(f) && HasRepeatedLabel(NormalizeColumnNames(f.columns)) ==> r == Failure(Raised(NoDtype))
    ensures r.Success? ==> (WellFormed(r.value) && |r.value.rows| == |f.rows|
                            && r.value.columns == NormalizeColumnNames(f.columns))
  {
    var renamed := Frame(NormalizeColumnNames(f.columns), f.rows);
    var converted := InferAndConvertTypes(renamed, RenameMappingKeys(mapping));
    match ValidateDataStructure(converted)
    case Failure(e) => Failure(Raised(e))
    case Success(report) => if !report.isValid then Failure(Invalid(report.issues)) else Success(converted)
  }

  /**
   * Two labels with one normal form ("Title" and "title", "A B" and "a-b")
   * make `normalize` raise.
   */
  lemma NormalizeRejectsSharedNormalForm(f: Frame, mapping: ColumnMapping, j: nat, k: nat)
    requires WellFormed(f) && !IsEmpty(f)
    requires j < |f.columns| && k < |f.columns| && j != k
    requires NormalizeName(f.columns[j]) == NormalizeName(f.columns[k])
    ensures Normalize(f, mapping) == Failure(Raised(NoDtype))
  {
    var names := NormalizeColumnNames(f.columns);
    assert names[k] == names[j];
    assert LabelRepeated(names, j);
  }

  /** "Title" and "title" share their normal form. */
  lemma TitleCaseVariants()
    ensures NormalizeName("Title") == NormalizeName("title")
  {
    assert Lower("Title") == "title" by {
      assert LowerChar('T') == 't';
      LowerNoCapitals("itle");
      LowerConcat("T", "itle");
      assert "Title" == "T" + "itle" && "title" == "t" + "itle";
    }
    LowerNoCapitals("title");
  }
}

=== FILE: ordered_map.dfy ===
/**
 * A Python `dict` as an association list: iteration follows insertion order,
 * and assigning to an existing key replaces its value where it stands.
 */
module OrderedMaps {
  import opened Wrappers

  type OrderedMap<V> = seq<(string, V)>

  function Keys<V>(m: OrderedMap<V>): (ks: seq<string>)
    ensures |ks| == |m|
    ensures forall i :: 0 <= i < |m| ==> ks[i] == m[i].0
  {
    seq(|m|, i requires 0 <= i < |m| => m[i].0)
  }

  function ValuesOf<V>(m: OrderedMap<V>): (vs: seq<V>)
    ensures |vs| == |m|
    ensures forall i :: 0 <= i < |m| ==> vs[i] == m[i].1
  {
    seq(|m|, i requires 0 <= i < |m| => m[i].1)
  }

  /** No key occurs twice: every map built with `Put` has this shape. */
  ghost predicate DistinctKeys<V>(m: OrderedMap<V>) {
    forall i, j :: 0 <= i < j < |m| ==> m[i].0 != m[j].0
  }

  /** Position of the first entry with key `k`, if any. */
  function IndexOf<V>(m: OrderedMap<V>, k: string): (r: Option<nat>)
    ensures r.Some? ==> (r.value < |m| && m[r.value].0 == k
                         && forall j :: 0 <= j < r.value ==> m[j].0 != k)
    ensures r.None? <==> k !in Keys(m)
  {
    if |m| == 0 then None
    else if m[0].0 == k then Some(0)
    else match IndexOf(m[1..], k)
      case Some(j) => Some(j + 1)
      case None => None
  }

  /** `d.get(k)`. */
  function Get<V>(m: OrderedMap<V>, k: string): (r: Option<V>)
    ensures r.Some? <==> k in Keys(m)
    ensures r.Some? ==> (k, r.value) in m
  {
    match IndexOf(m, k)
    case Some(i) => Some(m[i].1)
    case None => None
  }

  /** Lookup positions depend on the key sequence only. */
  lemma {:induction false} IndexOfSameKeys<V>(m1: OrderedMap<V>, m2: OrderedMap<V>, k: string)
    requires Keys(m1) == Keys(m2)
    ensures IndexOf(m1, k) == IndexOf(m2, k)
  {
    if |m1| > 0 {
      assert m1[0].0 == Keys(m1)[0] == m2[0].0;
      assert Keys(m1[1..]) == Keys(m1)[1..] == Keys(m2)[1..] == Keys(m2[1..]);
      IndexOfSameKeys(m1[1..], m2[1..], k);
    }
  }

  lemma {:induction false} IndexOfAppend<V>(m: OrderedMap<V>, k: string, v: V, k': string)
    requires k' != k
    ensures IndexOf(m + [(k, v)], k') == IndexOf(m, k')
  {
    if |m| == 0 {
      assert IndexOf([(k, v)], k') == IndexOf([(k, v)][1..], k');
    } else {
      assert (m + [(k, v)])[1..] == m[1..] + [(k, v)];
      IndexOfAppend(m[1..], k, v, k');
    }
  }

  /** `d[k] = v`: an existing key keeps its position, a new key goes last. */
  function Put<V>(m: OrderedMap<V>, k: string, v: V): (r: OrderedMap<V>)
    ensures k in Keys(m) ==> Keys(r) == Keys(m)
    ensures k !in Keys(m) ==> r == m + [(k, v)]
  {
    match IndexOf(m, k)
    case Some(i) =>
      var r := m[i := (k, v)];
      assert Keys(r) == Keys(m);
      r
    case None => m + [(k, v)]
  }

  /** After `d[k] = v`, `d[k]` is `v`. */
  lemma PutGet<V>(m: OrderedMap<V>, k: string, v: V)
    ensures Get(Put(m, k, v), k) == Some(v)
  {
    var r := Put(m, k, v);
    if k in Keys(m) {
      IndexOfSameKeys(m, r, k);
    } else {
      assert IndexOf(r, k) == Some(|m|) by {
        assert Keys(r) == Keys(m) + [k];
      }
    }
  }

  /** `d[k] = v` leaves every other key's entry alone. */
  lemma PutOther<V>(m: OrderedMap<V>, k: string, v: V, k': string)
    requires k' != k
    ensures Get(Put(m, k, v), k') == Get(m, k')
  {
    var r := Put(m, k, v);
    if k in Keys(m) {
      IndexOfSameKeys(m, r, k');
    } else {
      IndexOfAppend(m, k, v, k');
    }
  }

  lemma PutDistinct<V>(m: OrderedMap<V>, k: string, v: V)
    requires DistinctKeys(m)
    ensures DistinctKeys(Put(m, k, v))
  {
    var r := Put(m, k, v);
    if k in Keys(m) {
      assert forall i :: 0 <= i < |r| ==> r[i].0 == Keys(r)[i] == Keys(m)[i] == m[i].0;
    }
  }

  /** The first key whose value is `v` (a scan of `d.items()` that stops at the first hit). */
  function FirstKeyFor<V(==)>(m: OrderedMap<V>, v: V): (r: Option<string>)
    ensures r.None? <==> v !in ValuesOf(m)
    ensures r.Some? ==> exists i :: (0 <= i < |m| && m[i] == (r.value, v)
                                    && forall j :: 0 <= j < i ==> m[j].1 != v)
  {
    if |m| == 0 then None
    else if m[0].1 == v then Some(m[0].0)
    else match FirstKeyFor(m[1..], v)
      case Some(k) =>
        assert exists i :: 1 <= i < |m| && m[i] == (k, v) && forall j :: 0 <= j < i ==> m[j].1 != v by {
          var i :| 0 <= i < |m[1..]| && m[1..][i] == (k, v) && forall j :: 0 <= j < i ==> m[1..][j].1 != v;
          assert m[i + 1] == (k, v);
          assert forall j :: 1 <= j < i + 1 ==> m[j].1 == m[1..][j - 1].1;
        }
        Some(k)
      case None => None
  }

  /** Assignment adds its key and keeps every other one. */
  lemma PutKeys<V>(m: OrderedMap<V>, k: string, v: V)
    ensures forall k' :: k' in Keys(Put(m, k, v)) <==> k' in Keys(m) || k' == k
  {
    if k !in Keys(m) {
      assert Keys(m + [(k, v)]) == Keys(m) + [k];
    }
  }

  /** The keys of `m` passed through `g`, in order. */
  function KeyImages<V>(m: OrderedMap<V>, g: string -> string): (ks: seq<string>)
    ensures |ks| == |m|
    ensures forall i :: 0 <= i < |m| ==> ks[i] == g(m[i].0)
  {
    seq(|m|, i requires 0 <= i < |m| => g(m[i].0))
  }

  /**
   * A new dict filled by `d[g(k)] = v` in the order of `m`. Two keys with the
   * same image keep the first one's position and the last one's value.
   */
  function RenameKeys<V>(m: OrderedMap<V>, g: string -> string): (r: OrderedMap<V>)
    ensures DistinctKeys(r)
  {
    if |m| == 0 then []
    else
      var n := |m| - 1;
      var prev := RenameKeys(m[..n], g);
      PutDistinct(prev, g(m[n].0), m[n].1);
      Put(prev, g(m[n].0), m[n].1)
  }

  /** The renamed keys are exactly the images of the original keys. */
  lemma {:induction false} RenameKeysKeys<V>(m: OrderedMap<V>, g: string -> string, k: string)
    ensures k in Keys(RenameKeys(m, g)) <==> k in KeyImages(m, g)
  {
    if |m| > 0 {
      var n := |m| - 1;
      var prev := RenameKeys(m[..n], g);
      RenameKeysKeys(m[..n], g, k);
      PutKeys(prev, g(m[n].0), m[n].1);
      KeyImagesLast(m, g);
    }
  }

  lemma KeyImagesLast<V>(m: OrderedMap<V>, g: string -> string)
    requires |m| > 0
    ensures KeyImages(m, g) == KeyImages(m[..|m| - 1], g) + [g(m[|m| - 1].0)]
  {
    var n := |m| - 1;
    assert forall i :: 0 <= i < n ==> m[..n][i] == m[i];
  }

  /** Each renamed key carries the value of the last original key with that image. */
  lemma {:induction false} RenameKeysGet<V>(m: OrderedMap<V>, g: string -> string, i: nat)
    requires i < |m|
    requires forall j :: i < j < |m| ==> g(m[j].0) != g(m[i].0)
    ensures Get(RenameKeys(m, g), g(m[i].0)) == Some(m[i].1)
  {
    var n := |m| - 1;
    var prev := RenameKeys(m[..n], g);
    if i == n {
      PutGet(prev, g(m[n].0), m[n].1);
    } else {
      RenameKeysGet(m[..n], g, i);
      PutOther(prev, g(m[n].0), m[n].1, g(m[i].0));
    }
  }

  /** No two keys of `m` have the same image under `g`. */
  ghost predicate InjectiveOn<V>(m: OrderedMap<V>, g: string -> string) {
    forall i, j :: 0 <= i < j < |m| ==> g(m[i].0) != g(m[j].0)
  }

  /** Dropping the last entry keeps the images distinct, and that entry's image is new. */
  lemma InjectiveOnPrefix<V>(m: OrderedMap<V>, g: string -> string)
    requires |m| > 0 && InjectiveOn(m, g)
    ensures InjectiveOn(m[..|m| - 1], g)
    ensures g(m[|m| - 1].0) !in KeyImages(m[..|m| - 1], g)
  {
    var n := |m| - 1;
    var prefix := m[..n];
    assert forall i :: 0 <= i < n ==> prefix[i] == m[i];
  }

  /** A last key whose image is new is appended under that image. */
  lemma RenameKeysStep<V>(m: OrderedMap<V>, g: string -> string)
    requires |m| > 0
    requires g(m[|m| - 1].0) !in KeyImages(m[..|m| - 1], g)
    ensures RenameKeys(m, g) == RenameKeys(m[..|m| - 1], g) + [(g(m[|m| - 1].0), m[|m| - 1].1)]
  {
    RenameKeysKeys(m[..|m| - 1], g, g(m[|m| - 1].0));
  }

  /** When no two keys share an image, renaming keeps the order and the values. */
  lemma {:induction false} RenameKeysInjective<V>(m: OrderedMap<V>, g: string -> string)
    requires InjectiveOn(m, g)
    ensures |RenameKeys(m, g)| == |m|
    ensures forall i :: 0 <= i < |m| ==> RenameKeys(m, g)[i] == (g(m[i].0), m[i].1)
  {
    if |m| > 0 {
      var n := |m| - 1;
      var prefix := m[..n];
      InjectiveOnPrefix(m, g);
      RenameKeysInjective(prefix, g);
      RenameKeysStep(m, g);
      var prev := RenameKeys(prefix, g);
      var r := prev + [(g(m[n].0), m[n].1)];
      forall i | 0 <= i < |m|
        ensures r[i] == (g(m[i].0), m[i].1)
      {
        if i < n {
          assert r[i] == prev[i];
          assert prefix[i] == m[i];
        }
      }
    }
  }

  /** A key of a prefix reads the same in the whole map. */
  lemma GetPrefix<V>(m: OrderedMap<V>, whole: OrderedMap<V>, k: string)
    requires m <= whole && k in Keys(m)
    ensures Get(whole, k) == Get(m, k)
  {
    var i := IndexOf(m, k).value;
    assert forall j :: 0 <= j <= i ==> whole[j] == m[j];
    IndexOfFirst(whole, k, i);
  }

  /** The first position holding `k` is what `IndexOf` finds. */
  lemma {:induction false} IndexOfFirst<V>(m: OrderedMap<V>, k: string, i: nat)
    requires i < |m| && m[i].0 == k
    requires forall j :: 0 <= j < i ==> m[j].0 != k
    ensures IndexOf(m, k) == Some(i)
  {
    if i > 0 {
      IndexOfFirst(m[1..], k, i - 1);
    }
  }

  /** `d[k] = v` on a key first found at `i` overwrites that entry alone. */
  lemma PutAt<V>(m: OrderedMap<V>, i: nat, k: string, v: V)
    requires i < |m| && m[i].0 == k
    requires forall j :: 0 <= j < i ==> m[j].0 != k
    ensures Put(m, k, v) == m[i := (k, v)]
  {
    IndexOfFirst(m, k, i);
  }

  /** The scan stops at the first entry holding `v`. */
  lemma {:induction false} FirstKeyForAt<V>(m: OrderedMap<V>, v: V, i: nat)
    requires i < |m| && m[i].1 == v
    requires forall j :: 0 <= j < i ==> m[j].1 != v
    ensures FirstKeyFor(m, v) == Some(m[i].0)
  {
    if i > 0 {
      FirstKeyForAt(m[1..], v, i - 1);
    }
  }

  /** Replays a dict literal: the assignments `d[k] = v` in order, from an empty dict. */
  function Same(k: string): string {
    k
  }

  function FromPairs<V>(pairs: seq<(string, V)>): (r: OrderedMap<V>)
    ensures DistinctKeys(r)
  {
    RenameKeys(pairs, Same)
  }

  /** Replaying one more assignment. */
  lemma FromPairsSnoc<V>(pairs: seq<(string, V)>, k: string, v: V)
    ensures FromPairs(pairs + [(k, v)]) == Put(FromPairs(pairs), k, v)
  {
    assert (pairs + [(k, v)])[..|pairs|] == pairs;
  }

  /** A literal without repeated keys builds exactly its own entries. */
  lemma FromPairsDistinct<V>(pairs: seq<(string, V)>)
    requires forall i, j :: 0 <= i < j < |pairs| ==> pairs[i].0 != pairs[j].0
    ensures FromPairs(pairs) == pairs
  {
    RenameKeysInjective(pairs, Same);
  }
}

=== FILE: pipeline.dfy ===
/**
 * `StandardizationPipeline.process`: file summary, cleaning, column mapping,
 * column filtering, normalisation, standardisation, validation and the
 * response assembly.
 *
 * The frame arrives already parsed from the uploaded bytes; the language-model
 * reply and the record ids are inputs; the processing time is not modelled.
 */
module Pipeline {
  import opened Wrappers
  import opened OrderedMaps
  import opened Values
  import opened Schemas
  import opened FileHandlers
  import opened Cleaning
  import opened Normalization
  import opened ColumnMapper
  import opened Standardization
  import opened Validation

  /** Why `process` raises. */
  datatype PipelineError =
    | UnsupportedFile(fileError: FileError)
    | EmptyFile
    | InvalidStructure(issues: seq<string>)
    | RepeatedLabel(labelError: LabelError)  // pandas raising on a label that names two columns
    | UnusableReply
    | CallMismatch      // the `TypeError`/`ValueError` of a call that does not fit its callee

  /**
   * `DataIngestion.ingest` on a frame already read: the file type must be
   * supported, and a frame without rows or without columns is rejected.
   */
  function Ingest(f: Frame, filename: string): (r: Result<Frame, PipelineError>)
    ensures r.Success? <==> DetectFileType(filename).Success? && !IsEmpty(f)
    ensures r.Success? ==> r.value == f
    ensures DetectFileType(filename).Failure? ==> r == Failure(UnsupportedFile(DetectFileType(filename).error))
  {
    match DetectFileType(filename)
    case Failure(e) => Failure(UnsupportedFile(e))
    case Success(_) => if IsEmpty(f) then Failure(EmptyFile) else Success(f)
  }

  /** The `StandardizationResponse` with its `result` dict flattened. */
  datatype PipelineResponse = PipelineResponse(
    success: bool,
    selectedRag: Rag,
    fileInfo: FileInfo,
    format: string,
    data: seq<Record>,
    columnMapping: ColumnMapping,
    validation: StructureValidation,
    confidenceScore: real)

  /** Steps 2 and 3: the cleaned frame restricted to its mapped columns, and that mapping. */
  datatype Prepared = Prepared(frame: Frame, mapping: ColumnMapping)

  /**
   * Cleaning with the default arguments, the column mapping, and
   * `df_clean[list(mapping.keys())]`; cleaning raises when an object column
   * shares its stripped label with another column.
   */
  function Prepare(f: Frame, rag: Rag): (r: Result<Prepared, LabelError>)
    requires WellFormed(f)
    ensures r.Failure? <==> RepeatedObjectLabel(Frame(StripNames(f.columns), f.rows))
    ensures r.Success? ==> WellFormed(r.value.frame) && |r.value.frame.rows| == |f.rows|
    ensures r.Success? ==> forall c :: c in r.value.frame.columns ==> c in Keys(r.value.mapping)
    ensures r.Success? ==> DistinctKeys(r.value.mapping)
  {
    match Clean(f, true, "keep")
    case Failure(e) => Failure(e)
    case Success(clean) =>
      CleanDefaults(f);
      var mapping := GenerateColumnMapping(clean, rag);
      Success(Prepared(FilterColumns(clean, mapping), mapping))
  }

  /** The prepared frames `normalize` raises on: empty, or with two labels of one normal form. */
  predicate Unnormalizable(p: Prepared) {
    IsEmpty(p.frame) || HasRepeatedLabel(NormalizeColumnNames(p.frame.columns))
  }

  /** The records `standardize` emits from the normalised prepared frame. */
  predicate StandardizedFrom(p: Prepared, rag: Rag, reply: LlmReply, ids: seq<string>, data: seq<Record>)
    requires WellFormed(p.frame) && |ids| == |p.frame.rows| && !Unnormalizable(p) && !reply.Unusable?
  {
    data == Standardize(Records(Normalize(p.frame, p.mapping).value), rag, RenameMappingKeys(p.mapping), reply, ids).value
  }

  /**
   * A response's report is `validate_structure` of its records, its
   * `confidence_score` the blended `calculate_quality_score` of that report,
   * and its `success` the report's `is_valid`.
   */
  predicate Scored(r: PipelineResponse, rag: Rag) {
    && r.validation == ValidateStructure(r.data, rag)
    && (StructureInRange(r.data, rag); r.confidenceScore == QualityScore(r.validation))
    && r.success == r.validation.isValid
  }

  /** Steps 4 and 5: `normalize` on the prepared frame, then `standardize` on its records. */
  function NormalizeAndStandardize(p: Prepared, rag: Rag, reply: LlmReply, ids: seq<string>)
    : (r: Result<seq<Record>, PipelineError>)
    requires WellFormed(p.frame) && |ids| == |p.frame.rows|
    ensures r.Failure? <==> Unnormalizable(p) || reply.Unusable?
    ensures r.Success? ==> StandardizedFrom(p, rag, reply, ids, r.value)
    ensures r.Success? ==> |r.value| <= |p.frame.rows| && forall d :: d in r.value ==> Accepts(rag, d)
  {
    match Normalize(p.frame, p.mapping)
    case Failure(Invalid(issues)) => Failure(InvalidStructure(issues))
    case Failure(Raised(e)) => Failure(RepeatedLabel(e))
    case Success(normalized) =>
      match Standardize(Records(normalized), rag, RenameMappingKeys(p.mapping), reply, ids)
      case Failure(_) => Failure(UnusableReply)
      case Success(data) => Success(data)
  }

  /**
   * Steps 6 and 7: `validate_structure` on the emitted records, the blended
   * `calculate_quality_score` of that report as `confidence_score`, and
   * `success` taken from `is_valid`.
   */
  function Respond(data: seq<Record>, rag: Rag, info: FileInfo, mapping: ColumnMapping): (r: PipelineResponse)
    requires forall d :: d in data ==> Accepts(rag, d)
    ensures r.data == data && r.columnMapping == mapping && r.fileInfo == info
    ensures r.format == DefaultFormat(rag) && r.selectedRag == rag
    ensures Scored(r, rag) && 0.0 <= r.confidenceScore <= 1.0
    ensures |data| > 0 ==>
      r.success && r.validation.confidence == 1.0 && r.validation.errors == [] && r.confidenceScore >= 0.6
  {
    var validation := ValidateStructure(data, rag);
    StructureInRange(data, rag);
    if |data| > 0 then ValidateAllAccepted(data, rag);
      PipelineResponse(validation.isValid, rag, info, DefaultFormat(rag), data, mapping, validation, QualityScore(validation))
    else
      PipelineResponse(validation.isValid, rag, info, DefaultFormat(rag), data, mapping, validation, QualityScore(validation))
  }

  /** `StandardizationPipeline.process`. */
  function Process(f: Frame, filename: string, size: int, rag: Rag, reply: LlmReply, ids: seq<string>)
    : (r: Result<PipelineResponse, PipelineError>)
    requires WellFormed(f) && |ids| == |f.rows|
    ensures r.Failure? <==>
      || DetectFileType(filename).Failure? || IsEmpty(f)
      || Prepare(f, rag).Failure? || Unnormalizable(Prepare(f, rag).value)
      || reply.Unusable?
    ensures DetectFileType(filename).Success? && IsEmpty(f) ==> r == Failure(EmptyFile)
    ensures DetectFileType(filename).Failure? ==> r == Failure(UnsupportedFile(DetectFileType(filename).error))
    ensures r.Success? ==> r.value.success == r.value.validation.isValid
    ensures r.Success? ==> r.value.format == DefaultFormat(rag) && r.value.selectedRag == rag
    ensures r.Success? ==> r.value.fileInfo.rowsCount == |f.rows| && r.value.fileInfo.sizeBytes == size
    ensures r.Success? ==> |r.value.data| <= |f.rows| && forall d :: d in r.value.data ==> Accepts(rag, d)
    ensures r.Success? ==> r.value.validation.totalRecords == |r.value.data|
    ensures r.Success? ==> r.value.columnMapping == RenameMappingKeys(Prepare(f, rag).value.mapping)
    ensures r.Success? && |r.value.data| > 0 ==>
      r.value.success && r.value.validation.confidence == 1.0 && r.value.validation.errors == []
      && r.value.confidenceScore >= 0.6
    ensures r.Success? ==> 0.0 <= r.value.confidenceScore <= 1.0
    ensures r.Success? ==> Scored(r.value, rag)
    ensures r.Success? ==> StandardizedFrom(Prepare(f, rag).value, rag, reply, ids, r.value.data)
  {
    match Ingest(f, filename)
    case Failure(e) => Failure(e)
    case Success(_) =>
      var info := GetFileInfo(f, filename, size).value;
      match Prepare(f, rag)
      case Failure(e) => Failure(RepeatedLabel(e))
      case Success(p) =>
      match NormalizeAndStandardize(p, rag, reply, ids)
      case Failure(e) => Failure(e)
      case Success(data) => Success(Respond(data, rag, info, RenameMappingKeys(p.mapping)))
  }

  /**
   * `process` as written: `ingest` returns one frame but is unpacked as a
   * pair, and `standardize` is passed five positional arguments for four
   * parameters. Whatever the input, the run raises once ingestion succeeds.
   */
  function ProcessAsWritten(f: Frame, filename: string, size: int, rag: Rag, reply: LlmReply, ids: seq<string>)
    : (r: Result<PipelineResponse, PipelineError>)
    requires WellFormed(f) && |ids| == |f.rows|
    ensures r.Failure?
    ensures DetectFileType(filename).Failure? ==> r == Failure(UnsupportedFile(DetectFileType(filename).error))
    ensures DetectFileType(filename).Success? && !IsEmpty(f) ==> r == Failure(CallMismatch)
  {
    match Ingest(f, filename)
    case Failure(e) => Failure(e)
    case Success(_) => Failure(CallMismatch)
  }

  /** Every run the corrected pipeline completes is one the code as written aborts. */
  lemma AsWrittenNeverCompletes(f: Frame, filename: string, size: int, rag: Rag, reply: LlmReply, ids: seq<string>)
    requires WellFormed(f) && |ids| == |f.rows|
    requires Process(f, filename, size, rag, reply, ids).Success?
    ensures ProcessAsWritten(f, filename, size, rag, reply, ids) == Failure(CallMismatch)
  {
  }

  /** With a usable reply, a RAG2 run keeps one record per input row. */
  lemma Rag2KeepsEveryRow(f: Frame, filename: string, size: int, reply: LlmReply, ids: seq<string>)
    requires WellFormed(f) && |ids| == |f.rows|
    requires Process(f, filename, size, Rag2, reply, ids).Success?
    ensures |Process(f, filename, size, Rag2, reply, ids).value.data| == |f.rows|
  {
    var p := Prepare(f, Rag2).value;
    var normalized := Normalize(p.frame, p.mapping).value;
    var records := Records(normalized);
    StandardizeRag2KeepsAll(records, RenameMappingKeys(p.mapping), reply, ids);
  }

  /** The mapping in the response is keyed by normalised column names. */
  lemma ResponseMappingNormalised(f: Frame, filename: string, size: int, rag: Rag, reply: LlmReply, ids: seq<string>)
    requires WellFormed(f) && |ids| == |f.rows|
    requires Process(f, filename, size, rag, reply, ids).Success?
    ensures forall k :: k in Keys(Process(f, filename, size, rag, reply, ids).value.columnMapping) ==> Canonical(k)
  {
    RenamedKeysCanonical(Prepare(f, rag).value.mapping);
  }
}

=== FILE: schemas.dfy ===
/**
 * The two target record schemas, RAG1 (articles/documents) and RAG2
 * (services/tickets), their construction from a dict (what a Pydantic model
 * does on `Schema(**d)`), their dump back to a dict, and the response wrappers.
 *
 * `embedding` is always `None` in this core, so records carry no vector and
 * dump `embedding` as a missing value.
 */
module Schemas {
  import opened Wrappers
  import opened Values

  datatype Rag = Rag1 | Rag2

  /** Upper bound of the SMALLINT `numero` column. */
  const SmallintMax: int := 32767

  datatype Rag1Record = Rag1Record(
    id: string,
    articuloId: string,
    tipo: string,
    numero: int,
    titulo: string,
    texto: string,
    imageCaption: Option<string>,
    keywords: Option<string>)

  datatype Rag2Record = Rag2Record(
    id: string,
    descripcion: string,
    tipo: string,
    servicio: string,
    categoria: string,
    subcategoria: string,
    fuente: string)

  /** A record of either schema. */
  datatype TargetRecord = R1(r1: Rag1Record) | R2(r2: Rag2Record)

  /** The field constraint of RAG1: `numero` is a SMALLINT, both bounds inclusive. */
  predicate ValidRag1(r: Rag1Record) {
    0 <= r.numero <= SmallintMax
  }

  /** RAG2 has no constraint beyond its fields being strings. */
  predicate ValidRag2(r: Rag2Record) {
    true
  }

  predicate ValidTarget(t: TargetRecord) {
    match t
    case R1(r) => ValidRag1(r)
    case R2(r) => ValidRag2(r)
  }

  function OptStr(o: Option<string>): Value {
    match o
    case Some(s) => Str(s)
    case None => Null
  }

  /** `model_dump()` of a RAG1 record. */
  function DumpRag1(r: Rag1Record): (d: Record)
    ensures d.Keys == {"id", "articulo_id", "tipo", "numero", "titulo", "texto", "image_caption", "keywords", "embedding"}
    ensures d["numero"] == Int(r.numero) && d["embedding"] == Null
  {
    map[
      "id" := Str(r.id), "articulo_id" := Str(r.articuloId), "tipo" := Str(r.tipo),
      "numero" := Int(r.numero), "titulo" := Str(r.titulo), "texto" := Str(r.texto),
      "image_caption" := OptStr(r.imageCaption), "keywords" := OptStr(r.keywords),
      "embedding" := Null]
  }

  /** The string fields of RAG2, in declaration order. */
  const Rag2StringFields: seq<string> := ["id", "descripcion", "tipo", "servicio", "categoria", "subcategoria", "fuente"]

  /** `model_dump()` of a RAG2 record. */
  function DumpRag2(r: Rag2Record): (d: Record)
    ensures d.Keys == {"id", "descripcion", "tipo", "servicio", "categoria", "subcategoria", "fuente", "embedding"}
    ensures forall k :: k in d && k != "embedding" ==> d[k].Str?
  {
    map[
      "id" := Str(r.id), "descripcion" := Str(r.descripcion), "tipo" := Str(r.tipo),
      "servicio" := Str(r.servicio), "categoria" := Str(r.categoria),
      "subcategoria" := Str(r.subcategoria), "fuente" := Str(r.fuente),
      "embedding" := Null]
  }

  function Dump(t: TargetRecord): Record {
    match t
    case R1(r) => DumpRag1(r)
    case R2(r) => DumpRag2(r)
  }

  // ---------------------------------------------------------------------------
  // Construction from a dict (`Schema(**d)`)
  // ---------------------------------------------------------------------------

  /** A required `str` field. */
  function RequiredStr(d: Record, k: string): Option<string> {
    if k in d && d[k].Str? then Some(d[k].s) else None
  }

  /** An `Optional[str]` field: absent or missing means `None`, a string is kept, anything else fails. */
  function OptionalStr(d: Record, k: string): Option<Option<string>> {
    if k !in d || d[k].Null? then Some(None)
    else if d[k].Str? then Some(Some(d[k].s))
    else None
  }

  /** `embedding: Optional[List[float]]`: only an absent or missing value passes here. */
  predicate EmbeddingOk(d: Record) {
    "embedding" !in d || d["embedding"].Null?
  }

  /** `RAG1Schema(**d)`: the record, or `None` for a `ValidationError`. Extra keys are ignored. */
  function Rag1FromDict(d: Record): (r: Option<Rag1Record>)
    ensures r.Some? ==> ValidRag1(r.value)
    ensures r.Some? ==> "numero" in d && d["numero"] == Int(r.value.numero)
    ensures r.Some? ==> "id" in d && d["id"] == Str(r.value.id)
  {
    var id := RequiredStr(d, "id");
    var art := RequiredStr(d, "articulo_id");
    var tipo := RequiredStr(d, "tipo");
    var titulo := RequiredStr(d, "titulo");
    var texto := RequiredStr(d, "texto");
    var cap := OptionalStr(d, "image_caption");
    var kw := OptionalStr(d, "keywords");
    if id.Some? && art.Some? && tipo.Some? && titulo.Some? && texto.Some? && cap.Some? && kw.Some?
       && "numero" in d && d["numero"].Int? && 0 <= d["numero"].i <= SmallintMax && EmbeddingOk(d)
    then Some(Rag1Record(id.value, art.value, tipo.value, d["numero"].i, titulo.value, texto.value, cap.value, kw.value))
    else None
  }

  /** `RAG2Schema(**d)`. */
  function Rag2FromDict(d: Record): (r: Option<Rag2Record>)
    ensures r.Some? ==> "id" in d && d["id"] == Str(r.value.id)
  {
    var id := RequiredStr(d, "id");
    var desc := RequiredStr(d, "descripcion");
    var tipo := RequiredStr(d, "tipo");
    var serv := RequiredStr(d, "servicio");
    var cat := RequiredStr(d, "categoria");
    var sub := RequiredStr(d, "subcategoria");
    var fuente := RequiredStr(d, "fuente");
    if id.Some? && desc.Some? && tipo.Some? && serv.Some? && cat.Some? && sub.Some? && fuente.Some? && EmbeddingOk(d)
    then Some(Rag2Record(id.value, desc.value, tipo.value, serv.value, cat.value, sub.value, fuente.value))
    else None
  }

  /** Whether `d` constructs as a record of the target schema. */
  predicate Accepts(rag: Rag, d: Record) {
    match rag
    case Rag1 => Rag1FromDict(d).Some?
    case Rag2 => Rag2FromDict(d).Some?
  }

  /** Dumping a valid RAG1 record and constructing it again gives the same record. */
  lemma Rag1RoundTrip(r: Rag1Record)
    ensures Rag1FromDict(DumpRag1(r)) == (if ValidRag1(r) then Some(r) else None)
  {
  }

  lemma Rag2RoundTrip(r: Rag2Record)
    ensures Rag2FromDict(DumpRag2(r)) == Some(r)
  {
  }

  /** Any dict whose seven RAG2 fields are strings constructs: RAG2 has no range constraint. */
  lemma Rag2AcceptsAllStrings(d: Record)
    requires forall k :: k in Rag2StringFields ==> k in d && d[k].Str?
    requires EmbeddingOk(d)
    ensures Rag2FromDict(d).Some?
  {
    assert Rag2StringFields[0] == "id" && Rag2StringFields[1] == "descripcion" && Rag2StringFields[2] == "tipo";
    assert Rag2StringFields[3] == "servicio" && Rag2StringFields[4] == "categoria";
    assert Rag2StringFields[5] == "subcategoria" && Rag2StringFields[6] == "fuente";
  }

  /** A dumped record of the schema it came from always constructs again. */
  lemma DumpAccepted(rag: Rag, t: TargetRecord)
    requires rag == Rag1 <==> t.R1?
    requires ValidTarget(t)
    ensures Accepts(rag, Dump(t))
  {
    match t
    case R1(r) => Rag1RoundTrip(r);
    case R2(r) => Rag2RoundTrip(r);
  }

  // ---------------------------------------------------------------------------
  // Responses
  // ---------------------------------------------------------------------------

  datatype RagResponse = RagResponse(format: string, data: seq<TargetRecord>, confidenceScore: real)

  function DefaultFormat(rag: Rag): string {
    match rag
    case Rag1 => "rag1_standard"
    case Rag2 => "rag2_standard"
  }

  /**
   * `RAG1Response(data=..., confidence_score=...)` / `RAG2Response(...)` with the
   * default `format`: `None` when the score lies outside [0, 1].
   */
  function MakeResponse(rag: Rag, data: seq<TargetRecord>, confidence: real): (r: Option<RagResponse>)
    ensures r.Some? <==> 0.0 <= confidence <= 1.0
    ensures r.Some? ==> r.value.format == DefaultFormat(rag) && r.value.confidenceScore == confidence
  {
    if 0.0 <= confidence <= 1.0 then Some(RagResponse(DefaultFormat(rag), data, confidence)) else None
  }
}

=== FILE: standardization.dfy ===
/**
 * Step 5 of the pipeline: turning source rows into RAG1/RAG2 records.
 *
 * The language model is asked for per-field transformation rules; its reply
 * arrives here already decoded (`LlmReply`). Parsed rules are applied to every
 * row; a reply that is not valid JSON switches to direct column mapping with
 * index-dependent defaults. Each resulting dict is then coerced to the target
 * schema, and rows the schema rejects are skipped. Record ids come from a
 * supplied sequence instead of `uuid4`.
 */
module Standardization {
  import opened Wrappers
  import opened Text
  import opened OrderedMaps
  import opened Values
  import opened Schemas

  // ---------------------------------------------------------------------------
  // Transformation rules
  // ---------------------------------------------------------------------------

  const CopyAsIs: string := "copiar_tal_cual"
  const CopyWhole: string := "copiar_completo_sin_resumir"
  const CopyIfPresent: string := "copiar_si_existe_sino_null"
  const ToInteger: string := "convertir_a_entero"
  const SplitAndJoin: string := "separar_por_punto_coma_unir_con_coma"

  /**
   * One entry of `reglas_transformacion`: the source column (`None` when the
   * key is absent or null), the transformation name (`None` when absent) and
   * the default value (`Null` when absent).
   */
  datatype Rule = Rule(source: Option<string>, transform: Option<string>, fallback: Value)

  /** `rule.get("transformacion", "copiar_tal_cual")`. */
  function KindOf(rule: Rule): string {
    rule.transform.GetOr(CopyAsIs)
  }

  /** Rules by target field. */
  type Rules = map<string, Rule>

  /**
   * The model's reply after `json.loads`: the rules it holds (an empty map
   * when `reglas_transformacion` is absent), a `JSONDecodeError`, or a reply
   * whose use raises some other exception (a JSON value that is not an
   * object, a rule that is not an object), which aborts the run.
   */
  datatype LlmReply = Parsed(rules: Rules) | JsonDecodeError | Unusable

  /** `pd.isna(v) or v == ""`. */
  predicate Missing(v: Value) {
    v.Null? || v == Str("")
  }

  /** `", ".join(t.strip() for t in s.split(sep))`. */
  function JoinTokens(s: string, sep: char): string {
    Join(", ", StripAll(Split(s, sep)))
  }

  /** `_apply_transformation`: one value through one named transformation. */
  function ApplyTransformation(v: Value, kind: string, fallback: Value): (r: Value)
    ensures Missing(v) ==> r == fallback
    ensures !Missing(v) && kind != CopyIfPresent && kind != ToInteger && kind != SplitAndJoin ==> r == Str(PyStr(v))
  {
    if Missing(v) then fallback
    else if kind == CopyAsIs || kind == CopyWhole then Str(PyStr(v))
    else if kind == CopyIfPresent then (if Truthy(v) then Str(PyStr(v)) else Null)
    else if kind == ToInteger then
      match PyInt(v)
      case Some(n) => Int(n)
      case None => if fallback.Null? then Int(0) else fallback
    else if kind == SplitAndJoin then
      if v.Str? && ';' in v.s then Str(JoinTokens(v.s, ';'))
      else if v.Str? && ',' in v.s then Str(JoinTokens(v.s, ','))
      else if Truthy(v) then Str(PyStr(v))
      else fallback
    else Str(PyStr(v))
  }

  /** The five transformation names are distinct (they differ early on). */
  lemma KindsDistinct()
    ensures SplitAndJoin != CopyAsIs && SplitAndJoin != CopyWhole && SplitAndJoin != CopyIfPresent && SplitAndJoin != ToInteger
    ensures ToInteger != CopyAsIs && ToInteger != CopyWhole && ToInteger != CopyIfPresent
    ensures CopyIfPresent != CopyAsIs && CopyIfPresent != CopyWhole
  {
    assert SplitAndJoin[0] == 's' && CopyAsIs[0] == 'c' && CopyWhole[0] == 'c' && CopyIfPresent[0] == 'c' && ToInteger[0] == 'c';
    assert ToInteger[2] == 'n' && CopyAsIs[2] == 'p' && CopyWhole[2] == 'p' && CopyIfPresent[2] == 'p';
    assert CopyIfPresent[7] == 's' && CopyAsIs[7] == 't' && CopyWhole[7] == 'c';
  }

  /** The glue ", " holds one comma and no semicolon. */
  lemma GlueCounts()
    ensures Count(", ", ',') == 1 && Count(", ", ';') == 0
  {
    assert ", "[1..] == " ";
    assert " "[1..] == "";
  }

  /** Copying a present string gives the string itself, whatever the copy kind. */
  lemma CopyKeepsString(s: string, kind: string, fallback: Value)
    requires s != ""
    requires kind != ToInteger && kind != SplitAndJoin
    ensures ApplyTransformation(Str(s), kind, fallback) == Str(s)
  {
  }

  /** A present zero is falsy: `copiar_si_existe_sino_null` gives `None`, not the default. */
  lemma CopyIfPresentZero(fallback: Value)
    ensures ApplyTransformation(Int(0), CopyIfPresent, fallback) == Null
  {
    KindsDistinct();
  }

  /**
   * `convertir_a_entero` never raises: a present value yields its integer
   * when `int()` accepts it, and otherwise the default, or 0 when there is none.
   */
  lemma ToIntegerTotal(v: Value, fallback: Value)
    requires !Missing(v)
    ensures var r := ApplyTransformation(v, ToInteger, fallback);
      && (PyInt(v).Some? ==> r == Int(PyInt(v).value))
      && (PyInt(v).None? ==> r == (if fallback.Null? then Int(0) else fallback))
      && (r.Int? || r == fallback)
  {
    KindsDistinct();
  }

  /** Printing an integer and converting it back gives the integer. */
  lemma ToIntegerRoundTrip(i: int, fallback: Value)
    ensures ApplyTransformation(Str(IntToString(i)), ToInteger, fallback) == Int(i)
    ensures ApplyTransformation(Int(i), ToInteger, fallback) == Int(i)
  {
    ToIntegerOfPrinted(i, fallback);
    ToIntegerOfInt(i, fallback);
  }

  lemma ToIntegerOfPrinted(i: int, fallback: Value)
    ensures ApplyTransformation(Str(IntToString(i)), ToInteger, fallback) == Int(i)
  {
    var s := IntToString(i);
    ParseIntToString(i);
    assert PyInt(Str(s)) == Some(i);
    assert !Missing(Str(s));
    ToIntegerTotal(Str(s), fallback);
  }

  lemma ToIntegerOfInt(i: int, fallback: Value)
    ensures ApplyTransformation(Int(i), ToInteger, fallback) == Int(i)
  {
    ToIntegerTotal(Int(i), fallback);
  }

  /** With `;` present: every `;` becomes ", ", existing commas stay, no `;` remains. */
  lemma SplitAndJoinSemicolons(s: string, fallback: Value)
    requires ';' in s
    ensures var r := ApplyTransformation(Str(s), SplitAndJoin, fallback);
      && r.Str?
      && Count(r.s, ';') == 0
      && Count(r.s, ',') == Count(s, ',') + Count(s, ';')
  {
    KindsDistinct();
    GlueCounts();
    assert Str(s) != Str("");
    JoinTokensSeparator(s, ';');
    JoinTokensOther(s, ';', ',');
  }

  /** With commas but no `;`: every comma becomes ", " and the comma count is kept. */
  lemma SplitAndJoinCommas(s: string, fallback: Value)
    requires ';' !in s && ',' in s
    ensures var r := ApplyTransformation(Str(s), SplitAndJoin, fallback);
      && r.Str?
      && Count(r.s, ';') == 0
      && Count(r.s, ',') == Count(s, ',')
  {
    KindsDistinct();
    GlueCounts();
    assert Str(s) != Str("");
    CountAbsent(s, ';');
    JoinTokensSeparator(s, ',');
    JoinTokensOther(s, ',', ';');
  }

  /** A string without either separator passes through unchanged. */
  lemma SplitAndJoinPlain(s: string, fallback: Value)
    requires s != "" && ';' !in s && ',' !in s
    ensures ApplyTransformation(Str(s), SplitAndJoin, fallback) == Str(s)
  {
    KindsDistinct();
  }

  /** Tokens hold no separator, so the joined text has one `glue` count per separator. */
  lemma JoinTokensSeparator(s: string, sep: char)
    requires !IsSpace(sep)
    ensures Count(JoinTokens(s, sep), sep) == Count(s, sep) * Count(", ", sep)
  {
    var parts := Split(s, sep);
    var stripped := StripAll(parts);
    SplitPartsFree(s, sep);
    SplitCount(s, sep);
    SumCountsNone(parts, sep);
    StripAllCounts(parts, sep);
    assert SumCounts(stripped, sep) == 0;
    JoinCount(", ", stripped, sep);
    assert |stripped| - 1 == Count(s, sep);
  }

  /** Characters other than the separator and whitespace survive splitting, stripping and joining. */
  lemma JoinTokensOther(s: string, sep: char, c: char)
    requires c != sep && !IsSpace(c)
    ensures Count(JoinTokens(s, sep), c) == Count(s, c) + Count(s, sep) * Count(", ", c)
  {
    var parts := Split(s, sep);
    SplitCount(s, sep);
    SplitKeepsOtherCounts(s, sep, c);
    StripAllCounts(parts, c);
    JoinCount(", ", StripAll(parts), c);
  }

  lemma {:induction false} SumCountsNone(parts: seq<string>, c: char)
    requires forall p :: p in parts ==> c !in p
    ensures SumCounts(parts, c) == 0
  {
    if |parts| > 0 {
      assert parts[0] in parts;
      CountAbsent(parts[0], c);
      SumCountsNone(parts[1..], c);
    }
  }

  // ---------------------------------------------------------------------------
  // Field lookup and defaults
  // ---------------------------------------------------------------------------

  const Rag1Fields: seq<string> := ["articulo_id", "tipo", "numero", "titulo", "texto", "image_caption", "keywords"]
  const Rag2Fields: seq<string> := ["descripcion", "tipo", "servicio", "categoria", "subcategoria", "fuente"]

  /** The fields the rule engine fills, in schema order (`id` and `embedding` aside). */
  function Fields(rag: Rag): seq<string> {
    match rag
    case Rag1 => Rag1Fields
    case Rag2 => Rag2Fields
  }

  /** `_get_default_value`: the static default of a field, `None` for an unknown one. */
  function DefaultValue(rag: Rag, field: string): Value {
    match rag
    case Rag1 =>
      if field == "articulo_id" then Str("ART-0000")
      else if field == "tipo" then Str("General")
      else if field == "numero" then Int(0)
      else if field == "titulo" then Str("Sin título")
      else if field == "texto" then Str("")
      else Null
    case Rag2 =>
      if field == "descripcion" then Str("")
      else if field == "tipo" then Str("General")
      else if field == "servicio" then Str("Sin especificar")
      else if field == "categoria" || field == "subcategoria" then Str("General")
      else if field == "fuente" then Str("csv")
      else Null
  }

  /** Every RAG2 field has a string default; RAG1's optional fields default to `None`. */
  lemma DefaultsTyped()
    ensures forall f :: f in Rag2Fields ==> DefaultValue(Rag2, f).Str?
    ensures DefaultValue(Rag1, "numero") == Int(0)
    ensures DefaultValue(Rag1, "image_caption") == Null && DefaultValue(Rag1, "keywords") == Null
  {
  }

  /** `d.get(k, default)`. */
  function Lookup(d: Record, k: string, default: Value): Value {
    if k in d then d[k] else default
  }

  /**
   * `_safe_get`: the cell of the first mapping key whose target is `field`,
   * when that key is a non-empty label of the row and the cell is present;
   * the default otherwise. Later keys with the same target are never tried.
   */
  function SafeGet(record: Record, mapping: OrderedMap<string>, field: string, default: Value): (r: Value)
    ensures r == default || (r in record.Values && !r.Null?)
  {
    match FirstKeyFor(mapping, field)
    case Some(col) =>
      if col != "" && col in record && !record[col].Null? then record[col] else default
    case None => default
  }

  /** The first key that targets `field` decides, whether or not its column is in the row. */
  lemma SafeGetFirstKey(record: Record, mapping: OrderedMap<string>, field: string, default: Value, i: nat)
    requires i < |mapping| && mapping[i].1 == field
    requires forall j :: 0 <= j < i ==> mapping[j].1 != field
    ensures var col := mapping[i].0;
      SafeGet(record, mapping, field, default) ==
        (if col != "" && col in record && !record[col].Null? then record[col] else default)
  {
    FirstKeyForAt(mapping, field, i);
  }

  /** No key targets `field`: the default. */
  lemma SafeGetUnmapped(record: Record, mapping: OrderedMap<string>, field: string, default: Value)
    requires forall j :: 0 <= j < |mapping| ==> mapping[j].1 != field
    ensures SafeGet(record, mapping, field, default) == default
  {
  }

  /** `_safe_get_int`: `int()` of the looked-up value, or the default when that raises. */
  function SafeGetInt(record: Record, mapping: OrderedMap<string>, field: string, default: int): (r: int)
    ensures var v := SafeGet(record, mapping, field, Int(default));
      r == (match PyInt(v) case Some(n) => n case None => default)
  {
    match PyInt(SafeGet(record, mapping, field, Int(default)))
    case Some(n) => n
    case None => default
  }

  /** A mapped integer cell is read as itself; any unparsable value gives the default. */
  lemma SafeGetIntCases(record: Record, mapping: OrderedMap<string>, field: string, default: int)
    ensures var v := SafeGet(record, mapping, field, Int(default));
      && (v.Int? ==> SafeGetInt(record, mapping, field, default) == v.i)
      && (PyInt(v).None? ==> SafeGetInt(record, mapping, field, default) == default)
  {
  }

  // ---------------------------------------------------------------------------
  // Rule application
  // ---------------------------------------------------------------------------

  /** `record.get(columna_origen) if columna_origen else None`. */
  function RuleInput(record: Record, rule: Rule): Value {
    match rule.source
    case Some(col) => if col != "" then Lookup(record, col, Null) else Null
    case None => Null
  }

  /** The value a field gets: from its rule when there is one, else by direct lookup. */
  function FieldValue(rag: Rag, record: Record, rules: Rules, mapping: OrderedMap<string>, field: string): Value {
    if field in rules then
      var rule := rules[field];
      ApplyTransformation(RuleInput(record, rule), KindOf(rule), rule.fallback)
    else SafeGet(record, mapping, field, DefaultValue(rag, field))
  }

  /** `_apply_rules_to_rag1` / `_apply_rules_to_rag2`. */
  function ApplyRules(rag: Rag, record: Record, rules: Rules, mapping: OrderedMap<string>, id: string): (d: Record)
    ensures d.Keys == {"id", "embedding"} + set f | f in Fields(rag)
    ensures d["id"] == Str(id) && d["embedding"] == Null
  {
    var fields := map f | f in Fields(rag) :: FieldValue(rag, record, rules, mapping, f);
    fields["id" := Str(id)]["embedding" := Null]
  }

  /**
   * A field without a rule takes the first mapped column's present value, or
   * the static default table entry.
   */
  lemma FieldWithoutRule(rag: Rag, record: Record, rules: Rules, mapping: OrderedMap<string>, id: string, field: string)
    requires field in Fields(rag) && field !in rules
    ensures ApplyRules(rag, record, rules, mapping, id)[field] == SafeGet(record, mapping, field, DefaultValue(rag, field))
  {
    assert field != "id" && field != "embedding";
  }

  /** A field with a rule gets the rule's transformation of the rule's source cell. */
  lemma FieldWithRule(rag: Rag, record: Record, rules: Rules, mapping: OrderedMap<string>, id: string, field: string)
    requires field in Fields(rag) && field in rules
    ensures ApplyRules(rag, record, rules, mapping, id)[field] ==
      ApplyTransformation(RuleInput(record, rules[field]), KindOf(rules[field]), rules[field].fallback)
  {
    assert field != "id" && field != "embedding";
  }

  /** A rule whose source cell is missing gives its own default, whatever its kind. */
  lemma RuleMissingSource(rag: Rag, record: Record, rules: Rules, mapping: OrderedMap<string>, id: string, field: string)
    requires field in Fields(rag) && field in rules
    requires Missing(RuleInput(record, rules[field]))
    ensures ApplyRules(rag, record, rules, mapping, id)[field] == rules[field].fallback
  {
    FieldWithRule(rag, record, rules, mapping, id, field);
  }

  /** `_apply_transformation_rules`: every row, with its own id. */
  function ApplyTransformationRules(records: seq<Record>, rules: Rules, mapping: OrderedMap<string>, rag: Rag, ids: seq<string>): (out: seq<Record>)
    requires |ids| == |records|
    ensures |out| == |records|
    ensures forall i :: 0 <= i < |out| ==> out[i] == ApplyRules(rag, records[i], rules, mapping, ids[i])
  {
    seq(|records|, i requires 0 <= i < |records| => ApplyRules(rag, records[i], rules, mapping, ids[i]))
  }

  // ---------------------------------------------------------------------------
  // Direct mapping fallback
  // ---------------------------------------------------------------------------

  /** The value `_map_to_rag1` gives one field: defaults `ART{index:04d}` and `numero = index`. */
  function DirectRag1Value(record: Record, mapping: OrderedMap<string>, index: nat, field: string): Value {
    if field == "articulo_id" then SafeGet(record, mapping, field, Str("ART" + Pad4(index)))
    else if field == "numero" then Int(SafeGetInt(record, mapping, field, index))
    else if field == "tipo" then SafeGet(record, mapping, field, Str("General"))
    else if field == "titulo" then SafeGet(record, mapping, field, Str("Sin título"))
    else if field == "texto" then SafeGet(record, mapping, field, Str(""))
    else SafeGet(record, mapping, field, Null)
  }

  /** `_map_to_rag1`. */
  function MapToRag1(record: Record, mapping: OrderedMap<string>, index: nat, id: string): (d: Record)
    ensures d.Keys == {"id", "embedding"} + set f | f in Rag1Fields
    ensures d["id"] == Str(id) && d["embedding"] == Null && d["numero"].Int?
  {
    var fields := map f | f in Rag1Fields :: DirectRag1Value(record, mapping, index, f);
    fields["id" := Str(id)]["embedding" := Null]
  }

  /** Each RAG1 field of the fallback dict holds the value computed for it. */
  lemma MapToRag1Get(record: Record, mapping: OrderedMap<string>, index: nat, id: string, field: string)
    requires field in Rag1Fields
    ensures field in MapToRag1(record, mapping, index, id)
    ensures MapToRag1(record, mapping, index, id)[field] == DirectRag1Value(record, mapping, index, field)
  {
    assert field != "id" && field != "embedding";
  }

  /** The value `_map_to_rag2` gives one field: default description `Registro {index}`. */
  function DirectRag2Value(record: Record, mapping: OrderedMap<string>, index: nat, field: string): Value {
    if field == "descripcion" then SafeGet(record, mapping, field, Str("Registro " + IntToString(index)))
    else if field == "servicio" then SafeGet(record, mapping, field, Str("Sin especificar"))
    else if field == "fuente" then SafeGet(record, mapping, field, Str("csv"))
    else SafeGet(record, mapping, field, Str("General"))
  }

  /** `_map_to_rag2`. */
  function MapToRag2(record: Record, mapping: OrderedMap<string>, index: nat, id: string): (d: Record)
    ensures d.Keys == {"id", "embedding"} + set f | f in Rag2Fields
    ensures d["id"] == Str(id) && d["embedding"] == Null
  {
    var fields := map f | f in Rag2Fields :: DirectRag2Value(record, mapping, index, f);
    fields["id" := Str(id)]["embedding" := Null]
  }

  /** Each RAG2 field of the fallback dict holds the value computed for it. */
  lemma MapToRag2Get(record: Record, mapping: OrderedMap<string>, index: nat, id: string, field: string)
    requires field in Rag2Fields
    ensures field in MapToRag2(record, mapping, index, id)
    ensures MapToRag2(record, mapping, index, id)[field] == DirectRag2Value(record, mapping, index, field)
  {
    assert field != "id" && field != "embedding";
  }

  function MapTo(rag: Rag, record: Record, mapping: OrderedMap<string>, index: nat, id: string): Record {
    match rag
    case Rag1 => MapToRag1(record, mapping, index, id)
    case Rag2 => MapToRag2(record, mapping, index, id)
  }

  /** With no column mapped to them, RAG1's fallback identifier and number follow the row index. */
  lemma FallbackRag1FollowsIndex(record: Record, mapping: OrderedMap<string>, index: nat, id: string)
    requires forall j :: 0 <= j < |mapping| ==> mapping[j].1 != "articulo_id" && mapping[j].1 != "numero"
    ensures "articulo_id" in MapToRag1(record, mapping, index, id) && "numero" in MapToRag1(record, mapping, index, id)
    ensures MapToRag1(record, mapping, index, id)["articulo_id"] == Str("ART" + Pad4(index))
    ensures MapToRag1(record, mapping, index, id)["numero"] == Int(index)
  {
    assert Rag1Fields[0] == "articulo_id" && Rag1Fields[2] == "numero";
    MapToRag1Get(record, mapping, index, id, "articulo_id");
    MapToRag1Get(record, mapping, index, id, "numero");
    SafeGetUnmapped(record, mapping, "articulo_id", Str("ART" + Pad4(index)));
    SafeGetUnmapped(record, mapping, "numero", Int(index));
  }

  /** With no column mapped to it, RAG2's fallback description names the row index. */
  lemma FallbackRag2FollowsIndex(record: Record, mapping: OrderedMap<string>, index: nat, id: string)
    requires forall j :: 0 <= j < |mapping| ==> mapping[j].1 != "descripcion"
    ensures "descripcion" in MapToRag2(record, mapping, index, id)
    ensures MapToRag2(record, mapping, index, id)["descripcion"] == Str("Registro " + IntToString(index))
  {
    assert Rag2Fields[0] == "descripcion";
    MapToRag2Get(record, mapping, index, id, "descripcion");
    SafeGetUnmapped(record, mapping, "descripcion", Str("Registro " + IntToString(index)));
  }

  /** `_apply_direct_mapping`. */
  function ApplyDirectMapping(records: seq<Record>, mapping: OrderedMap<string>, rag: Rag, ids: seq<string>): (out: seq<Record>)
    requires |ids| == |records|
    ensures |out| == |records|
    ensures forall i :: 0 <= i < |out| ==> out[i] == MapTo(rag, records[i], mapping, i, ids[i])
  {
    seq(|records|, i requires 0 <= i < |records| => MapTo(rag, records[i], mapping, i, ids[i]))
  }

  // ---------------------------------------------------------------------------
  // Schema coercion
  // ---------------------------------------------------------------------------

  /** `int(record.get("numero", 0)) if record.get("numero") is not None else 0`. */
  function NumeroOf(record: Record): Option<int> {
    var v := Lookup(record, "numero", Null);
    if v.Null? then Some(0) else PyInt(v)
  }

  /** `str(v) if v else None`. */
  function TruthyStr(v: Value): Value {
    if Truthy(v) then Str(PyStr(v)) else Null
  }

  /** The coerced value `_create_rag1_record` gives one RAG1 field, with `numero` already converted. */
  function CoerceRag1Value(record: Record, numero: int, field: string): Value {
    if field == "numero" then Int(numero)
    else if field == "image_caption" || field == "keywords" then TruthyStr(Lookup(record, field, Null))
    else if field == "tipo" then Str(PyStr(Lookup(record, field, Str("General"))))
    else Str(PyStr(Lookup(record, field, Str(""))))
  }

  /** The coerced dict `_create_rag1_record` builds, or `None` when `int()` raises. */
  function NormalizeRag1(record: Record): Option<Record> {
    match NumeroOf(record)
    case None => None
    case Some(n) =>
      var fields := map f | f in Rag1Fields :: CoerceRag1Value(record, n, f);
      Some(fields["id" := Str(PyStr(Lookup(record, "id", Str(""))))]["embedding" := Lookup(record, "embedding", Null)])
  }

  /** Each RAG1 field of the coerced dict holds its coerced value. */
  lemma NormalizeRag1Get(record: Record, n: int, field: string)
    requires NumeroOf(record) == Some(n) && field in Rag1Fields
    ensures field in NormalizeRag1(record).value
    ensures NormalizeRag1(record).value[field] == CoerceRag1Value(record, n, field)
  {
    assert field != "id" && field != "embedding";
  }

  /** The coerced dict has the shape `RAG1Schema` checks: strings, an integer `numero`, optional strings. */
  lemma NormalizeRag1Shape(record: Record, n: int)
    requires NumeroOf(record) == Some(n)
    ensures var d := NormalizeRag1(record).value;
      && RequiredStr(d, "id") == Some(PyStr(Lookup(record, "id", Str(""))))
      && RequiredStr(d, "articulo_id").Some? && RequiredStr(d, "tipo").Some?
      && RequiredStr(d, "titulo").Some? && RequiredStr(d, "texto").Some?
      && OptionalStr(d, "image_caption").Some? && OptionalStr(d, "keywords").Some?
      && "numero" in d && d["numero"] == Int(n)
      && "embedding" in d && d["embedding"] == Lookup(record, "embedding", Null)
  {
    assert Rag1Fields[0] == "articulo_id" && Rag1Fields[1] == "tipo" && Rag1Fields[2] == "numero";
    assert Rag1Fields[3] == "titulo" && Rag1Fields[4] == "texto";
    assert Rag1Fields[5] == "image_caption" && Rag1Fields[6] == "keywords";
    NormalizeRag1Required(record, n, "articulo_id");
    NormalizeRag1Required(record, n, "tipo");
    NormalizeRag1Required(record, n, "titulo");
    NormalizeRag1Required(record, n, "texto");
    NormalizeRag1Optional(record, n, "image_caption");
    NormalizeRag1Optional(record, n, "keywords");
    NormalizeRag1Get(record, n, "numero");
    NormalizeRag1Updated(record, n);
  }

  /** `id` and `embedding` are written over the coerced fields. */
  lemma NormalizeRag1Updated(record: Record, n: int)
    requires NumeroOf(record) == Some(n)
    ensures var d := NormalizeRag1(record).value;
      && "id" in d && d["id"] == Str(PyStr(Lookup(record, "id", Str(""))))
      && "embedding" in d && d["embedding"] == Lookup(record, "embedding", Null)
  {
    var fields := map f | f in Rag1Fields :: CoerceRag1Value(record, n, f);
    var d := fields["id" := Str(PyStr(Lookup(record, "id", Str(""))))]["embedding" := Lookup(record, "embedding", Null)];
    assert NormalizeRag1(record).value == d;
    assert "id" != "embedding";
  }

  lemma NormalizeRag1Required(record: Record, n: int, field: string)
    requires NumeroOf(record) == Some(n) && field in Rag1Fields
    requires field != "numero" && field != "image_caption" && field != "keywords"
    ensures RequiredStr(NormalizeRag1(record).value, field).Some?
  {
    NormalizeRag1Get(record, n, field);
  }

  lemma NormalizeRag1Optional(record: Record, n: int, field: string)
    requires NumeroOf(record) == Some(n) && field in Rag1Fields
    requires field == "image_caption" || field == "keywords"
    ensures OptionalStr(NormalizeRag1(record).value, field).Some?
  {
    NormalizeRag1Get(record, n, field);
  }

  /** `_create_rag1_record` up to the dump: `None` when coercion or the schema raises. */
  function CreateRag1Record(record: Record): (r: Option<Rag1Record>)
    ensures r.Some? ==> ValidRag1(r.value)
    ensures r.Some? <==>
      NumeroOf(record).Some? && 0 <= NumeroOf(record).value <= SmallintMax && Lookup(record, "embedding", Null).Null?
    ensures r.Some? ==> r.value.numero == NumeroOf(record).value && r.value.id == PyStr(Lookup(record, "id", Str("")))
  {
    match NormalizeRag1(record)
    case None => None
    case Some(d) => NormalizeRag1Shape(record, NumeroOf(record).value); Rag1FromDict(d)
  }

  /** The coerced dict `_create_rag2_record` builds: every field goes through `str()`. */
  function NormalizeRag2(record: Record): (d: Record)
    ensures forall k :: k in Rag2StringFields ==> k in d && d[k].Str?
    ensures "embedding" in d && d["embedding"] == Lookup(record, "embedding", Null)
    ensures d["id"] == Str(PyStr(Lookup(record, "id", Str(""))))
  {
    map[
      "id" := Str(PyStr(Lookup(record, "id", Str("")))),
      "descripcion" := Str(PyStr(Lookup(record, "descripcion", Str("")))),
      "tipo" := Str(PyStr(Lookup(record, "tipo", Str("General")))),
      "servicio" := Str(PyStr(Lookup(record, "servicio", Str("Sin especificar")))),
      "categoria" := Str(PyStr(Lookup(record, "categoria", Str("General")))),
      "subcategoria" := Str(PyStr(Lookup(record, "subcategoria", Str("General")))),
      "fuente" := Str(PyStr(Lookup(record, "fuente", Str("csv")))),
      "embedding" := Lookup(record, "embedding", Null)]
  }

  /** `_create_rag2_record`: only a non-null `embedding` can make it raise. */
  function CreateRag2Record(record: Record): (r: Option<Rag2Record>)
    ensures r.Some? <==> Lookup(record, "embedding", Null).Null?
    ensures r.Some? ==> r.value.id == PyStr(Lookup(record, "id", Str("")))
  {
    var d := NormalizeRag2(record);
    if d["embedding"].Null? then Rag2AcceptsAllStrings(d); Rag2FromDict(d)
    else Rag2FromDict(d)
  }

  /** The dumped record, or `None` for a row that is skipped. */
  function CreateRecord(rag: Rag, record: Record): (r: Option<Record>)
    ensures r.Some? ==> Accepts(rag, r.value)
  {
    match rag
    case Rag1 =>
      (match CreateRag1Record(record)
       case Some(t) => DumpAccepted(Rag1, R1(t)); Some(DumpRag1(t))
       case None => None)
    case Rag2 =>
      (match CreateRag2Record(record)
       case Some(t) => DumpAccepted(Rag2, R2(t)); Some(DumpRag2(t))
       case None => None)
  }

  // ---------------------------------------------------------------------------
  // standardize
  // ---------------------------------------------------------------------------

  /** The records the loop in `standardize` keeps, in order. */
  function Emit(rag: Rag, records: seq<Record>): (out: seq<Record>)
    ensures |out| <= |records|
    ensures forall d :: d in out ==> Accepts(rag, d)
  {
    if |records| == 0 then []
    else
      var n := |records| - 1;
      var prev := Emit(rag, records[..n]);
      match CreateRecord(rag, records[n])
      case Some(d) => prev + [d]
      case None => prev
  }

  /** How many rows coerce to a schema record, counted from the front. */
  function CreatedCount(rag: Rag, records: seq<Record>): nat {
    if |records| == 0 then 0
    else (if CreateRecord(rag, records[0]).Some? then 1 else 0) + CreatedCount(rag, records[1..])
  }

  lemma {:induction false} CreatedCountAppend(rag: Rag, a: seq<Record>, b: seq<Record>)
    ensures CreatedCount(rag, a + b) == CreatedCount(rag, a) + CreatedCount(rag, b)
  {
    if |a| > 0 {
      assert (a + b)[0] == a[0];
      assert (a + b)[1..] == a[1..] + b;
      CreatedCountAppend(rag, a[1..], b);
    } else {
      assert a + b == b;
    }
  }

  /** The records created from one row: its schema record, or nothing. */
  function CreatedFrom(rag: Rag, record: Record): (r: seq<Record>)
    ensures |r| == if CreateRecord(rag, record).Some? then 1 else 0
    ensures CreateRecord(rag, record).Some? ==> r[0] == CreateRecord(rag, record).value
  {
    match CreateRecord(rag, record)
    case Some(d) => [d]
    case None => []
  }

  lemma EmitLast(rag: Rag, records: seq<Record>, n: nat)
    requires n < |records|
    ensures Emit(rag, records[..n + 1]) == Emit(rag, records[..n]) + CreatedFrom(rag, records[n])
  {
    assert records[..n + 1][..n] == records[..n];
  }

  /** One record is emitted per row whose coercion succeeds, and no more. */
  lemma {:induction false} EmitLength(rag: Rag, records: seq<Record>)
    ensures |Emit(rag, records)| == CreatedCount(rag, records)
  {
    if |records| > 0 {
      var n := |records| - 1;
      EmitLength(rag, records[..n]);
      EmitLast(rag, records, n);
      CreatedCountAppend(rag, records[..n], [records[n]]);
      assert records[..n] + [records[n]] == records;
      assert records[..n + 1] == records;
    }
  }

  /** Emitting from a prefix of the rows gives a prefix of the output. */
  lemma {:induction false} EmitPrefix(rag: Rag, records: seq<Record>, j: nat)
    requires j <= |records|
    ensures Emit(rag, records[..j]) <= Emit(rag, records)
  {
    if j < |records| {
      var n := |records| - 1;
      assert records[..n][..j] == records[..j];
      EmitPrefix(rag, records[..n], j);
      EmitLast(rag, records, n);
      assert records[..n + 1] == records;
      var short, long := Emit(rag, records[..j]), Emit(rag, records[..n]);
      assert long <= Emit(rag, records);
      assert short <= long;
    } else {
      assert records[..j] == records;
    }
  }

  /**
   * The output is the created records in row order: a row whose coercion
   * succeeds sits right after the records created from the rows before it,
   * and there is nothing else.
   */
  predicate EmittedInOrder(rag: Rag, records: seq<Record>, out: seq<Record>) {
    |out| == CreatedCount(rag, records)
    && forall i :: 0 <= i < |records| && CreateRecord(rag, records[i]).Some? ==>
         CreatedCount(rag, records[..i]) < |out| && out[CreatedCount(rag, records[..i])] == CreateRecord(rag, records[i]).value
  }

  /** The row at `i`, when it coerces, lands right after the rows before it. */
  lemma EmitAt(rag: Rag, records: seq<Record>, i: nat)
    requires i < |records| && CreateRecord(rag, records[i]).Some?
    ensures CreatedCount(rag, records[..i]) < |Emit(rag, records)|
    ensures Emit(rag, records)[CreatedCount(rag, records[..i])] == CreateRecord(rag, records[i]).value
  {
    var before, upto := Emit(rag, records[..i]), Emit(rag, records[..i + 1]);
    EmitLength(rag, records[..i]);
    EmitPrefix(rag, records, i + 1);
    EmitLast(rag, records, i);
    assert upto == before + [CreateRecord(rag, records[i]).value];
    assert upto[|before|] == CreateRecord(rag, records[i]).value;
    assert upto <= Emit(rag, records);
  }

  lemma EmitKeepsCreated(rag: Rag, records: seq<Record>)
    ensures EmittedInOrder(rag, records, Emit(rag, records))
  {
    EmitLength(rag, records);
    forall i | 0 <= i < |records| && CreateRecord(rag, records[i]).Some?
      ensures CreatedCount(rag, records[..i]) < |Emit(rag, records)|
      ensures Emit(rag, records)[CreatedCount(rag, records[..i])] == CreateRecord(rag, records[i]).value
    {
      EmitAt(rag, records, i);
    }
  }

  /** The record loop of `standardize`: each record is created or skipped. */
  method EmitRecords(rag: Rag, records: seq<Record>) returns (out: seq<Record>)
    ensures out == Emit(rag, records)
  {
    out := [];
    var i := 0;
    while i < |records|
      invariant 0 <= i <= |records|
      invariant out == Emit(rag, records[..i])
    {
      assert records[..i + 1][..i] == records[..i];
      var created := CreateRecord(rag, records[i]);
      if created.Some? {
        out := out + [created.value];
      }
      i := i + 1;
    }
    assert records[..i] == records;
  }

  datatype StandardizeError = ReplyUnusable

  /** Step 5.1/5.2: the rows transformed by the rules, or by direct mapping on a JSON error. */
  function Transform(records: seq<Record>, rag: Rag, mapping: OrderedMap<string>, reply: LlmReply, ids: seq<string>): (r: Result<seq<Record>, StandardizeError>)
    requires |ids| == |records|
    ensures r.Failure? <==> reply.Unusable?
    ensures r.Success? ==> |r.value| == |records|
  {
    match reply
    case Parsed(rules) => Success(ApplyTransformationRules(records, rules, mapping, rag, ids))
    case JsonDecodeError => Success(ApplyDirectMapping(records, mapping, rag, ids))
    case Unusable => Failure(ReplyUnusable)
  }

  /** `standardize`. */
  function Standardize(records: seq<Record>, rag: Rag, mapping: OrderedMap<string>, reply: LlmReply, ids: seq<string>): (r: Result<seq<Record>, StandardizeError>)
    requires |ids| == |records|
    ensures r.Failure? <==> reply.Unusable?
    ensures r.Success? ==> |r.value| <= |records|
    ensures r.Success? ==> forall d :: d in r.value ==> Accepts(rag, d)
    ensures r.Success? ==> EmittedInOrder(rag, Transform(records, rag, mapping, reply, ids).value, r.value)
  {
    match Transform(records, rag, mapping, reply, ids)
    case Success(ts) => EmitKeepsCreated(rag, ts); Success(Emit(rag, ts))
    case Failure(e) => Failure(e)
  }

  /** The direct-mapping fallback runs exactly when the reply failed to decode. */
  lemma FallbackOnlyOnDecodeError(records: seq<Record>, rag: Rag, mapping: OrderedMap<string>, reply: LlmReply, ids: seq<string>)
    requires |ids| == |records| && !reply.Unusable?
    ensures Transform(records, rag, mapping, reply, ids).value ==
      if reply.JsonDecodeError? then ApplyDirectMapping(records, mapping, rag, ids)
      else ApplyTransformationRules(records, reply.rules, mapping, rag, ids)
  {
  }

  /** Every transformed row has a null `embedding`, so RAG2 coercion never fails. */
  lemma {:induction false} EmitKeepsAllRag2(records: seq<Record>)
    requires forall d :: d in records ==> "embedding" in d && d["embedding"] == Null
    ensures |Emit(Rag2, records)| == |records|
  {
    if |records| > 0 {
      var n := |records| - 1;
      assert records[n] in records;
      assert forall d :: d in records[..n] ==> d in records;
      EmitKeepsAllRag2(records[..n]);
    }
  }

  /** With a usable reply, RAG2 keeps every row. */
  lemma StandardizeRag2KeepsAll(records: seq<Record>, mapping: OrderedMap<string>, reply: LlmReply, ids: seq<string>)
    requires |ids| == |records| && !reply.Unusable?
    ensures |Standardize(records, Rag2, mapping, reply, ids).value| == |records|
  {
    var ts := Transform(records, Rag2, mapping, reply, ids).value;
    forall d | d in ts
      ensures "embedding" in d && d["embedding"] == Null
    {
      var i :| 0 <= i < |ts| && ts[i] == d;
    }
    EmitKeepsAllRag2(ts);
  }

  /** Every RAG1 record `standardize` emits has `0 <= numero <= 32767`. */
  lemma StandardizeRag1Numero(records: seq<Record>, mapping: OrderedMap<string>, reply: LlmReply, ids: seq<string>)
    requires |ids| == |records| && !reply.Unusable?
    ensures forall d: Record :: d in Standardize(records, Rag1, mapping, reply, ids).value ==>
      "numero" in d && d["numero"].Int? && 0 <= d["numero"].i <= SmallintMax
  {
  }

  /** Distinct supplied ids give distinct record ids. */
  lemma TransformIdsDistinct(records: seq<Record>, rag: Rag, mapping: OrderedMap<string>, reply: LlmReply, ids: seq<string>)
    requires |ids| == |records| && !reply.Unusable?
    requires forall a, b :: 0 <= a < b < |ids| ==> ids[a] != ids[b]
    ensures var ts := Transform(records, rag, mapping, reply, ids).value;
      forall a, b :: 0 <= a < b < |ts| ==> ts[a]["id"] != ts[b]["id"]
  {
    var ts := Transform(records, rag, mapping, reply, ids).value;
    forall a, b | 0 <= a < b < |ts|
      ensures ts[a]["id"] != ts[b]["id"]
    {
      assert ts[a]["id"] == Str(ids[a]) && ts[b]["id"] == Str(ids[b]);
    }
  }
}

=== FILE: text.dfy ===
/**
 * The string primitives the Python code leans on: `str.lower`, `str.strip`,
 * `str.split`, `str.join`, substring tests, `str(int)` and `int(str)`.
 *
 * Character classes are given concretely for ASCII and Latin-1 (plus the
 * Unicode space characters); wider Unicode tables are not modelled.
 */
module Text {
  import opened Wrappers

  // ---------------------------------------------------------------------------
  // Character classes
  // ---------------------------------------------------------------------------

  /** Characters `str.isspace` (and the regex class `\s`) accept. */
  predicate IsSpace(c: char) {
    var n := c as int;
    || (9 <= n <= 13) || (28 <= n <= 32) || n == 0x85 || n == 0xA0
    || n == 0x1680 || (0x2000 <= n <= 0x200A) || n == 0x2028 || n == 0x2029
    || n == 0x202F || n == 0x205F || n == 0x3000
  }

  predicate IsAsciiDigit(c: char) {
    '0' <= c <= '9'
  }

  /** Latin-1 characters Python's `str.isalnum` accepts, and `_`: the regex class `\w`. */
  predicate IsWordChar(c: char) {
    var n := c as int;
    || ('a' <= c <= 'z') || ('A' <= c <= 'Z') || IsAsciiDigit(c) || c == '_'
    || n == 0xAA || n == 0xB2 || n == 0xB3 || n == 0xB5 || n == 0xB9 || n == 0xBA
    || (0xBC <= n <= 0xBE) || (0xC0 <= n <= 0xD6) || (0xD8 <= n <= 0xF6) || (0xF8 <= n <= 0xFF)
  }

  predicate IsUpper(c: char) {
    var n := c as int;
    ('A' <= c <= 'Z') || (0xC0 <= n <= 0xDE && n != 0xD7)
  }

  /** `str.lower` on one character (ASCII and Latin-1 capitals). */
  function LowerChar(c: char): (r: char)
    ensures IsUpper(c) ==> r as int == c as int + 32
    ensures !IsUpper(c) ==> r == c
    ensures !IsUpper(r)
  {
    if IsUpper(c) then (c as int + 32) as char else c
  }

  function Lower(s: string): (r: string)
    ensures |r| == |s|
    ensures forall i :: 0 <= i < |s| ==> r[i] == LowerChar(s[i])
  {
    seq(|s|, i requires 0 <= i < |s| => LowerChar(s[i]))
  }

  lemma LowerConcat(a: string, b: string)
    ensures Lower(a + b) == Lower(a) + Lower(b)
  {
    var l := Lower(a + b);
    var r := Lower(a) + Lower(b);
    forall i | 0 <= i < |l|
      ensures l[i] == r[i]
    {
      if i < |a| {
        assert (a + b)[i] == a[i];
      } else {
        assert (a + b)[i] == b[i - |a|];
      }
    }
  }

  /** Text without capitals is its own lower case. */
  lemma LowerNoCapitals(s: string)
    requires forall k :: 0 <= k < |s| ==> !IsUpper(s[k])
    ensures Lower(s) == s
  {
  }

  lemma LowerIdempotent(s: string)
    ensures Lower(Lower(s)) == Lower(s)
  {
  }

  // ---------------------------------------------------------------------------
  // Counting, replacing, substrings
  // ---------------------------------------------------------------------------

  function Count(s: string, c: char): nat {
    if |s| == 0 then 0 else (if s[0] == c then 1 else 0) + Count(s[1..], c)
  }

  lemma {:induction false} CountConcat(a: string, b: string, c: char)
    ensures Count(a + b, c) == Count(a, c) + Count(b, c)
  {
    if |a| == 0 {
      assert a + b == b;
    } else {
      assert (a + b)[1..] == a[1..] + b;
      CountConcat(a[1..], b, c);
    }
  }

  lemma CountAbsent(s: string, c: char)
    ensures c !in s <==> Count(s, c) == 0
  {
  }

  /** `s.replace(a, b)` for single characters. */
  function ReplaceChar(s: string, a: char, b: char): (r: string)
    ensures |r| == |s|
    ensures forall i :: 0 <= i < |s| ==> r[i] == (if s[i] == a then b else s[i])
  {
    seq(|s|, i requires 0 <= i < |s| => if s[i] == a then b else s[i])
  }

  /** Replacing a character the string lacks changes nothing. */
  lemma ReplaceAbsent(s: string, a: char, b: char)
    requires forall k :: 0 <= k < |s| ==> s[k] != a
    ensures ReplaceChar(s, a, b) == s
  {
  }

  predicate IsPrefix(p: string, s: string) {
    |p| <= |s| && p == s[..|p|]
  }

  /** Python's `sub in s`; the empty string is a substring of everything. */
  predicate IsSubstring(sub: string, s: string)
    decreases |s|
  {
    IsPrefix(sub, s) || (|s| > 0 && IsSubstring(sub, s[1..]))
  }

  /** The occurrence view of `IsSubstring`: some window of `s` equals `sub`. */
  ghost predicate OccursAt(sub: string, s: string, i: int) {
    0 <= i && i + |sub| <= |s| && s[i..i + |sub|] == sub
  }

  lemma {:induction false} SubstringFromOccurrence(sub: string, s: string, i: int)
    requires OccursAt(sub, s, i)
    ensures IsSubstring(sub, s)
    decreases i
  {
    if i == 0 {
      assert IsPrefix(sub, s);
    } else {
      assert s[1..][i - 1..i - 1 + |sub|] == s[i..i + |sub|];
      SubstringFromOccurrence(sub, s[1..], i - 1);
    }
  }

  lemma {:induction false} OccurrenceOfSubstring(sub: string, s: string) returns (i: int)
    requires IsSubstring(sub, s)
    ensures OccursAt(sub, s, i)
    decreases |s|
  {
    if IsPrefix(sub, s) {
      i := 0;
    } else {
      var j := OccurrenceOfSubstring(sub, s[1..]);
      assert s[1..][j..j + |sub|] == s[j + 1..j + 1 + |sub|];
      i := j + 1;
    }
  }

  /** Python's `a in b` and `b in c` give `a in c`. */
  lemma SubstringTransitive(a: string, b: string, c: string)
    requires IsSubstring(a, b) && IsSubstring(b, c)
    ensures IsSubstring(a, c)
  {
    var i := OccurrenceOfSubstring(a, b);
    var j := OccurrenceOfSubstring(b, c);
    forall k | 0 <= k < |a|
      ensures c[j + i + k] == a[k]
    {
      assert c[j + i + k] == c[j..j + |b|][i + k] == b[i + k];
      assert b[i + k] == b[i..i + |a|][k];
    }
    assert c[j + i..j + i + |a|] == a;
    SubstringFromOccurrence(a, c, j + i);
  }

  /** A string holding a character that `s` lacks cannot occur in `s`. */
  lemma MissingChar(sub: string, s: string, c: char)
    requires c in sub && c !in s
    ensures !IsSubstring(sub, s)
  {
    if IsSubstring(sub, s) {
      var i := OccurrenceOfSubstring(sub, s);
    }
  }

  // ---------------------------------------------------------------------------
  // strip
  // ---------------------------------------------------------------------------

  function StripLeft(s: string): (r: string)
    ensures |r| <= |s| && r == s[|s| - |r|..]
    ensures |r| > 0 ==> !IsSpace(r[0])
    ensures forall i :: 0 <= i < |s| - |r| ==> IsSpace(s[i])
  {
    if |s| > 0 && IsSpace(s[0]) then StripLeft(s[1..]) else s
  }

  function StripRight(s: string): (r: string)
    ensures |r| <= |s| && r == s[..|r|]
    ensures |r| > 0 ==> !IsSpace(r[|r| - 1])
    ensures forall i :: |r| <= i < |s| ==> IsSpace(s[i])
  {
    if |s| > 0 && IsSpace(s[|s| - 1]) then StripRight(s[..|s| - 1]) else s
  }

  /** `str.strip()`: removes leading and trailing whitespace. */
  function Strip(s: string): string {
    StripRight(StripLeft(s))
  }

  /** The stripped string is a window of the input flanked only by whitespace. */
  lemma StripWindow(s: string) returns (i: nat)
    ensures i + |Strip(s)| <= |s| && Strip(s) == s[i..i + |Strip(s)|]
    ensures forall k :: 0 <= k < i ==> IsSpace(s[k])
    ensures forall k :: i + |Strip(s)| <= k < |s| ==> IsSpace(s[k])
    ensures |Strip(s)| > 0 ==> !IsSpace(Strip(s)[0]) && !IsSpace(Strip(s)[|Strip(s)| - 1])
  {
    var l := StripLeft(s);
    var r := StripRight(l);
    i := |s| - |l|;
    assert r == s[i..i + |r|];
    forall k | i + |r| <= k < |s|
      ensures IsSpace(s[k])
    {
      assert s[k] == l[k - i];
    }
    if |r| > 0 {
      assert r[0] == l[0];
    }
  }

  /** No capitals, and no whitespace at either end. */
  predicate LowerTrimmed(t: string) {
    && (forall k :: 0 <= k < |t| ==> !IsUpper(t[k]))
    && (|t| == 0 || (!IsSpace(t[0]) && !IsSpace(t[|t| - 1])))
  }

  /** Stripping a string without capitals leaves a trimmed string without capitals. */
  lemma StripKeepsNoUpper(s: string)
    requires forall k :: 0 <= k < |s| ==> !IsUpper(s[k])
    ensures LowerTrimmed(Strip(s))
  {
    var i := StripWindow(s);
    var t := Strip(s);
    forall k | 0 <= k < |t|
      ensures !IsUpper(t[k])
    {
      assert t[k] == s[i + k];
    }
  }

  lemma StripIdempotent(s: string)
    ensures Strip(Strip(s)) == Strip(s)
  {
    var _ := StripWindow(s);
    StripNoSpaceEnds(Strip(s));
  }

  lemma StripNoSpaceEnds(s: string)
    requires |s| == 0 || (!IsSpace(s[0]) && !IsSpace(s[|s| - 1]))
    ensures Strip(s) == s
  {
  }

  /** Stripping removes whitespace only, so it keeps every other character's count. */
  lemma StripKeepsCount(s: string, c: char)
    requires !IsSpace(c)
    ensures Count(Strip(s), c) == Count(s, c)
  {
    var i := StripWindow(s);
    CountInsideSpaces(s, i, i + |Strip(s)|, c);
  }

  /** Whitespace on both sides of `s[lo..hi]` adds nothing to a non-space character's count. */
  lemma CountInsideSpaces(s: string, lo: nat, hi: nat, c: char)
    requires lo <= hi <= |s| && !IsSpace(c)
    requires forall k :: 0 <= k < lo ==> IsSpace(s[k])
    requires forall k :: hi <= k < |s| ==> IsSpace(s[k])
    ensures Count(s[lo..hi], c) == Count(s, c)
  {
    assert s == s[0..lo] + s[lo..hi] + s[hi..|s|];
    SpacesCountNone(s, 0, lo, c);
    SpacesCountNone(s, hi, |s|, c);
    CountConcat(s[0..lo] + s[lo..hi], s[hi..|s|], c);
    CountConcat(s[0..lo], s[lo..hi], c);
  }

  /** A run of whitespace holds no non-space character. */
  lemma SpacesCountNone(s: string, lo: nat, hi: nat, c: char)
    requires lo <= hi <= |s| && !IsSpace(c)
    requires forall k :: lo <= k < hi ==> IsSpace(s[k])
    ensures Count(s[lo..hi], c) == 0
  {
    forall k | 0 <= k < hi - lo
      ensures s[lo..hi][k] != c
    {
      assert s[lo..hi][k] == s[lo + k];
    }
    CountNone(s[lo..hi], c);
  }

  lemma CountNone(s: string, c: char)
    requires forall k :: 0 <= k < |s| ==> s[k] != c
    ensures Count(s, c) == 0
  {
  }

  // ---------------------------------------------------------------------------
  // split / join
  // ---------------------------------------------------------------------------

  /** `s.split(sep)` for a one-character separator: always at least one part. */
  function Split(s: string, sep: char): (parts: seq<string>)
    ensures |parts| >= 1
  {
    if |s| == 0 then [""]
    else
      var rest := Split(s[1..], sep);
      if s[0] == sep then [""] + rest
      else [[s[0]] + rest[0]] + rest[1..]
  }

  /** `glue.join(parts)`. */
  function Join(glue: string, parts: seq<string>): string {
    if |parts| == 0 then ""
    else if |parts| == 1 then parts[0]
    else parts[0] + glue + Join(glue, parts[1..])
  }

  lemma JoinConsHead(glue: string, c: char, parts: seq<string>)
    requires |parts| >= 1
    ensures Join(glue, [[c] + parts[0]] + parts[1..]) == [c] + Join(glue, parts)
  {
    var q := [[c] + parts[0]] + parts[1..];
    assert q[1..] == parts[1..];
  }

  /** Splitting then re-joining with the separator restores the string. */
  lemma {:induction false} JoinSplit(s: string, sep: char)
    ensures Join([sep], Split(s, sep)) == s
  {
    if |s| > 0 {
      var rest := Split(s[1..], sep);
      JoinSplit(s[1..], sep);
      if s[0] == sep {
        assert ([""] + rest)[1..] == rest;
      } else {
        JoinConsHead([sep], s[0], rest);
      }
      assert s == [s[0]] + s[1..];
    }
  }

  lemma {:induction false} SplitPartsFree(s: string, sep: char)
    ensures forall p :: p in Split(s, sep) ==> sep !in p
  {
    if |s| > 0 {
      SplitPartsFree(s[1..], sep);
    }
  }

  /** One more part than there are separators. */
  lemma {:induction false} SplitCount(s: string, sep: char)
    ensures |Split(s, sep)| == Count(s, sep) + 1
  {
    if |s| > 0 {
      SplitCount(s[1..], sep);
    }
  }

  function SumCounts(parts: seq<string>, c: char): nat {
    if |parts| == 0 then 0 else Count(parts[0], c) + SumCounts(parts[1..], c)
  }

  /** The parts together hold every non-separator character of the input. */
  lemma {:induction false} SplitKeepsOtherCounts(s: string, sep: char, c: char)
    requires c != sep
    ensures SumCounts(Split(s, sep), c) == Count(s, c)
  {
    if |s| > 0 {
      var rest := Split(s[1..], sep);
      SplitKeepsOtherCounts(s[1..], sep, c);
      if s[0] == sep {
        assert ([""] + rest)[1..] == rest;
      } else {
        var q := [[s[0]] + rest[0]] + rest[1..];
        assert q[1..] == rest[1..];
        assert SumCounts(rest, c) == Count(rest[0], c) + SumCounts(rest[1..], c);
        CountConcat([s[0]], rest[0], c);
      }
    }
  }

  lemma {:induction false} JoinCount(glue: string, parts: seq<string>, c: char)
    requires |parts| >= 1
    ensures Count(Join(glue, parts), c) == SumCounts(parts, c) + (|parts| - 1) * Count(glue, c)
  {
    if |parts| > 1 {
      var tail := Join(glue, parts[1..]);
      var g := Count(glue, c);
      JoinCount(glue, parts[1..], c);
      assert Join(glue, parts) == parts[0] + glue + tail;
      CountConcat(parts[0] + glue, tail, c);
      CountConcat(parts[0], glue, c);
      assert SumCounts(parts, c) == Count(parts[0], c) + SumCounts(parts[1..], c);
      assert (|parts| - 1) * g == (|parts| - 2) * g + g;
    }
  }

  lemma {:induction false} JoinFree(glue: string, parts: seq<string>, c: char)
    requires c !in glue
    requires forall p :: p in parts ==> c !in p
    ensures c !in Join(glue, parts)
  {
    if |parts| > 1 {
      JoinFree(glue, parts[1..], c);
    }
  }

  function StripAll(parts: seq<string>): (r: seq<string>)
    ensures |r| == |parts|
    ensures forall i :: 0 <= i < |parts| ==> r[i] == Strip(parts[i])
  {
    if |parts| == 0 then [] else [Strip(parts[0])] + StripAll(parts[1..])
  }

  lemma {:induction false} StripAllCounts(parts: seq<string>, c: char)
    requires !IsSpace(c)
    ensures SumCounts(StripAll(parts), c) == SumCounts(parts, c)
  {
    if |parts| > 0 {
      StripAllCounts(parts[1..], c);
      StripKeepsCount(parts[0], c);
      assert StripAll(parts)[1..] == StripAll(parts[1..]);
    }
  }

  lemma StripFree(s: string, c: char)
    requires c !in s
    ensures c !in Strip(s)
  {
    var i := StripWindow(s);
    assert forall k :: 0 <= k < |Strip(s)| ==> Strip(s)[k] == s[i + k];
  }

  // ---------------------------------------------------------------------------
  // rfind / split(c)[-1]
  // ---------------------------------------------------------------------------

  /** `s.rfind(c)`, with `None` for -1. */
  function LastIndexOf(s: string, c: char): (r: Option<nat>)
    ensures r.Some? ==> r.value < |s| && s[r.value] == c && c !in s[r.value + 1..]
    ensures r.None? <==> c !in s
  {
    if |s| == 0 then None
    else if s[|s| - 1] == c then Some(|s| - 1)
    else
      assert s == s[..|s| - 1] + [s[|s| - 1]];
      match LastIndexOf(s[..|s| - 1], c)
      case Some(i) =>
        assert s[i + 1..] == s[..|s| - 1][i + 1..] + [s[|s| - 1]];
        Some(i)
      case None => None
  }

  /** The index of a `c` with no `c` after it is the last index. */
  lemma LastIndexOfUnique(s: string, c: char, i: nat)
    requires i < |s| && s[i] == c && c !in s[i + 1..]
    ensures LastIndexOf(s, c) == Some(i)
  {
    var j := LastIndexOf(s, c).value;
    forall k | i < k < |s|
      ensures s[k] != c
    {
      assert s[k] == s[i + 1..][k - i - 1];
    }
    forall k | j < k < |s|
      ensures s[k] != c
    {
      assert s[k] == s[j + 1..][k - j - 1];
    }
  }

  /** `s.split(c)[-1]`: the text after the last `c`, or all of `s` when there is none. */
  function AfterLast(s: string, c: char): (r: string)
    ensures c !in r
    ensures |r| <= |s| && r == s[|s| - |r|..]
  {
    match LastIndexOf(s, c)
    case Some(i) => s[i + 1..]
    case None => s
  }

  /** The last index of `c` in `s` is the last index in its tail, shifted, when the tail has one. */
  lemma LastIndexOfTail(s: string, c: char)
    requires |s| > 0 && c in s[1..]
    ensures LastIndexOf(s, c) == Some(LastIndexOf(s[1..], c).value + 1)
  {
    var j := LastIndexOf(s[1..], c).value;
    var i := LastIndexOf(s, c).value;
    assert s[j + 1] == c;
    forall k | i < k < |s|
      ensures s[k] != c
    {
      assert s[k] == s[i + 1..][k - i - 1];
    }
    forall k | j + 1 < k < |s|
      ensures s[k] != c
    {
      assert s[k] == s[1..][j + 1..][k - j - 2];
    }
  }

  /** `AfterLast` agrees with taking the last part of `Split`. */
  lemma {:induction false} AfterLastIsLastPart(s: string, c: char)
    ensures AfterLast(s, c) == Split(s, c)[|Split(s, c)| - 1]
  {
    if |s| > 0 {
      AfterLastIsLastPart(s[1..], c);
      if c in s[1..] {
        LastPartTail(s, c);
      } else if s[0] == c {
        LastPartSeparator(s, c);
      } else {
        LastPartWhole(s, c);
      }
    }
  }

  /** The last part of a split, in terms of the split of the tail. */
  lemma SplitLast(s: string, c: char)
    requires |s| > 0
    ensures var rest := Split(s[1..], c);
      Split(s, c)[|Split(s, c)| - 1] ==
        (if s[0] == c || |rest| > 1 then rest[|rest| - 1] else [s[0]] + rest[0])
  {
  }

  lemma LastPartTail(s: string, c: char)
    requires |s| > 0 && c in s[1..]
    requires AfterLast(s[1..], c) == Split(s[1..], c)[|Split(s[1..], c)| - 1]
    ensures AfterLast(s, c) == Split(s, c)[|Split(s, c)| - 1]
  {
    SplitLast(s, c);
    SplitCount(s[1..], c);
    CountAbsent(s[1..], c);
    AfterLastTail(s, c);
  }

  lemma LastPartSeparator(s: string, c: char)
    requires |s| > 0 && s[0] == c && c !in s[1..]
    requires AfterLast(s[1..], c) == Split(s[1..], c)[|Split(s[1..], c)| - 1]
    ensures AfterLast(s, c) == Split(s, c)[|Split(s, c)| - 1]
  {
    SplitLast(s, c);
    LastIndexOfUnique(s, c, 0);
  }

  lemma LastPartWhole(s: string, c: char)
    requires |s| > 0 && s[0] != c && c !in s[1..]
    requires AfterLast(s[1..], c) == Split(s[1..], c)[|Split(s[1..], c)| - 1]
    ensures AfterLast(s, c) == Split(s, c)[|Split(s, c)| - 1]
  {
    var rest := Split(s[1..], c);
    SplitCount(s[1..], c);
    CountAbsent(s[1..], c);
    assert |rest| == 1;
    AfterLastAbsent(s, c);
    assert rest[0] == s[1..];
    SplitLast(s, c);
    assert [s[0]] + s[1..] == s;
  }

  /** A `c` in the tail puts the last `c` of `s` there. */
  lemma AfterLastTail(s: string, c: char)
    requires |s| > 0 && c in s[1..]
    ensures AfterLast(s, c) == AfterLast(s[1..], c)
  {
    LastIndexOfTail(s, c);
    assert s[1..][LastIndexOf(s[1..], c).value + 1..] == s[LastIndexOf(s, c).value + 1..];
  }

  /** Without `c` anywhere, `AfterLast` is the whole string. */
  lemma AfterLastAbsent(s: string, c: char)
    requires |s| > 0 && s[0] != c && c !in s[1..]
    ensures AfterLast(s, c) == s && AfterLast(s[1..], c) == s[1..]
  {
    assert c !in s by {
      assert s == [s[0]] + s[1..];
    }
  }

  // ---------------------------------------------------------------------------
  // str(int) and int(str)
  // ---------------------------------------------------------------------------

  function DigitChar(d: nat): char
    requires d < 10
  {
    ('0' as int + d) as char
  }

  function DigitValue(c: char): nat
    requires IsAsciiDigit(c)
  {
    c as int - '0' as int
  }

  predicate AllDigits(s: string) {
    forall i :: 0 <= i < |s| ==> IsAsciiDigit(s[i])
  }

  /** Decimal representation of a natural number, without leading zeros. */
  function NatToString(n: nat): (r: string)
    ensures |r| >= 1 && AllDigits(r)
    ensures |r| > 1 ==> r[0] != '0'
  {
    if n < 10 then [DigitChar(n)] else NatToString(n / 10) + [DigitChar(n % 10)]
  }

  /** `str(i)` for a Python int. */
  function IntToString(i: int): string {
    if i < 0 then "-" + NatToString(-i) else NatToString(i)
  }

  function ParseDigits(s: string): nat
    requires AllDigits(s)
  {
    if |s| == 0 then 0 else 10 * ParseDigits(s[..|s| - 1]) + DigitValue(s[|s| - 1])
  }

  /** `int(s)` for a string: surrounding whitespace, an optional sign, then decimal digits. */
  function ParseInt(s: string): Option<int> {
    var t := Strip(s);
    var negative := |t| > 0 && t[0] == '-';
    var digits := if |t| > 0 && (t[0] == '-' || t[0] == '+') then t[1..] else t;
    if |digits| > 0 && AllDigits(digits) then
      Some(if negative then -(ParseDigits(digits) as int) else ParseDigits(digits))
    else None
  }

  lemma {:induction false} ParseNatToString(n: nat)
    ensures ParseDigits(NatToString(n)) == n
  {
    if n >= 10 {
      var s := NatToString(n);
      assert s[..|s| - 1] == NatToString(n / 10);
      ParseNatToString(n / 10);
    }
  }

  lemma DigitNotSpace(c: char)
    requires IsAsciiDigit(c)
    ensures !IsSpace(c)
  {
  }

  /** `str(i)` neither starts nor ends with whitespace, so stripping keeps it. */
  lemma StripIntToString(i: int)
    ensures Strip(IntToString(i)) == IntToString(i)
  {
    var d := NatToString(if i < 0 then -i else i);
    var s := IntToString(i);
    DigitNotSpace(d[0]);
    DigitNotSpace(d[|d| - 1]);
    assert s[|s| - 1] == d[|d| - 1];
    assert s[0] == '-' || s[0] == d[0];
    StripNoSpaceEnds(s);
  }

  /** `int(str(i)) == i`. */
  lemma ParseIntToString(i: int)
    ensures ParseInt(IntToString(i)) == Some(i)
  {
    StripIntToString(i);
    var s := IntToString(i);
    if i < 0 {
      assert s[1..] == NatToString(-i);
      ParseNatToString(-i);
    } else {
      ParseNatToString(i);
    }
  }

  /** A non-digit, non-space, non-sign character makes `int(s)` fail. */
  lemma ParseIntRejects(s: string, k: int)
    requires 0 <= k < |s|
    requires !IsAsciiDigit(s[k]) && !IsSpace(s[k]) && s[k] != '-' && s[k] != '+'
    ensures ParseInt(s) == None
  {
    var i := StripWindow(s);
    var t := Strip(s);
    assert i <= k < i + |t|;
    assert t[k - i] == s[k];
  }

  /** f"{n:04d}": zero-padded to at least four digits. */
  function Pad4(n: nat): (r: string)
    ensures |r| >= 4 && AllDigits(r)
  {
    var d := NatToString(n);
    if |d| >= 4 then d else seq(4 - |d|, _ => '0') + d
  }
}

=== FILE: validation.dfy ===
/**
 * Step 6 of the pipeline: schema validation of the standardised records, the
 * 80% confidence threshold, the field-integrity report and the final quality
 * score.
 *
 * Ratios are exact reals; the thresholds 0.8 and 0.9 are also stated as the
 * integer comparisons `5 * valid >= 4 * total` and `10 * complete >= 9 * total`
 * they are equivalent to.
 */
module Validation {
  import opened Values
  import opened Schemas
  import opened Counting

  // ---------------------------------------------------------------------------
  // Exact ratios
  // ---------------------------------------------------------------------------

  /** `part / total` as an exact ratio. */
  function Ratio(part: nat, total: nat): (q: real)
    requires 0 < total && part <= total
    ensures q * (total as real) == part as real
    ensures 0.0 <= q <= 1.0
  {
    var q := part as real / total as real;
    if q > 1.0 then
      MulStrict(1.0, q, total as real);
      q
    else q
  }

  /** `valid / total >= num / den` is the integer comparison `den * valid >= num * total`. */
  lemma RatioThreshold(valid: nat, total: nat, num: nat, den: nat)
    requires total > 0 && den > 0 && valid <= total
    ensures Ratio(valid, total) >= num as real / den as real <==> den * valid >= num * total
  {
    var conf := Ratio(valid, total);
    var t := total as real;
    var v := valid as real;
    var d := den as real;
    var q := num as real / d;
    assert conf * t == v;
    assert q * d == num as real;
    MulLe(q, conf, t);
    assert conf >= q <==> v >= q * t;
    MulLe(q * t, v, d);
    MulSwap(q, t, d);
    CastMul(den, valid);
    CastMul(num, total);
  }

  lemma MulSwap(a: real, b: real, c: real)
    ensures (a * b) * c == (a * c) * b
  {
  }

  lemma CastMul(a: nat, b: nat)
    ensures (a * b) as real == (a as real) * (b as real)
  {
  }

  /** Multiplying the ratio back by the whole and truncating gives the part exactly. */
  lemma RatioFloor(part: nat, total: nat)
    requires 0 < total && part <= total
    ensures Truncate(total, Ratio(part, total)) == part
  {
    assert (total as real) * Ratio(part, total) == part as real;
  }

  /** `int(total * q)`: truncation toward zero, which is the floor for the non-negative values here. */
  function Truncate(total: nat, q: real): int {
    ((total as real) * q).Floor
  }

  /** A whole over itself is 1. */
  lemma RatioWhole(total: nat)
    requires 0 < total
    ensures Ratio(total, total) == 1.0
  {
    MulCancel(Ratio(total, total), 1.0, total as real);
  }

  lemma MulLe(a: real, b: real, c: real)
    requires c > 0.0
    ensures a <= b <==> a * c <= b * c
  {
    if b < a {
      MulStrict(b, a, c);
    }
  }

  lemma MulCancel(a: real, b: real, c: real)
    requires c > 0.0 && a * c == b * c
    ensures a == b
  {
    if a < b {
      MulStrict(a, b, c);
    } else if b < a {
      MulStrict(b, a, c);
    }
  }

  lemma MulStrict(a: real, b: real, c: real)
    requires a < b && c > 0.0
    ensures a * c < b * c
  {
  }

  // ---------------------------------------------------------------------------
  // validate
  // ---------------------------------------------------------------------------

  /** An entry of the `errors` list. */
  datatype ValidationError =
    | NoRecords                  // "No hay registros para validar"
    | RecordRejected(index: nat) // "Registro {idx}: <ValidationError text>"

  datatype Validation = Validation(isValid: bool, confidence: real, errors: seq<ValidationError>)

  /** The schema check of `validate` as a predicate on one record. */
  function AcceptedBy(rag: Rag): Record -> bool {
    d => Accepts(rag, d)
  }

  /** The errors of the loop: one per rejected record, in record order. */
  function Rejections(rag: Rag, records: seq<Record>): (es: seq<ValidationError>)
    ensures forall e :: e in es ==> e.RecordRejected?
    ensures forall i: nat :: RecordRejected(i) in es <==> i < |records| && !Accepts(rag, records[i])
    ensures forall a, b :: 0 <= a < b < |es| ==> es[a].index < es[b].index
    ensures forall e :: e in es ==> e.index < |records|
  {
    if |records| == 0 then []
    else
      var k := |records| - 1;
      var before := Rejections(rag, records[..k]);
      if Accepts(rag, records[k]) then before else before + [RecordRejected(k)]
  }

  /** The number of rejected records plus the number of valid ones is the total. */
  lemma {:induction false} RejectionsCount(rag: Rag, records: seq<Record>)
    ensures |Rejections(rag, records)| + CountWhere(records, AcceptedBy(rag)) == |records|
  {
    if |records| > 0 {
      var k := |records| - 1;
      RejectionsCount(rag, records[..k]);
      assert records == records[..k] + [records[k]];
      CountWhereSnoc(records[..k], records[k], AcceptedBy(rag));
    }
  }

  /** `DataValidation.validate`. */
  function Validate(records: seq<Record>, rag: Rag): (r: Validation)
    ensures |records| == 0 ==> r == Validation(false, 0.0, [NoRecords])
    ensures |records| > 0 ==> r.confidence == Ratio(CountWhere(records, AcceptedBy(rag)), |records|)
    ensures 0.0 <= r.confidence <= 1.0
    ensures r.isValid <==> |records| > 0 && 5 * CountWhere(records, AcceptedBy(rag)) >= 4 * |records|
    ensures NoRecords in r.errors <==> |records| == 0
    ensures |records| > 0 ==> forall i: nat :: RecordRejected(i) in r.errors <==> i < |records| && !Accepts(rag, records[i])
  {
    if |records| == 0 then Validation(false, 0.0, [NoRecords])
    else
      var valid := CountWhere(records, AcceptedBy(rag));
      var conf := Ratio(valid, |records|);
      RatioThreshold(valid, |records|, 4, 5);
      var es := Rejections(rag, records);
      assert NoRecords !in es;
      Validation(conf >= 0.8, conf, es)
  }

  /** When every record constructs, confidence is 1, nothing is reported and the batch is valid. */
  lemma ValidateAllAccepted(records: seq<Record>, rag: Rag)
    requires |records| > 0
    requires forall d :: d in records ==> Accepts(rag, d)
    ensures Validate(records, rag) == Validation(true, 1.0, [])
  {
    AllCounted(records, AcceptedBy(rag));
    RejectionsCount(rag, records);
    RatioWhole(|records|);
  }

  /** Exactly 8 valid records out of 10 pass the threshold; 7 out of 10 do not. */
  lemma ThresholdBoundary(records: seq<Record>, rag: Rag)
    requires |records| == 10
    ensures CountWhere(records, AcceptedBy(rag)) == 8 ==> Validate(records, rag).isValid && Validate(records, rag).confidence == 0.8
    ensures CountWhere(records, AcceptedBy(rag)) == 7 ==> !Validate(records, rag).isValid
  {
  }

  /** Adding a record that constructs never turns a valid batch invalid. */
  lemma ValidateAppendAccepted(records: seq<Record>, d: Record, rag: Rag)
    requires Accepts(rag, d)
    requires Validate(records, rag).isValid
    ensures Validate(records + [d], rag).isValid
  {
    CountWhereSnoc(records, d, AcceptedBy(rag));
  }

  /** Adding a record that is rejected never turns an invalid non-empty batch valid. */
  lemma ValidateAppendRejected(records: seq<Record>, d: Record, rag: Rag)
    requires !Accepts(rag, d)
    requires !Validate(records, rag).isValid
    ensures !Validate(records + [d], rag).isValid || |records| == 0
  {
    CountWhereSnoc(records, d, AcceptedBy(rag));
  }

  // ---------------------------------------------------------------------------
  // _check_integrity
  // ---------------------------------------------------------------------------

  /** The fields the integrity check requires, per schema and in this order. */
  function RequiredFields(rag: Rag): seq<string> {
    match rag
    case Rag1 => ["id", "articulo_id", "tipo", "numero", "titulo", "texto"]
    case Rag2 => ["id", "descripcion", "tipo", "servicio", "categoria", "subcategoria", "fuente"]
  }

  /** The descriptive field checked whatever the schema. */
  function DescriptionField(rag: Rag): string {
    match rag
    case Rag1 => "texto"
    case Rag2 => "descripcion"
  }

  /** A field counts as missing when absent, `None` or the empty string. */
  predicate FieldMissing(d: Record, field: string) {
    field !in d || d[field].Null? || d[field] == Str("")
  }

  predicate Complete(rag: Rag, d: Record) {
    forall f :: f in RequiredFields(rag) ==> !FieldMissing(d, f)
  }

  /** A present description that is `None` or empty. */
  predicate EmptyDescription(rag: Rag, d: Record) {
    var f := DescriptionField(rag);
    f in d && (d[f].Null? || d[f] == Str(""))
  }

  /** A present, non-empty string description of fewer than 20 characters. */
  predicate ShortDescription(rag: Rag, d: Record) {
    var f := DescriptionField(rag);
    f in d && d[f].Str? && 0 < |d[f].s| < 20
  }

  datatype Status = Good | NeedsReview

  datatype DescriptionWarning = EmptyDescriptions(emptyCount: nat) | ShortDescriptions(shortCount: nat)

  datatype Integrity =
    | EmptyBatch  // {"status": "empty"}
    | Integrity(status: Status, completeness: real, complete: nat, total: nat,
                missingFields: seq<(string, nat)>, warnings: seq<DescriptionWarning>)

  /** How many records miss `field`. */
  function MissingCount(records: seq<Record>, field: string): nat {
    CountWhere(records, d => FieldMissing(d, field))
  }

  /** The `missing_fields` dict: required fields with a nonzero missing count, in required order. */
  function MissingFields(fields: seq<string>, records: seq<Record>): (m: seq<(string, nat)>)
    ensures forall e :: e in m ==> e.0 in fields && e.1 == MissingCount(records, e.0) && e.1 > 0
    ensures forall f :: f in fields && MissingCount(records, f) > 0 ==> (f, MissingCount(records, f)) in m
    ensures |m| <= |fields|
  {
    if |fields| == 0 then []
    else
      var n := MissingCount(records, fields[0]);
      var rest := MissingFields(fields[1..], records);
      assert forall f :: f in fields ==> f == fields[0] || f in fields[1..];
      if n > 0 then [(fields[0], n)] + rest else rest
  }

  /** No record misses `field` exactly when its count is zero. */
  lemma MissingCountZero(records: seq<Record>, field: string)
    ensures MissingCount(records, field) == 0 <==> forall d :: d in records ==> !FieldMissing(d, field)
  {
    SomeCounted(records, d => FieldMissing(d, field));
  }

  /** `missing_fields` is empty exactly when every record is complete. */
  lemma MissingFieldsEmptyIffAllComplete(records: seq<Record>, rag: Rag)
    ensures MissingFields(RequiredFields(rag), records) == [] <==> CompleteCount(records, rag) == |records|
  {
    var fields := RequiredFields(rag);
    var m := MissingFields(fields, records);
    AllCounted(records, d => Complete(rag, d));
    forall f | f in fields {
      MissingCountZero(records, f);
    }
    if m != [] {
      var e := m[0];
      assert e in m;
      assert !(forall d :: d in records ==> !FieldMissing(d, e.0));
    }
  }

  /** The description warnings, empty before short, each only when its count is nonzero. */
  function DescriptionWarnings(empties: nat, shorts: nat): (ws: seq<DescriptionWarning>)
    ensures EmptyDescriptions(empties) in ws <==> empties > 0
    ensures ShortDescriptions(shorts) in ws <==> shorts > 0
    ensures |ws| == 0 <==> empties == 0 && shorts == 0
  {
    (if empties > 0 then [EmptyDescriptions(empties)] else [])
    + (if shorts > 0 then [ShortDescriptions(shorts)] else [])
  }

  function CompleteCount(records: seq<Record>, rag: Rag): nat {
    CountWhere(records, d => Complete(rag, d))
  }

  function EmptyDescriptionCount(records: seq<Record>, rag: Rag): nat {
    CountWhere(records, d => EmptyDescription(rag, d))
  }

  function ShortDescriptionCount(records: seq<Record>, rag: Rag): nat {
    CountWhere(records, d => ShortDescription(rag, d))
  }

  /** `DataValidation._check_integrity`. */
  function CheckIntegrity(records: seq<Record>, rag: Rag): (r: Integrity)
    ensures r.EmptyBatch? <==> |records| == 0
    ensures r.Integrity? ==> r.total == |records| && r.complete == CompleteCount(records, rag)
    ensures r.Integrity? ==> r.completeness == Ratio(r.complete, r.total)
    ensures r.Integrity? ==> (r.status == Good <==> 10 * r.complete >= 9 * r.total && |r.warnings| == 0)
    ensures r.Integrity? ==> (EmptyDescriptions(EmptyDescriptionCount(records, rag)) in r.warnings <==> EmptyDescriptionCount(records, rag) > 0)
    ensures r.Integrity? ==> (ShortDescriptions(ShortDescriptionCount(records, rag)) in r.warnings <==> ShortDescriptionCount(records, rag) > 0)
    ensures r.Integrity? ==> (|r.warnings| == 0 <==> EmptyDescriptionCount(records, rag) == 0 && ShortDescriptionCount(records, rag) == 0)
  {
    if |records| == 0 then EmptyBatch
    else
      Assess(CompleteCount(records, rag), |records|, MissingFields(RequiredFields(rag), records),
             DescriptionWarnings(EmptyDescriptionCount(records, rag), ShortDescriptionCount(records, rag)))
  }

  /** The integrity report of a non-empty batch: "good" needs a 90% completeness rate and no warning. */
  function Assess(complete: nat, total: nat, missing: seq<(string, nat)>, ws: seq<DescriptionWarning>): (r: Integrity)
    requires 0 < total && complete <= total
    ensures r.Integrity? && r.total == total && r.complete == complete
    ensures r.completeness == Ratio(complete, total) && r.missingFields == missing && r.warnings == ws
    ensures r.status == Good <==> 10 * complete >= 9 * total && |ws| == 0
  {
    var rate := Ratio(complete, total);
    RatioThreshold(complete, total, 9, 10);
    Integrity(if rate >= 0.9 && |ws| == 0 then Good else NeedsReview, rate, complete, total, missing, ws)
  }

  /** A single short description among the records blocks the "good" status. */
  lemma ShortDescriptionBlocksGood(records: seq<Record>, rag: Rag)
    requires exists d :: d in records && ShortDescription(rag, d)
    ensures CheckIntegrity(records, rag).Integrity? && CheckIntegrity(records, rag).status == NeedsReview
  {
    SomeCounted(records, d => ShortDescription(rag, d));
  }

  /** Every record complete and every description at least 20 characters long gives "good". */
  lemma AllCompleteIsGood(records: seq<Record>, rag: Rag)
    requires |records| > 0
    requires forall d :: d in records ==> Complete(rag, d) && !ShortDescription(rag, d)
    ensures CheckIntegrity(records, rag).status == Good
    ensures CheckIntegrity(records, rag).completeness == 1.0
  {
    AllCounted(records, d => Complete(rag, d));
    RatioWhole(|records|);
    forall d | d in records
      ensures !EmptyDescription(rag, d)
    {
      EmptyDescriptionIncomplete(rag, d);
    }
    SomeCounted(records, d => EmptyDescription(rag, d));
    SomeCounted(records, d => ShortDescription(rag, d));
  }

  /** An empty description is also a missing required field, so that record is never complete. */
  lemma EmptyDescriptionIncomplete(rag: Rag, d: Record)
    ensures EmptyDescription(rag, d) ==> !Complete(rag, d)
  {
    assert DescriptionField(rag) in RequiredFields(rag);
  }

  // ---------------------------------------------------------------------------
  // validate_structure and calculate_quality_score
  // ---------------------------------------------------------------------------

  datatype StructureValidation = StructureValidation(
    isValid: bool, confidence: real, errors: seq<ValidationError>,
    totalRecords: nat, validRecords: int, integrity: Integrity)

  /** `DataValidation.validate_structure`: `valid_records` is `int(total * confidence)`. */
  function ValidateStructure(records: seq<Record>, rag: Rag): (r: StructureValidation)
    ensures r.totalRecords == |records|
    ensures r.validRecords == CountWhere(records, AcceptedBy(rag))
    ensures r.isValid == Validate(records, rag).isValid && r.errors == Validate(records, rag).errors
    ensures r.integrity.EmptyBatch? <==> |records| == 0
  {
    var v := Validate(records, rag);
    if |records| > 0 then
      RatioFloor(CountWhere(records, AcceptedBy(rag)), |records|);
      StructureValidation(v.isValid, v.confidence, v.errors, |records|, Truncate(|records|, v.confidence), CheckIntegrity(records, rag))
    else
      StructureValidation(v.isValid, v.confidence, v.errors, |records|, Truncate(|records|, v.confidence), CheckIntegrity(records, rag))
  }

  /** The integrity completeness as `calculate_quality_score` reads it: 0 when the batch was empty. */
  function Completeness(i: Integrity): real {
    match i
    case EmptyBatch => 0.0
    case Integrity(_, rate, _, _, _, _) => rate
  }

  /** `DataValidation.calculate_quality_score`: 60% confidence, 40% completeness. */
  function QualityScore(v: StructureValidation): (q: real)
    requires 0.0 <= v.confidence <= 1.0 && 0.0 <= Completeness(v.integrity) <= 1.0
    ensures 0.0 <= q <= 1.0
    ensures q == 1.0 <==> v.confidence == 1.0 && Completeness(v.integrity) == 1.0
    ensures q >= 0.6 * v.confidence && q >= 0.4 * Completeness(v.integrity)
  {
    v.confidence * 0.6 + Completeness(v.integrity) * 0.4
  }

  /** Every structure report of a batch lies within the score's domain. */
  lemma StructureInRange(records: seq<Record>, rag: Rag)
    ensures var v := ValidateStructure(records, rag);
      0.0 <= v.confidence <= 1.0 && 0.0 <= Completeness(v.integrity) <= 1.0
  {
  }

  /** An empty batch scores 0. */
  lemma EmptyBatchScoresZero(rag: Rag)
    ensures QualityScore(ValidateStructure([], rag)) == 0.0
  {
  }
}

=== FILE: values.dfy ===
/**
 * Cell values, data frames and row dictionaries: the data every pipeline stage
 * passes to the next.
 */
module Values {
  import opened Wrappers
  import opened Text

  /** A scalar cell: pandas' missing value (None or NaN), a string, or an integer. */
  datatype Value = Null | Str(s: string) | Int(i: int)

  /** Python truthiness of a cell. */
  predicate Truthy(v: Value) {
    match v
    case Null => false
    case Str(s) => s != ""
    case Int(i) => i != 0
  }

  /**
   * `str(v)`. Records built by the rule engine only ever hold `None` as their
   * missing value (NaN never gets past `pd.isna`), so `Null` prints as "None".
   */
  function PyStr(v: Value): string {
    match v
    case Null => "None"
    case Str(s) => s
    case Int(i) => IntToString(i)
  }

  /** `int(v)`; `None` stands for the `ValueError`/`TypeError` it raises. */
  function PyInt(v: Value): (r: Option<int>)
    ensures v.Int? ==> r == Some(v.i)
    ensures v.Null? ==> r.None?
  {
    match v
    case Null => None
    case Str(s) => ParseInt(s)
    case Int(i) => Some(i)
  }

  /** One row of a frame: one cell per column, by position. */
  type Row = seq<Value>

  /** A pandas DataFrame: column labels (possibly repeated) and rows of cells. */
  datatype Frame = Frame(columns: seq<string>, rows: seq<Row>)

  predicate WellFormed(f: Frame) {
    forall r :: r in f.rows ==> |r| == |f.columns|
  }

  /** `df.empty`: no rows or no columns. */
  predicate IsEmpty(f: Frame) {
    |f.rows| == 0 || |f.columns| == 0
  }

  /** The cells of column `j`, top to bottom. */
  function Column(f: Frame, j: nat): (cells: seq<Value>)
    requires WellFormed(f) && j < |f.columns|
    ensures |cells| == |f.rows|
    ensures forall i :: 0 <= i < |f.rows| ==> cells[i] == f.rows[i][j]
  {
    seq(|f.rows|, i requires 0 <= i < |f.rows| => f.rows[i][j])
  }

  /**
   * pandas infers `object` dtype for a column that holds strings; integer
   * and all-missing columns get a numeric dtype.
   */
  predicate IsObjectColumn(f: Frame, j: nat)
    requires WellFormed(f) && j < |f.columns|
  {
    exists i :: 0 <= i < |f.rows| && f.rows[i][j].Str?
  }

  /** Another column carries the same label as column `j`. */
  predicate LabelRepeated(columns: seq<string>, j: nat)
    requires j < |columns|
  {
    exists k :: 0 <= k < |columns| && k != j && columns[k] == columns[j]
  }

  /** Some label names more than one column. */
  predicate HasRepeatedLabel(columns: seq<string>) {
    exists j :: 0 <= j < |columns| && LabelRepeated(columns, j)
  }

  /**
   * What pandas raises when a repeated label makes `df[col]` a frame rather
   * than a single column.
   */
  datatype LabelError =
    | AmbiguousTruth  // `if pd.notna(x)` on a whole column: ValueError
    | NoDtype         // `df[col].dtype` on a frame: AttributeError

  /** How many times `name` labels a column. */
  function Occurrences(columns: seq<string>, name: string): nat {
    if |columns| == 0 then 0
    else (if columns[0] == name then 1 else 0) + Occurrences(columns[1..], name)
  }

  /** A row as a Python dict (`df.to_dict(orient='records')`). */
  type Record = map<string, Value>

  /**
   * The dict of one row; when a label repeats, the rightmost column's cell wins.
   */
  function RowDict(columns: seq<string>, row: Row): (d: Record)
    requires |row| == |columns|
    ensures d.Keys == set c | c in columns
  {
    if |columns| == 0 then map[]
    else
      var n := |columns| - 1;
      assert columns == columns[..n] + [columns[n]];
      RowDict(columns[..n], row[..n])[columns[n] := row[n]]
  }

  /** A label that does not repeat further right reads its own cell. */
  lemma {:induction false} RowDictAt(columns: seq<string>, row: Row, j: nat)
    requires |row| == |columns| && j < |columns|
    requires columns[j] !in columns[j + 1..]
    ensures RowDict(columns, row)[columns[j]] == row[j]
  {
    var n := |columns| - 1;
    if j < n {
      assert columns[n] in columns[j + 1..];
      assert columns[..n][j + 1..] <= columns[j + 1..];
      RowDictAt(columns[..n], row[..n], j);
    }
  }

  /** `df.to_dict(orient='records')`. */
  function Records(f: Frame): (rs: seq<Record>)
    requires WellFormed(f)
    ensures |rs| == |f.rows|
    ensures forall i :: 0 <= i < |f.rows| ==> rs[i] == RowDict(f.columns, f.rows[i])
  {
    seq(|f.rows|, i requires 0 <= i < |f.rows| => RowDict(f.columns, f.rows[i]))
  }
}

=== FILE: wrappers.dfy ===
/** Failure-compatible Option and Result datatypes shared by every module. */
module Wrappers {

  datatype Option<+T> = None | Some(value: T) {

    /** The wrapped value, or `default` when there is none. */
    function GetOr(default: T): T {
      match this
      case Some(v) => v
      case None => default
    }
  }

  /** A computation that either succeeds with a value or raises an error. */
  datatype Result<+R, +E> = Success(value: R) | Failure(error: E) {

    predicate IsFailure() {
      Failure?
    }

    function PropagateFailure<U>(): Result<U, E>
      requires Failure?
    {
      Failure(error)
    }

    function Extract(): R
      requires Success?
    {
      value
    }
  }
}
